=== FILE: README.md ===
# USB433 OOK radio bridge: a Dafny model of the radio pipeline

The USB433 firmware (version 2.1.0, STM32F103) bridges a USB host and a
433 MHz on-off-keyed radio. The host sends text commands such as `tx 0101`
or `rx timeout 20000`. The firmware does four things:

- it queues words in a five-row transmit queue;
- it encodes the head row into PWM duty values for a DMA-driven timer;
- it sends each word as a burst of `frame_repeat + 1` frames;
- it decodes received pulse trains into words, which it announces to the
  host once enough identical copies have arrived.

This project models that pipeline in Dafny and proves properties about it.

| module | file | models |
|---|---|---|
| `Platform` | platform.dfy | The shared 32-bit `status` word and its transmitter and receiver flag bytes; the receive-radio enable pin, the transmit-activity pin, the PWM/DMA engine and the TIM1 auto-reload register (as a `Board` object); wrapping millisecond-tick arithmetic. |
| `MoreMath` | more_math.cpp | `mode` (sort in place, then count runs), the qsort comparator, `avg`, and the uint16 `min`/`max`. |
| `RxCorrelation` | receiver.cpp | `clearRxPacket` and `receivedWord`: the 12-slot correlation buffer, with its length filter, timeout reset, circular insertion, majority vote and `last_match` suppression. |
| `Receiver` | receiver.cpp, receiver.h | The capture and overflow callbacks, the 320-slot sample ring with its three cursors, and `checkRxBuffers`. For `checkRxBuffers` the model has a pure specification (`Step`/`Run`) and imperative methods proved against it. |
| `Transmitter` | transmitter.cpp, transmitter.h | The encoder `makeTxPacket`, the burst and frame pacing of `processTx`, the PWM completion callback, and `updateARR`. |
| `Commands` | commands.cpp, commands.h | `tokenize`, the command tree and `dispatch`, every setter handler, and the `tx <word>` enqueue. |
| `CoreMain` | core_main.cpp | The two feedback blocks of `USER_loop`: the transmit report with its queue shift, and the confirmed-word report with its running mean. |
| `Link` | (whole pipeline) | The end-to-end lemma: a queued word, encoded by the transmitter and captured one pulse per symbol, comes back out of the receiver's word builder unchanged. |

Modelling conventions:

- **Hardware as parameters.** The hardware is not modelled directly.
  - `HAL_GetTick`, `TIM2->CNT` and the captured timer values are method parameters.
  - GPIO, DMA and the ARR register are fields of `Platform.Board`.
  - The `status` word is a `Platform.StatusRegister` holding a `bv32`.
- **Integer widths.** C integer widths are unbounded `nat`s with the firmware's wrap-around written out (`% TWO_POW_32`, `% 256`). Where a contract relies on no wrap-around, a precondition says so.
- **Strings.** A string is the text before its NUL terminator. A queue row is `[]` when its first byte is 0.
- **Parsed arguments.** Handlers take the already parsed integer argument as an `Option<int>`, where `None` means no argument. They return a `Commands.Response` in place of the text written to the USB buffer.

Where the firmware's documentation and its code differ, the model follows the code:

- **Confirmation also waits for `match_thresh` later words.** `match_thresh` (default 3) is documented in receiver.h as the minimum number of repeated messages for a word to count as valid. The code asks for two things. The scan in `receivedWord` only visits slots `i < index - match_thresh`, so at least `match_thresh` words must be stored after slot `i`. Slot `i` then confirms when `match_thresh` copies of its word are stored, counting itself. Three copies followed by any fourth word confirm, in any order (`RxCorrelation.CopiesConfirmSlotZero`). When nothing but copies arrives, it is the fourth copy that confirms (`RxCorrelation.RepeatsConfirmSlotZero`).
- **Starting a burst clears other flags.** `processTx` starts a burst with `status &= (TX_COMPLETE << 8)`. That clears every other flag, including a pending receiver flag. It is modelled as written (`Transmitter.Transmitter.BurstPart`, `ProcessTx`), and `Transmitter.BurstMaskClearsRx` shows that the receiver byte is emptied.

## Model

The source column gives paths under the firmware tree. For example, `USB433-Firmware-2.1.0-STM32F103/Core/Src/receiver.cpp:150-161` is lines 150 to 161 of receiver.cpp.

| member | source | states |
|---|---|---|
| Platform.StatusRegister.TxByte | USB433-Firmware-2.1.0-STM32F103/Core/Src/core_main.cpp:71 | The transmitter status byte: at most 0xFF, and shifted back by 8 it is exactly bits 8 to 15 of `status`. |
| Platform.StatusRegister.RxByte | USB433-Firmware-2.1.0-STM32F103/Core/Src/core_main.cpp:97 | The receiver status byte: at most 0xFF, and shifted back by 16 it is exactly bits 16 to 23 of `status`. |
| Platform.Board.EnableRx | USB433-Firmware-2.1.0-STM32F103/Core/Src/receiver.cpp:49-51 | The radio is on afterwards. Exactly one more enable edge was driven, and no other signal changed. |
| Platform.Board.DisableRx | USB433-Firmware-2.1.0-STM32F103/Core/Src/receiver.cpp:56-58 | The radio is off afterwards. Exactly one more disable edge was driven, and no other signal changed. |
| Platform.Board.StartDma | USB433-Firmware-2.1.0-STM32F103/Core/Src/transmitter.cpp:138 | One more DMA transmission is running, and the radio, activity pin and ARR are unchanged. |
| Platform.Elapsed | USB433-Firmware-2.1.0-STM32F103/Core/Src/core_main.cpp:131 | The elapsed-tick formula is a uint32. Without a wrap it equals `now - last` mod 2^32. After a wrap it is one less than that: the `UINT32_MAX - last` form loses a tick. |
| Platform.MulU32 | USB433-Firmware-2.1.0-STM32F103/Core/Src/receiver.cpp:92 | `x * k` in uint32 arithmetic. It is a uint32, and it equals the true product when that fits. |
| MoreMath.Min16 | USB433-Firmware-2.1.0-STM32F103/Core/Src/more_math.cpp:14-16 | The result is one of the arguments and at most both. |
| MoreMath.Max16 | USB433-Firmware-2.1.0-STM32F103/Core/Src/more_math.cpp:18-20 | The result is one of the arguments and at least both. |
| MoreMath.AsInt32 | USB433-Firmware-2.1.0-STM32F103/Core/Src/more_math.cpp:70 | Reading a uint32 through `int*` gives the int32 in range that is congruent to it mod 2^32. |
| MoreMath.CompareAsWritten | USB433-Firmware-2.1.0-STM32F103/Core/Src/more_math.cpp:69-71 | The comparator as written is an int32 congruent to the difference of the two elements read as int32. |
| MoreMath.CompareAsWrittenBelowHalf | USB433-Firmware-2.1.0-STM32F103/Core/Src/more_math.cpp:69-71 | For values below 2^31 the comparator as written is negative iff `a < b`, and zero iff `a == b`. |
| MoreMath.CompareAsWrittenMisorders | USB433-Firmware-2.1.0-STM32F103/Core/Src/more_math.cpp:69-71 | 2^31 + 1 compares below 1 although it is larger. |
| MoreMath.Compare | USB433-Firmware-2.1.0-STM32F103/Core/Src/more_math.cpp:69-71 | The intended three-way comparison. It is negative, zero or positive exactly when `a <`, `==` or `> b`. |
| MoreMath.Insert | USB433-Firmware-2.1.0-STM32F103/Core/Src/more_math.cpp:38 | Inserting into an ascending sequence keeps it ascending and adds exactly `x` to its multiset. |
| MoreMath.SortSeq | USB433-Firmware-2.1.0-STM32F103/Core/Src/more_math.cpp:38 | What qsort leaves: an ascending permutation of the input. |
| MoreMath.SmallestModeUnique | USB433-Firmware-2.1.0-STM32F103/Core/Src/more_math.cpp:33-64 | At most one value is the smallest most-frequent value, so `mode`'s contract fixes its result. |
| MoreMath.BestOf | USB433-Firmware-2.1.0-STM32F103/Core/Src/more_math.cpp:41-60 | Among the first `n` values, the best so far occurs among them, no earlier value occurs more often, and it is the least of the equally frequent ones. |
| MoreMath.SmallestMode | USB433-Firmware-2.1.0-STM32F103/Core/Src/more_math.cpp:33-64 | A reference definition of `mode`'s result that needs no sorting: it has the smallest-mode property (0 for an empty input). |
| MoreMath.RunMultiset | USB433-Firmware-2.1.0-STM32F103/Core/Src/more_math.cpp:45-51 | A run of `n` copies of `v` counts `v` exactly `n` times. |
| MoreMath.NoneBefore | USB433-Firmware-2.1.0-STM32F103/Core/Src/more_math.cpp:41-60 | In an ascending sequence, no copy of `v` lies before a run of `v` that follows a smaller value. |
| MoreMath.NoneAfter | USB433-Firmware-2.1.0-STM32F103/Core/Src/more_math.cpp:41-60 | In an ascending sequence, no copy of `v` lies after a run of `v` that is followed by a larger value. |
| MoreMath.RunCount | USB433-Firmware-2.1.0-STM32F103/Core/Src/more_math.cpp:41-60 | In an ascending sequence, a maximal run of `v` holds every occurrence of `v`, so the run length is the count of `v`. |
| MoreMath.ScanSortedMode | USB433-Firmware-2.1.0-STM32F103/Core/Src/more_math.cpp:34-63 | The counting pass over a sorted array returns the smallest most-frequent value, and 0 for an empty array. This uses the strict `>` and the `i = j - 1` jump. |
| MoreMath.Mode | USB433-Firmware-2.1.0-STM32F103/Core/Src/more_math.cpp:33-64 | `mode` leaves `arr[..size]` as an ascending permutation of its input and does not touch the rest of `arr`. It returns `SmallestMode` of the input: 0 for size 0; otherwise a value that occurs, that no value occurs more often than, and that is the least among equally frequent values. The sort uses the corrected comparator (see `MoreMath.Mode` under "## Left out"). |
| MoreMath.ModeOfPermutation | USB433-Firmware-2.1.0-STM32F103/Core/Src/more_math.cpp:38 | The mode property depends only on the multiset of values, so sorting first does not change the answer. |
| MoreMath.SeqMin | USB433-Firmware-2.1.0-STM32F103/Core/Src/more_math.cpp:76-82 | The minimum occurs in the sequence and is at most every element. |
| MoreMath.SeqMax | USB433-Firmware-2.1.0-STM32F103/Core/Src/more_math.cpp:76-82 | The maximum occurs in the sequence and is at least every element. |
| MoreMath.SumBounds | USB433-Firmware-2.1.0-STM32F103/Core/Src/more_math.cpp:77-80 | With every element in `lo..hi`, the sum lies between `n * lo` and `n * hi`. |
| MoreMath.Avg | USB433-Firmware-2.1.0-STM32F103/Core/Src/more_math.cpp:76-82 | For `count > 0`, `avg` is the floor of sum/count and lies between the minimum and maximum of the data. |
| MoreMath.DivBetween | USB433-Firmware-2.1.0-STM32F103/Core/Src/more_math.cpp:81 | A sum between `n * lo` and `n * hi` divided by `n` lies in `lo..hi`. |
| RxCorrelation.ClearRxPacket | USB433-Firmware-2.1.0-STM32F103/Core/Src/receiver.cpp:65-72 | Slot `i` becomes the zero packet, and no other slot changes. |
| RxCorrelation.ClearedThrough | USB433-Firmware-2.1.0-STM32F103/Core/Src/receiver.cpp:93-95 | The timeout reset clears slots `0..index` inclusive and keeps the rest. |
| RxCorrelation.CountSame | USB433-Firmware-2.1.0-STM32F103/Core/Src/receiver.cpp:120-128 | The inner scan's count of slots in `lo..hi` holding `w`: at most `hi - lo`, and 0 when no slot holds `w`. |
| RxCorrelation.IsCandidate | USB433-Firmware-2.1.0-STM32F103/Core/Src/receiver.cpp:115-131 | The definition of a slot that can confirm: its word is not the last match's word, and it and the equal words after it up to `index - 1` reach `match_thresh`. |
| RxCorrelation.FirstCandidate | USB433-Firmware-2.1.0-STM32F103/Core/Src/receiver.cpp:114-135 | A slot the scan finds lies between `from` and `index - match_thresh - 1` and can confirm. That it is the least such slot is `FirstCandidateIsFirst`. |
| RxCorrelation.FirstCandidateIsFirst | USB433-Firmware-2.1.0-STM32F103/Core/Src/receiver.cpp:114-135 | The vote finds the least slot below `index - match_thresh` that is not the last match's word and has at least `match_thresh` equal words from it to `index - 1`. If there is none, it finds nothing. |
| RxCorrelation.CountSameAll | USB433-Firmware-2.1.0-STM32F103/Core/Src/receiver.cpp:120-128 | When every slot in a range holds `w`, the vote counts all of them. |
| RxCorrelation.CountSameFirst | USB433-Firmware-2.1.0-STM32F103/Core/Src/receiver.cpp:120-128 | The count of copies can be taken from the low end: the first slot of the range, then the rest. |
| RxCorrelation.CopiesConfirmSlotZero | USB433-Firmware-2.1.0-STM32F103/Core/Src/receiver.cpp:114-135 | With more than `match_thresh` words stored, a slot-0 word that has not been announced confirms exactly when at least `match_thresh` stored words, itself included, are copies of it, wherever they are and whatever the other words are. |
| RxCorrelation.RepeatsConfirmSlotZero | USB433-Firmware-2.1.0-STM32F103/Core/Src/receiver.cpp:114-135 | After a reset, `n` copies of a word that has not been announced confirm slot 0 exactly when `n > match_thresh`. |
| RxCorrelation.AnnouncedWordNotReconfirmed | USB433-Firmware-2.1.0-STM32F103/Core/Src/receiver.cpp:116-118 | Once a word is the last match, more copies of it confirm nothing. |
| RxCorrelation.ModeOf | USB433-Firmware-2.1.0-STM32F103/Core/Src/receiver.cpp:81-83 | The result is the smallest mode of the scratch values (with the corrected comparator; see `MoreMath.Mode` under "## Left out"). |
| RxCorrelation.WordTimings | USB433-Firmware-2.1.0-STM32F103/Core/Src/receiver.cpp:81-83 | A word's long, short and period timings are the smallest modes of its per-bit values (with the corrected comparator; see `MoreMath.Mode` under "## Left out"). |
| RxCorrelation.LengthOk | USB433-Firmware-2.1.0-STM32F103/Core/Src/receiver.cpp:80 | The definition of the length filter: `min_word_len <= len <= max_word_len`, plus one when the sync bit is kept. |
| RxCorrelation.Expired | USB433-Firmware-2.1.0-STM32F103/Core/Src/receiver.cpp:86-92 | The definition of the timeout test: the wrapping elapsed milliseconds times 1000, in uint32, reach `timeout_us`. |
| RxCorrelation.Raised | USB433-Firmware-2.1.0-STM32F103/Core/Src/receiver.cpp:137-141 | The definition of what `receivedWord` may do to `status`: keep it, or set RX_WORD_AVAILABLE in it. |
| RxCorrelation.FlagStaysRaised | USB433-Firmware-2.1.0-STM32F103/Core/Src/receiver.cpp:137-141 | Raising the flag twice is raising it once, so a run of hand-offs only raises it too. |
| RxCorrelation.StateOk | USB433-Firmware-2.1.0-STM32F103/Core/Inc/receiver.h:33-42 | The definition of a well-formed buffer state: 12 slots, index and last match below 12, and a uint32 last time. |
| RxCorrelation.AfterTimeout | USB433-Firmware-2.1.0-STM32F103/Core/Src/receiver.cpp:85-98 | When the timeout has expired: index 0, no last match, slot 0 empty, and the status and last time kept. Otherwise nothing changes. The state stays well-formed. |
| RxCorrelation.StoreAndVoteOn | USB433-Firmware-2.1.0-STM32F103/Core/Src/receiver.cpp:100-141 | Only slot `index` changes: it becomes the packet. The index advances mod 12 and the last time becomes now. The status only gains RX_WORD_AVAILABLE, and a changed last match is a slot announced with that flag. |
| RxCorrelation.WordArrives | USB433-Firmware-2.1.0-STM32F103/Core/Src/receiver.cpp:78-142 | `receivedWord` as a function of the buffer state. A word failing the length filter changes nothing. Otherwise the slot just filled (`index - 1` mod 12) holds the word with the smallest modes of its three timings, and the last time is now. The status only gains RX_WORD_AVAILABLE. |
| RxCorrelation.PrevOfNext | USB433-Firmware-2.1.0-STM32F103/Core/Src/receiver.cpp:108 | Advancing the circular index and stepping back returns to the slot just written. |
| RxCorrelation.RxCorrelBuffer.State | USB433-Firmware-2.1.0-STM32F103/Core/Inc/receiver.h:33-42 | The buffer's fields and the status word, read as one well-formed state value. |
| RxCorrelation.RxCorrelBuffer.Params | USB433-Firmware-2.1.0-STM32F103/Core/Inc/receiver.h:33-42 | The definition of the settings `receivedWord` reads: timeout, threshold and the two length bounds. |
| RxCorrelation.RxCorrelBuffer.constructor | USB433-Firmware-2.1.0-STM32F103/Core/Inc/receiver.h:33-42 | The defaults: index 0, no last match, empty slots, timeout 100000 us, threshold 3 (at most 12), and word lengths 8 ≤ 64 = RX_MAX_BITS. |
| RxCorrelation.RxCorrelBuffer.Correlate | USB433-Firmware-2.1.0-STM32F103/Core/Src/receiver.cpp:111-135 | The scan returns the first candidate slot, which lies below `index - match_thresh`. |
| RxCorrelation.RxCorrelBuffer.ReceivedWord | USB433-Firmware-2.1.0-STM32F103/Core/Src/receiver.cpp:78-142 | The new state is `WordArrives` of the old one, and the settings are kept. So a word outside the length bounds (with one extra symbol allowed when the sync bit is kept) changes nothing. Otherwise: after a timeout, slots `0..index`, the last match and the index are reset; the word goes in at `index` with its mode timings; `index` advances mod 12; `last_word_time_ms` becomes now. A confirmed slot other than the last match is announced with RX_WORD_AVAILABLE and becomes the last match; otherwise neither the flag nor the last match changes. |
| RxCorrelation.RxCorrelBuffer.ResetIfTimedOut | USB433-Firmware-2.1.0-STM32F103/Core/Src/receiver.cpp:86-98 | The new state is `AfterTimeout` of the old one. When `delta * 1000 >= timeout_us` in uint32, slots `0..index`, the last match and the index are reset. Otherwise nothing changes. |
| RxCorrelation.RxCorrelBuffer.StoreAndVote | USB433-Firmware-2.1.0-STM32F103/Core/Src/receiver.cpp:100-141 | The new state is `StoreAndVoteOn` of the old one. Only slot `index` changes. The index advances mod 12, and the announcement is as in `ReceivedWord`. |
| Receiver.Classify | USB433-Firmware-2.1.0-STM32F103/Core/Src/receiver.cpp:205-219 | A duty below 50% is '1' and 50% or more is '0', swapped by `invert_logic`. |
| Receiver.DutyPct | USB433-Firmware-2.1.0-STM32F103/Core/Src/receiver.cpp:205 | The definition of `duty_pct`: `width * 100` in uint32, divided by the mode period and truncated to uint16. When it is exact is `Link.DutyPctExact`. |
| Receiver.StoredPeriod | USB433-Firmware-2.1.0-STM32F103/Core/Src/receiver.cpp:210 | The stored period is the raw period when it is within the timeout, and otherwise the mode period. |
| Receiver.AddSymbol | USB433-Firmware-2.1.0-STM32F103/Core/Src/receiver.cpp:210-220 | One symbol and its period are appended. The stored period is the mode period when the raw period exceeds the timeout. |
| Receiver.IsGap | USB433-Firmware-2.1.0-STM32F103/Core/Src/receiver.cpp:231 | The word-end test `10 * period > 13 * period_mode`: a gap is longer than one mode period, and a period of two mode periods or more is always a gap. |
| Receiver.Step | USB433-Firmware-2.1.0-STM32F103/Core/Src/receiver.cpp:200-239 | The definition of one window-loop iteration as a function of the builder and one sample. What it does is `StepOutcome`. |
| Receiver.StepOutcome | USB433-Firmware-2.1.0-STM32F103/Core/Src/receiver.cpp:205-238 | The word (handed off or kept) gains the sample's symbol unless the sample is a skipped sync bit. A word is handed off exactly on a gap after a non-empty word, and the builder then restarts. Without a hand-off, the builder is past its word start and keeps its logic flag. |
| Receiver.Run | USB433-Firmware-2.1.0-STM32F103/Core/Src/receiver.cpp:200-240 | The definition of the window loop as a fold of `Step`, collecting the words handed off, in order. Its properties are `RunExtend`, `RunWellFormed` and `RunLogic`. |
| Receiver.RunExtend | USB433-Firmware-2.1.0-STM32F103/Core/Src/receiver.cpp:200-240 | One more sample of the window loop is one more `Step`. |
| Receiver.RunWellFormed | USB433-Firmware-2.1.0-STM32F103/Core/Src/receiver.cpp:205-236 | Every word handed off is non-empty and binary. It has one long, short and period value per symbol, and short + long equals the stored period in uint32. |
| Receiver.BitOkComplement | USB433-Firmware-2.1.0-STM32F103/Core/Src/receiver.cpp:213-218 | Computing the other half as `period - width` in uint32 makes short + long equal the period. |
| Receiver.AddSymbolWellFormed | USB433-Firmware-2.1.0-STM32F103/Core/Src/receiver.cpp:210-220 | Appending a symbol keeps the per-bit values consistent with the word. |
| Receiver.RunLogic | USB433-Firmware-2.1.0-STM32F103/Core/Src/receiver.cpp:189-237 | Only the first word handed off carries the receiver's logic flag. The builder is cleared after each hand-off, which resets the flag to false. |
| Receiver.SyncBitDropped | USB433-Firmware-2.1.0-STM32F103/Core/Src/receiver.cpp:209 | With `ignore_sync_bit`, a word's first sample adds no symbol. |
| Receiver.Slot | USB433-Firmware-2.1.0-STM32F103/Core/Src/receiver.cpp:227-228 | A ring slot `k` places on, computed mod 320. |
| Receiver.Offset | USB433-Firmware-2.1.0-STM32F103/Core/Src/receiver.cpp:170-181 | The distance `k` from cursor `lo` to slot `j` around the ring: below 320, and `lo + k` mod 320 is `j`. |
| Receiver.WindowLen | USB433-Firmware-2.1.0-STM32F103/Core/Src/receiver.cpp:168-181 | `sample_ct`, with and without rollover, is the distance from `proc_idx` to `tgt_idx`. That many steps from `proc_idx` land on `tgt_idx`. |
| Receiver.OffsetOfSlot | USB433-Firmware-2.1.0-STM32F103/Core/Src/receiver.cpp:227-228 | Offset and slot are inverse, in one direction. |
| Receiver.SlotOfOffset | USB433-Firmware-2.1.0-STM32F103/Core/Src/receiver.cpp:227-228 | Offset and slot are inverse, in the other direction. |
| Receiver.SlotNext | USB433-Firmware-2.1.0-STM32F103/Core/Src/receiver.cpp:227-228 | `proc_idx++` mod 320 moves to the next slot of the window. |
| Receiver.SlotInjective | USB433-Firmware-2.1.0-STM32F103/Core/Src/receiver.cpp:224-228 | Distinct offsets within one lap are distinct slots, so no slot is consumed twice. |
| Receiver.ConsumedGrows | USB433-Firmware-2.1.0-STM32F103/Core/Src/receiver.cpp:224-228 | Advancing the front by one adds exactly the slot just read to the consumed part. |
| Receiver.WindowOf | USB433-Firmware-2.1.0-STM32F103/Core/Src/receiver.cpp:203-204 | The window's samples, read around the ring; there are `n` of them. |
| Receiver.PeriodsOf | USB433-Firmware-2.1.0-STM32F103/Core/Src/receiver.cpp:170-181 | The copied periods; there are `n` of them. |
| Receiver.Consumed | USB433-Firmware-2.1.0-STM32F103/Core/Src/receiver.cpp:224-225 | The ring with the first `k` window slots cleared keeps its length. |
| Receiver.ConsumedStep | USB433-Firmware-2.1.0-STM32F103/Core/Src/receiver.cpp:224-225 | Clearing one more slot extends the consumed part by that slot. |
| Receiver.PacketOf | USB433-Firmware-2.1.0-STM32F103/Core/Src/receiver.cpp:187-189 | The definition of the packet handed over: `len` is the word's length, with the word and its logic flag. |
| Receiver.Deliver | USB433-Firmware-2.1.0-STM32F103/Core/Src/receiver.cpp:231-238 | One hand-off is `receivedWord` (`WordArrives`) on the word and its per-bit timings. The state stays well-formed, and the status only gains RX_WORD_AVAILABLE. |
| Receiver.Delivered | USB433-Firmware-2.1.0-STM32F103/Core/Src/receiver.cpp:200-240 | The hand-offs of a window, applied in order. The state stays well-formed, and the status only gains RX_WORD_AVAILABLE. |
| Receiver.DeliveredIgnoresRejected | USB433-Firmware-2.1.0-STM32F103/Core/Src/receiver.cpp:80 | Handing off only words that fail the length filter leaves the correlation buffer unchanged. |
| Receiver.DeliveredSnoc | USB433-Firmware-2.1.0-STM32F103/Core/Src/receiver.cpp:236 | One more hand-off at the end is one more `Deliver`. |
| Receiver.CopyMode | USB433-Firmware-2.1.0-STM32F103/Core/Src/receiver.cpp:167-184 | The two `memcpy`s into a zeroed scratch buffer and `mode` give `SmallestMode` of the window's periods. |
| Receiver.LoopStart | USB433-Firmware-2.1.0-STM32F103/Core/Src/receiver.cpp:186-197 | Before the loop, the loop state holds with nothing consumed and nothing handed off. |
| Receiver.LoopAdvance | USB433-Firmware-2.1.0-STM32F103/Core/Src/receiver.cpp:200-239 | One iteration (a `Step` on the sample at `proc_idx`) keeps the loop state. |
| Receiver.LoopDone | USB433-Firmware-2.1.0-STM32F103/Core/Src/receiver.cpp:200 | The loop stops exactly when the whole window is consumed. The words handed off are then those of `Run` over the window. |
| Receiver.Receiver.constructor | USB433-Firmware-2.1.0-STM32F103/Core/Inc/receiver.h:44-58 | The defaults: logic not inverted, sync bit ignored, mode 2, all cursors at 0 (so the first window is empty), `bit_max_period` 5000, an empty ring, and the default correlation buffer. |
| Receiver.Receiver.CaptureCallback | USB433-Firmware-2.1.0-STM32F103/Core/Src/receiver.cpp:248-270 | A rising edge stores `(captured + 1) as uint16 + (overflow_count << 16)` as the slot's period and resets the overflow count. It advances `stor_idx` mod 320 only when the slot has a width. A falling edge stores the width the same way. Any other channel changes nothing. |
| Receiver.Receiver.PeriodElapsedCallback | USB433-Firmware-2.1.0-STM32F103/Core/Src/receiver.cpp:275-280 | The overflow count increments only while below `bit_max_period >> 16`, so it never passes that cap. |
| Receiver.Receiver.Extended | USB433-Firmware-2.1.0-STM32F103/Core/Src/receiver.cpp:150 | The definition of the extended timer count `(overflow_count << 16) + TIM2->CNT`. |
| Receiver.Receiver.BoundaryFires | USB433-Firmware-2.1.0-STM32F103/Core/Src/receiver.cpp:150 | The definition of the boundary test: the extended count has reached `bit_max_period` and `tgt_idx != stor_idx`. |
| Receiver.Receiver.Finalises | USB433-Firmware-2.1.0-STM32F103/Core/Src/receiver.cpp:150-153 | The definition of when the boundary step closes the pending sample: the test fires and the slot at `stor_idx` has a width. |
| Receiver.Receiver.StorAfter | USB433-Firmware-2.1.0-STM32F103/Core/Src/receiver.cpp:153-158 | The definition of `stor_idx` after the boundary step: advanced mod 320 exactly when the sample is closed. |
| Receiver.Receiver.TargetAfter | USB433-Firmware-2.1.0-STM32F103/Core/Src/receiver.cpp:150-161 | The definition of `tgt_idx` after the boundary step: the new `stor_idx` when the test fires, otherwise unchanged. |
| Receiver.Receiver.PeriodsAfter | USB433-Firmware-2.1.0-STM32F103/Core/Src/receiver.cpp:150-161 | The ring of periods after the boundary step: 320 entries; the slot at `stor_idx` holds the extended count when the step finalises it, and every other slot is unchanged. |
| Receiver.Receiver.MarkWordBoundary | USB433-Firmware-2.1.0-STM32F103/Core/Src/receiver.cpp:150-161 | When the extended count reaches `bit_max_period` and `tgt_idx != stor_idx`: the pending period is finalised and `stor_idx` advanced only if the slot has a width, and then `tgt_idx` becomes `stor_idx`. |
| Receiver.Receiver.WindowSamples | USB433-Firmware-2.1.0-STM32F103/Core/Src/receiver.cpp:168-181 | The window holds `sample_ct` samples. |
| Receiver.Receiver.WindowPeriods | USB433-Firmware-2.1.0-STM32F103/Core/Src/receiver.cpp:168-181 | The copied periods number `sample_ct`. |
| Receiver.Receiver.WindowMode | USB433-Firmware-2.1.0-STM32F103/Core/Src/receiver.cpp:168-184 | `period_mode` is `SmallestMode` of the window's periods (with the corrected comparator; see `MoreMath.Mode` under "## Left out"). It is a non-zero uint32. |
| Receiver.Receiver.WindowPeriodsBounded | USB433-Firmware-2.1.0-STM32F103/Core/Src/receiver.cpp:184 | Every value in the window is a uint32, as the capture callback stores it. |
| Receiver.Receiver.ClearSlot | USB433-Firmware-2.1.0-STM32F103/Core/Src/receiver.cpp:224-225 | Only slot `j` of the two sample arrays is zeroed. |
| Receiver.Receiver.HandOff | USB433-Firmware-2.1.0-STM32F103/Core/Src/receiver.cpp:236 | `receivedWord(&rx.correl, &packet)`: the correlation state becomes `Deliver` of the old one, and its settings are kept. |
| Receiver.Receiver.TakeSample | USB433-Firmware-2.1.0-STM32F103/Core/Src/receiver.cpp:203-228 | The first half of an iteration: the symbol of the sample at `proc_idx` is added to the word unless it is a skipped sync bit, the slot is cleared, and `proc_idx` advances mod 320. The sample's period is returned for the gap test. |
| Receiver.Receiver.ConsumeSample | USB433-Firmware-2.1.0-STM32F103/Core/Src/receiver.cpp:200-239 | One iteration is `Step` on the sample at `proc_idx`. The slot is cleared, `proc_idx` advances mod 320, and the word-start index moves to the next slot after a hand-off. The correlation state is `Deliver` of the old one after a hand-off, and unchanged otherwise. Settings are unchanged. |
| Receiver.Receiver.ConsumeNext | USB433-Firmware-2.1.0-STM32F103/Core/Src/receiver.cpp:200-239 | One iteration keeps the loop state, and the correlation state stays `Delivered` over the words handed off so far. |
| Receiver.Receiver.ConsumeWindow | USB433-Firmware-2.1.0-STM32F103/Core/Src/receiver.cpp:196-240 | The loop ends with `proc_idx == tgt_idx`. Exactly the window's slots are zeroed, the words handed off are `Run` over the window's samples, and the correlation state is `Delivered` over those words. |
| Receiver.Receiver.ProcessWindow | USB433-Firmware-2.1.0-STM32F103/Core/Src/receiver.cpp:163-240 | A non-empty window is consumed against its `SmallestMode` period. The words handed off are `Run` over the window, a trailing unfinished word is dropped, and each word reaches the correlation buffer in order (`Delivered`). |
| Receiver.Receiver.WindowPositive | USB433-Firmware-2.1.0-STM32F103/Core/Src/receiver.cpp:184-205 | The definition of the condition under which the firmware's division by `period_mode` is defined: the smallest mode of the window's periods is non-zero. |
| Receiver.Receiver.BoundarySamples | USB433-Firmware-2.1.0-STM32F103/Core/Src/receiver.cpp:150-184 | The definition of the window `checkRxBuffers` consumes: the samples from `proc_idx` up to `TargetAfter`, read from the ring after the boundary step. |
| Receiver.Receiver.CheckRxBuffers | USB433-Firmware-2.1.0-STM32F103/Core/Src/receiver.cpp:147-241 | The boundary step runs first, then the window is consumed. An empty window hands off nothing, so the correlation buffer and the status are unchanged. Otherwise the words handed off are `Run` over the boundary window with its smallest-mode period, and the correlation state is `Delivered` over them. |
| Transmitter.Duty | USB433-Firmware-2.1.0-STM32F103/Core/Src/transmitter.cpp:58-63 | '1' maps to `t_short` and '0' to `t_long`, swapped by `invert_logic`. |
| Transmitter.IsBinary | USB433-Firmware-2.1.0-STM32F103/Core/Src/transmitter.cpp:57-71 | The definition of a row the encoding loop accepts: every symbol is '0' or '1'. |
| Transmitter.Encode | USB433-Firmware-2.1.0-STM32F103/Core/Src/transmitter.cpp:52-74 | A word encodes exactly when it is binary. Its encoding has one duty per symbol and then the 0 stop marker. |
| Transmitter.Decode | USB433-Firmware-2.1.0-STM32F103/Core/Src/transmitter.cpp:58-63 | Not firmware code: a reference inverse of the symbol-to-duty mapping at these lines, used only by `DecodeEncode` (the firmware's own decoder is `Receiver.Classify`, tied to it by `Link.ClassifyEncodedSymbol`). It gives one symbol per duty. |
| Transmitter.DecodeEncode | USB433-Firmware-2.1.0-STM32F103/Core/Src/transmitter.cpp:52-74 | With distinct pulse times, decoding an encoded word gives the word back. |
| Transmitter.ArrValue | USB433-Firmware-2.1.0-STM32F103/Core/Src/transmitter.cpp:36-39 | `updateARR`: ARR + 1 equals `t_short + t_long`, or the value wraps to UINT32_MAX when both are 0. |
| Transmitter.FrameAdvance | USB433-Firmware-2.1.0-STM32F103/Core/Src/transmitter.cpp:110-139 | A frame is counted only when the previous one completed, and the new frame is then in progress. |
| Transmitter.RoundsStartFrames | USB433-Firmware-2.1.0-STM32F103/Core/Src/transmitter.cpp:118-139 | With a completion after each start, the first `frame_repeat + 1` rounds each start one frame. |
| Transmitter.BurstSendsRepeatPlusOne | USB433-Firmware-2.1.0-STM32F103/Core/Src/transmitter.cpp:118-139 | A burst sends `frame_repeat + 1` frames and then completes. It does not complete earlier. |
| Transmitter.Round | USB433-Firmware-2.1.0-STM32F103/Core/Src/transmitter.cpp:110-158 | The definition of one loop pass that starts a frame whenever it may, followed by the PWM completion callback. |
| Transmitter.Rounds | USB433-Firmware-2.1.0-STM32F103/Core/Src/transmitter.cpp:110-158 | The definition of `n` such passes. |
| Transmitter.BurstDue | USB433-Firmware-2.1.0-STM32F103/Core/Src/transmitter.cpp:85 | The inter-burst test: always due after a tick wrap; without a wrap and with `(now - last) * 1000` fitting in uint32, due exactly when that product exceeds `burst_delay_us`. |
| Transmitter.FrameDue | USB433-Firmware-2.1.0-STM32F103/Core/Src/transmitter.cpp:130 | The inter-frame test: always due when the tick is below the last time; otherwise due exactly when the elapsed milliseconds reach `frame_delay_us / 1000` rounded up. |
| Transmitter.AdjustedLast | USB433-Firmware-2.1.0-STM32F103/Core/Src/transmitter.cpp:113-116 | The rollover rewrite of `last_frame_time_ms` stays a uint32: after a wrap it is mirrored (`r + last == UINT32_MAX`), and otherwise it is kept. |
| Transmitter.PrepFlagsAfterMake | USB433-Firmware-2.1.0-STM32F103/Core/Src/transmitter.cpp:45-92 | The EMPTY/PREP_FAILED test passes exactly for a non-empty binary head with no earlier PREP_FAILED flag. TX_COMPLETE is untouched. |
| Transmitter.StatusAfterMake | USB433-Firmware-2.1.0-STM32F103/Core/Src/transmitter.cpp:45-69 | The definition of the status word `makeTxPacket` leaves: EMPTY set for an empty head; EMPTY cleared for a binary head; EMPTY cleared and PREP_FAILED set otherwise. |
| Transmitter.BurstMaskClearsRx | USB433-Firmware-2.1.0-STM32F103/Core/Src/transmitter.cpp:96 | The mask `status &= (TX_COMPLETE << 8)` empties the receiver byte, so a pending RX_WORD_AVAILABLE is lost, and keeps only TX_COMPLETE of the transmitter byte. |
| Transmitter.TxPacket.constructor | USB433-Firmware-2.1.0-STM32F103/Core/Inc/transmitter.h:21-28 | The packet starts idle: both completion flags set, nothing sent, `dma_len` 0, and a DMA buffer of TX_MAX_BITS + 1 entries. |
| Transmitter.TxPacket.Loaded | USB433-Firmware-2.1.0-STM32F103/Core/Src/transmitter.cpp:52-74 | The definition of what `makeTxPacket` leaves in the DMA buffer for a non-empty row: the encoding of a binary row followed by zeros, with `dma_len` its length; all zeros and `dma_len` 0 for a row that does not encode. |
| Transmitter.TxPacket.Clear | USB433-Firmware-2.1.0-STM32F103/Core/Src/transmitter.cpp:53-66 | The DMA buffer and `dma_len` are zeroed, and the pacing fields are kept. |
| Transmitter.TxPacket.Load | USB433-Firmware-2.1.0-STM32F103/Core/Src/transmitter.cpp:52-74 | Success is exactly a binary row, and the buffer is then `Loaded` with the row: `dma_len` is `\|row\| + 1` and the buffer holds `Encode(row)` followed by zeros. Otherwise the buffer and `dma_len` are all zero. The pacing fields are kept. |
| Transmitter.TxPacket.PulseFinished | USB433-Firmware-2.1.0-STM32F103/Core/Src/transmitter.cpp:150-158 | On the transmit channel, the DMA stops, the frame is marked complete and `last_frame_time_ms := now`. On any other channel nothing changes. |
| Transmitter.Transmitter.constructor | USB433-Firmware-2.1.0-STM32F103/Core/Inc/transmitter.h:30-43 | The defaults: t_short 300 ≤ t_long 700 ≤ 16383, frame delay 6600, burst delay 100000, 7 repeats, and five empty rows. |
| Transmitter.Transmitter.MakeTxPacket | USB433-Firmware-2.1.0-STM32F103/Core/Src/transmitter.cpp:44-75 | The status is `StatusAfterMake` of the old one. An empty head sets TX_BUFFER_EMPTY and leaves the packet alone. Otherwise EMPTY is cleared, `frames_sent` is reset and the buffer is `Loaded` with the head: a binary head fills it with its encoding; a non-binary head zeroes it and `dma_len` and sets TX_PREP_FAILED. |
| Transmitter.Transmitter.PrepareBurst | USB433-Firmware-2.1.0-STM32F103/Core/Src/transmitter.cpp:87-92 | The status is `StatusAfterMake` of the old one and the packet is as `MakeTxPacket` leaves it. Preparation succeeds exactly for a binary non-empty head with no pending PREP_FAILED; then `dma_len = strlen(head) + 1` and TX_COMPLETE is kept. |
| Transmitter.Transmitter.BurstPart | USB433-Firmware-2.1.0-STM32F103/Core/Src/transmitter.cpp:82-108 | A burst starts iff the last burst completed, the burst delay elapsed and preparation succeeded. A due burst always runs `makeTxPacket`, and when it does not start the status is `StatusAfterMake` of the old one. On start, `burst_complete` is cleared, status becomes `status & (TX_COMPLETE << 8)`, and the activity pin rises. In mode 2 an enabled radio is switched off, and only then. |
| Transmitter.Transmitter.FramePart | USB433-Firmware-2.1.0-STM32F103/Core/Src/transmitter.cpp:110-140 | After a completed frame: once more than `frame_repeat` frames are sent, the burst completes (TX_COMPLETE set, pin low, and in mode 2 a disabled radio turned back on). Otherwise a due frame starts one DMA transmission and increments `frames_sent`. |
| Transmitter.Transmitter.ProcessTx | USB433-Firmware-2.1.0-STM32F103/Core/Src/transmitter.cpp:80-141 | The whole new state by case. Waiting out the burst delay changes nothing. A due burst whose preparation fails changes only the flags and packet `makeTxPacket` touches. A started burst masks the status to TX_COMPLETE, raises the pin, switches a mode-2 radio off, and sends its first frame if the frame delay allows. Within a burst, the frame part either completes the burst (TX_COMPLETE, pin low, mode-2 radio back on) or starts a due frame with one DMA transmission. |
| Commands.TokensFromAreTokens | USB433-Firmware-2.1.0-STM32F103/Core/Src/commands.cpp:76-84 | Every token is non-empty and free of ' ', '\r' and '\n'. |
| Commands.TokensFrom | USB433-Firmware-2.1.0-STM32F103/Core/Src/commands.cpp:76-84 | The definition of `strtok` splitting on ' ', '\r' and '\n', with the token being built carried along. |
| Commands.Tokens | USB433-Firmware-2.1.0-STM32F103/Core/Src/commands.cpp:76-84 | The definition of all the tokens of an input. Their properties are `TokensAreTokens` and `TokensOfJoin`. |
| Commands.TokensAreTokens | USB433-Firmware-2.1.0-STM32F103/Core/Src/commands.cpp:76-84 | Every token of an input is non-empty and free of delimiters. |
| Commands.TokensFromRun | USB433-Firmware-2.1.0-STM32F103/Core/Src/commands.cpp:76-84 | Delimiter-free text is accumulated into the current token. |
| Commands.TokensOfJoin | USB433-Firmware-2.1.0-STM32F103/Core/Src/commands.cpp:76-84 | Splitting tokens joined by spaces gives them back. |
| Commands.Tokenize | USB433-Firmware-2.1.0-STM32F103/Core/Src/commands.cpp:76-84 | The `strtok` loop returns the first `min(max_tokens, n)` tokens of the input in order, each non-empty and delimiter-free. |
| Commands.FindNode | USB433-Firmware-2.1.0-STM32F103/Core/Src/commands.cpp:90-91 | The result is the first node whose token matches, or none when no node matches. |
| Commands.Dispatch | USB433-Firmware-2.1.0-STM32F103/Core/Src/commands.cpp:89-120 | The command is handled iff some node matches the token; an unmatched token gives UNKNOWN with that token. The first match is used, and a handler runs with `arg_idx` and `remaining` set from `argv`. The tree it walks is `UsbNodes`, with children `RxCommands`, `RxWordCommands`, `TxCommands`, `TxTimeCommands` and `TxDelayCommands`: the tables of commands.cpp:26-69, with the same tokens, handlers and order. |
| Commands.DispatchNode | USB433-Firmware-2.1.0-STM32F103/Core/Src/commands.cpp:92-115 | Children are tried first when another token follows. Otherwise the node's handler runs; with no handler the result is BAD_PARAM with the extra token, else MISSING_PARAM. |
| Commands.DispatchReachesLeaf | USB433-Firmware-2.1.0-STM32F103/Core/Src/commands.cpp:89-120 | A token path that leads to a node with a handler, where no child matches the next token, runs that handler. |
| Commands.TxWordDispatch | USB433-Firmware-2.1.0-STM32F103/Core/Src/commands.cpp:89-120 | `tx <w>` with `w` not a tx sub-command runs `handleTxWord` with `remaining = w`. |
| Commands.RxWordBadParam | USB433-Firmware-2.1.0-STM32F103/Core/Src/commands.cpp:105-108 | `rx word <x>` with an unknown `x` answers BAD_PARAM `x`, because `word` has no handler. |
| Commands.U8 | USB433-Firmware-2.1.0-STM32F103/Core/Src/commands.cpp:279 | The `uint8_t` cast of a parsed value is congruent to it mod 256. |
| Commands.U32 | USB433-Firmware-2.1.0-STM32F103/Core/Src/commands.cpp:298 | The `uint32_t` cast of a parsed value is congruent to it mod 2^32. |
| Commands.HandleLogic | USB433-Firmware-2.1.0-STM32F103/Core/Src/commands.cpp:210-226 | Get returns the addressed side's flag. Set is accepted iff the uint8 value is ≤ 1, and then only that side's `invert_logic` changes. A rejected set answers BAD_VALUE and changes nothing. |
| Commands.HandleSyncBit | USB433-Firmware-2.1.0-STM32F103/Core/Src/commands.cpp:231-248 | The same as `HandleLogic`, for `ignore_sync_bit`, with a uint32 value. |
| Commands.HandleStatus | USB433-Firmware-2.1.0-STM32F103/Core/Src/commands.cpp:253-260 | The result is `status` read as int32, or BAD_PARAM for an extra token. |
| Commands.HandleVersion | USB433-Firmware-2.1.0-STM32F103/Core/Src/commands.cpp:265-271 | The result is the version with code OK, or BAD_PARAM for an extra token. |
| Commands.HandleRxMode | USB433-Firmware-2.1.0-STM32F103/Core/Src/commands.cpp:277-291 | Set is accepted iff the uint8 value is ≤ 2. Mode 0 disables the radio and the others enable it. A rejected set changes nothing. |
| Commands.HandleRxTimeout | USB433-Firmware-2.1.0-STM32F103/Core/Src/commands.cpp:296-310 | Set is accepted iff `bit_max_period ≤ v ≤ 5000000`. Only the timeout changes. |
| Commands.HandleBitPeriod | USB433-Firmware-2.1.0-STM32F103/Core/Src/commands.cpp:315-323 | Set is always accepted and changes only `bit_max_period`. |
| Commands.HandleRxMatchCount | USB433-Firmware-2.1.0-STM32F103/Core/Src/commands.cpp:328-341 | Set is accepted iff the uint8 value is ≤ 12. Only the threshold changes. |
| Commands.HandleRxMinLength | USB433-Firmware-2.1.0-STM32F103/Core/Src/commands.cpp:346-359 | Set is accepted iff `v ≤ 64` and `v ≤ max`. Only the minimum changes, and `min ≤ max ≤ 64` is kept. |
| Commands.HandleRxMaxLength | USB433-Firmware-2.1.0-STM32F103/Core/Src/commands.cpp:364-377 | Set is accepted iff `v ≤ 64` and `min ≤ v`. Only the maximum changes, and `min ≤ max ≤ 64` is kept. |
| Commands.HandleTxLong | USB433-Firmware-2.1.0-STM32F103/Core/Src/commands.cpp:382-396 | Set is accepted iff `t_short ≤ v ≤ 16383`. Then ARR is reloaded to `t_short + v - 1`, and `t_short ≤ t_long` is kept. |
| Commands.HandleTxShort | USB433-Firmware-2.1.0-STM32F103/Core/Src/commands.cpp:401-415 | Set is accepted iff `v ≤ 16383` and `v ≤ t_long`. Then ARR is reloaded, and the ordering is kept. |
| Commands.HandleTxFrameDelay | USB433-Firmware-2.1.0-STM32F103/Core/Src/commands.cpp:420-434 | Set is accepted iff `t_s + t_l ≤ v ≤ 50 (t_s + t_l)`. Only the frame delay changes. |
| Commands.HandleTxBurstDelay | USB433-Firmware-2.1.0-STM32F103/Core/Src/commands.cpp:439-453 | Set is accepted iff `t_l + t_s ≤ v ≤ 60000000`. Only the burst delay changes. |
| Commands.HandleTxRepeat | USB433-Firmware-2.1.0-STM32F103/Core/Src/commands.cpp:458-471 | Set is accepted iff the uint8 value is ≤ 100. Only `frame_repeat` changes. |
| Commands.SyncPrefix | USB433-Firmware-2.1.0-STM32F103/Core/Src/commands.cpp:518 | The added sync bit is empty exactly when the sync bit is ignored. Otherwise it is one binary symbol. |
| Commands.FirstEmpty | USB433-Firmware-2.1.0-STM32F103/Core/Src/commands.cpp:514-515 | The index of the first empty row: every row before it is occupied. |
| Commands.FirstEmptyUnique | USB433-Firmware-2.1.0-STM32F103/Core/Src/commands.cpp:514-515 | The first empty row is characterised by its occupied predecessors. |
| Commands.FirstEmptyCounts | USB433-Firmware-2.1.0-STM32F103/Core/Src/commands.cpp:499-521 | In a queue whose occupied rows come first, the first empty row splits it into occupied and empty rows. |
| Commands.InsertKeepsPrefix | USB433-Firmware-2.1.0-STM32F103/Core/Src/commands.cpp:514-521 | Writing into the first empty row keeps the occupied rows first. |
| Commands.AllBinary | USB433-Firmware-2.1.0-STM32F103/Core/Src/commands.cpp:505-511 | The symbol loop accepts exactly the binary words. |
| Commands.HandleTxWord | USB433-Firmware-2.1.0-STM32F103/Core/Src/commands.cpp:485-523 | The checks run in order: MISSING_PARAM, then BAD_VALUE for a word over `64 + (ignore_sync ? 1 : 0)`, then BUSY when the last row is occupied, then BAD_VALUE for a non-binary symbol. Otherwise the result is OK, the prefixed word is written to the first empty row, and no other row changes. |
| CoreMain.ClearTxFlags | USB433-Firmware-2.1.0-STM32F103/Core/Src/core_main.cpp:86 | PREP_FAILED and COMPLETE are cleared, and every other status bit is kept. |
| CoreMain.Shifted | USB433-Firmware-2.1.0-STM32F103/Core/Src/core_main.cpp:84-85 | Row `k` takes row `k + 1`, and the last row becomes empty. |
| CoreMain.ShiftKeepsPrefix | USB433-Firmware-2.1.0-STM32F103/Core/Src/core_main.cpp:82-87 | The shift keeps the occupied rows first, and removes one occupied row when the head was occupied. |
| CoreMain.ShiftQueue | USB433-Firmware-2.1.0-STM32F103/Core/Src/core_main.cpp:84-85 | The queue becomes `Shifted` of the old queue. |
| CoreMain.HandleTxStatus | USB433-Firmware-2.1.0-STM32F103/Core/Src/core_main.cpp:71-89 | A report is pushed iff the transmit byte exceeds TX_BUFFER_EMPTY. It names PREP_FAILED in preference to COMPLETE, with the head word. The queue is then shifted and both flags cleared; without a report nothing changes. |
| CoreMain.MeanStep | USB433-Firmware-2.1.0-STM32F103/Core/Src/core_main.cpp:114-116 | The definition of one running-mean step, `(m * k + v) / (k + 1)` with the product in uint32. Its bounds are `StepBetween` and `StepAtMostTotal`. |
| CoreMain.RunningMean | USB433-Firmware-2.1.0-STM32F103/Core/Src/core_main.cpp:107-120 | The definition of the running mean folded over the matched values from the first on. Its properties are the `RunningMean*` lemmas. |
| CoreMain.StepBetween | USB433-Firmware-2.1.0-STM32F103/Core/Src/core_main.cpp:114-116 | One running-mean step stays within the bounds of its inputs. |
| CoreMain.StepAtMostTotal | USB433-Firmware-2.1.0-STM32F103/Core/Src/core_main.cpp:114-116 | One step truncates: the new mean times the count is at most the old total plus the new value. |
| CoreMain.RunningMeanBetween | USB433-Firmware-2.1.0-STM32F103/Core/Src/core_main.cpp:107-120 | Without uint32 wrap-around, the running mean of values in `lo..hi` stays in `lo..hi`. |
| CoreMain.RunningMeanBounds | USB433-Firmware-2.1.0-STM32F103/Core/Src/core_main.cpp:107-120 | The reported figure lies between the minimum and maximum of the matched values. |
| CoreMain.RunningMeanConstant | USB433-Firmware-2.1.0-STM32F103/Core/Src/core_main.cpp:107-120 | When every matched copy carries `v`, the report is `v`. |
| CoreMain.RunningMeanTimesCount | USB433-Firmware-2.1.0-STM32F103/Core/Src/core_main.cpp:107-120 | The running mean times the count is at most the sum. |
| CoreMain.RunningMeanAtMostMean | USB433-Firmware-2.1.0-STM32F103/Core/Src/core_main.cpp:107-120 | The running mean never exceeds the true floor mean. |
| CoreMain.RunningMeanUndershoots | USB433-Firmware-2.1.0-STM32F103/Core/Src/core_main.cpp:114-116 | It can be below the true mean: 0, 3, 3, 3 report 1 against a mean of 2. |
| CoreMain.Matching | USB433-Firmware-2.1.0-STM32F103/Core/Src/core_main.cpp:108-112 | The slots whose word equals the match's word. |
| CoreMain.MatchMeans | USB433-Firmware-2.1.0-STM32F103/Core/Src/core_main.cpp:107-120 | The loop yields the running means of the long, short and period timings over the matching slots below `index`. |
| CoreMain.ClearRxWordFlag | USB433-Firmware-2.1.0-STM32F103/Core/Src/core_main.cpp:125 | RX_WORD_AVAILABLE is cleared, and every other status bit is kept. |
| CoreMain.ReportMatch | USB433-Firmware-2.1.0-STM32F103/Core/Src/core_main.cpp:97-128 | A push happens iff the receiver byte is non-zero, and a report iff RX_WORD_AVAILABLE is set. The report carries the match's word, length and logic, the running means, and `ignore_sync_bit`, and then the flag is cleared. Without a report the status is unchanged. |
| Link.DutyPctExact | USB433-Firmware-2.1.0-STM32F103/Core/Src/receiver.cpp:205 | For a pulse no longer than a period of at most 2 · 16383, the duty percentage has no uint32 or uint16 wrap-around. It is below 50 exactly when `100 d < 50 n`. |
| Link.ClassifyEncodedSymbol | USB433-Firmware-2.1.0-STM32F103/Core/Src/transmitter.cpp:58-63 | With `t_short < t_long` and equal invert flags, the receiver classifies the transmitter's duty for a symbol, over a period of `t_short + t_long`, as that symbol. |
| Link.FrameSamples | USB433-Firmware-2.1.0-STM32F103/Core/Src/receiver.cpp:248-269 | A frame as captured has one sample per duty value, with that duty as its width. |
| Link.FrameCarries | USB433-Firmware-2.1.0-STM32F103/Core/Src/transmitter.cpp:52-74 | The frame of a binary row is classified symbol by symbol as the row, and its last sample runs into the pause. |
| Link.CarriedPrefix | USB433-Firmware-2.1.0-STM32F103/Core/Src/receiver.cpp:200-229 | Before the last sample, the builder holds the symbols so far (minus a skipped sync bit) and has handed nothing off. |
| Link.CarriedWord | USB433-Firmware-2.1.0-STM32F103/Core/Src/receiver.cpp:200-240 | Samples carrying a row and ending in a gap hand off exactly one word: the row after the skipped sync bit. |
| Link.FrameRoundTrip | USB433-Firmware-2.1.0-STM32F103/Core/Src/transmitter.cpp:52-74 | A frame followed by a pause over 1.3 periods is handed off as exactly one word: the transmitted row without the skipped sync bit. The builder restarts. |
| Link.QueuedWordRoundTrip | USB433-Firmware-2.1.0-STM32F103/Core/Src/commands.cpp:518 | With the transmitter adding the sync bit and the receiver skipping it, the word handed off is exactly the word queued with `tx <word>`. |

## Left out

Hardware, host I/O and platform:

- Hardware access is abstracted.
  - HAL timer, DMA and GPIO calls become `Platform.Board` fields and counters.
  - `HAL_GetTick`, `TIM2->CNT` and the captured register values become method parameters. All tick reads within one call share one `now`: `processTx` reads the tick at transmitter.cpp lines 84 and 112, and `receivedWord` at receiver.cpp lines 87-90 and 109. Likewise one `cnt` stands for both reads of `TIM2->CNT` in `checkRxBuffers`, at receiver.cpp lines 150 and 154 (`Receiver.Receiver.MarkWordBoundary`, `BoundarySamples`, `CheckRxBuffers`). The model assumes no tick or timer count elapses between the reads.
  - `isRxEnabled` is the `rxEnabled` field.
- USB I/O is not modelled: `processUSB`, `pushUSB`, `CDC_Transmit_FS`, and all `sprintf` response and report text, including `bufferOk` and `bufferValueResponse`. Responses and reports are datatypes carrying the response code and payload.
- `atoi` parsing is not modelled. Handlers take the parsed integer; its `uint8_t`/`uint32_t` truncation is written out as `U8`/`U32`.
- Interrupt/main-loop concurrency is not modelled. The capture, overflow and PWM-completion callbacks are methods called between loop steps, never inside `checkRxBuffers` or `processTx`.
- Bring-up and indicators are not modelled: `rxInit`, `txInit`, `USER_setup`, the LED flash, `USER_error`/`USER_shutdown`, the unused `duty_tol`, and the USB-activity LED timeout (only its tick arithmetic, `Platform.Elapsed`, is modelled).
- `USER_loop`'s fixed sequence (`processUSB`, `processTx`, the transmit report, `checkRxBuffers`, the receive report) is not composed into one method. Each step is modelled and proved on its own.

Floating point:

- The float `min`/`max` overloads are not modelled.
- Floating-point tests are replaced by integer forms, which approximate them:
  - the duty percentage becomes integer `width * 100 / period_mode`;
  - the 1.3 gap factor becomes `10 * period > 13 * period_mode`;
  - the frame-delay test becomes `(now - last) * 1000 >= frame_delay_us`.

Memory-safety defects, guarded rather than reproduced:

- `last_match` is a pointer that starts as null and is dereferenced. It is modelled as an optional slot index. In the vote, no last match means no word to skip. `CoreMain.ReportMatch` requires a last match whenever RX_WORD_AVAILABLE is set.
- `period_mode` can be 0, and the firmware then divides by it. `Receiver.Receiver.CheckRxBuffers` requires the smallest mode of a non-empty window's periods to be non-zero.
- MoreMath.Avg: requires `0 < count`. The firmware's `avg` divides by zero when `count` is 0 (more_math.cpp line 81). `avg` has no caller in the firmware.
- A run of more than 65 symbols without a gap overruns `packet.word` and the scratch arrays. The model's sequences are unbounded, so the overrun is not represented.
- The `stat_packet` timings in `USER_loop` are never initialised. The model starts the running mean from 0.
- Commands.HandleTxWord: requires that a binary word that passes the length check and finds the last row free fits, with its sync bit, in a 64-byte queue row. The firmware's length check allows 64 symbols plus a prefix symbol, and that writes 66 bytes into the row.
- The one-entry overrun of the DMA buffer for a full row is out of reach, because rows are shorter than 64 symbols under `Transmitter.Transmitter.Valid`.

Deliberately weaker contracts and assumptions:

- MoreMath.Mode: sorts with the corrected comparator `MoreMath.Compare`, so its result agrees with the firmware's `mode` only when every value is below 2^31, where the firmware's `compare` orders correctly (`MoreMath.CompareAsWrittenBelowHalf`). Values of 2^31 or more are reachable: `measLong` and `measShort` wrap in uint32 when a width exceeds its stored period (receiver.cpp lines 214 and 218), and the firmware's sort can then misorder them (see "## Findings"). The same holds for `RxCorrelation.ModeOf`, `RxCorrelation.WordTimings`, `Receiver.CopyMode` and `Receiver.Receiver.WindowMode`, which call it.
- Link.FrameRoundTrip: assumes an ideal capture. The receiver's mode period is exactly one PWM period (`t_short + t_long`). Each captured width equals the transmitted high time. The pause after the last frame exceeds 1.3 periods. Capture jitter is not modelled.
- Link.QueuedWordRoundTrip: covers the default configuration, where the transmitter adds the sync bit and the receiver skips it, with matching `invert_logic` on both sides.

## Findings

| source | as written | input that shows it | evidently intended | confidence | as-written member | corrected member |
|---|---|---|---|---|---|---|
| USB433-Firmware-2.1.0-STM32F103/Core/Src/more_math.cpp:69-71 | The qsort comparator reads two `uint32_t` elements through `int*` and returns their signed difference. Values of 2^31 or more read as negative. | `a = 0x80000001`, `b = 1`: the comparator returns a negative value, so `a` sorts before the smaller `b`. | A three-way comparison of the unsigned values, so that `mode` sorts ascending for all uint32 inputs. | not executed | MoreMath.CompareAsWrittenMisorders | MoreMath.Compare |

=== FILE: commands.dfy ===
/**
 * The USB command interface of commands.cpp: splitting a command line into
 * tokens, the command tree and its dispatcher, and the handlers that get or
 * set the receiver and transmitter settings and queue words for sending.
 * Responses are values of `Response`; their text formatting is not modelled.
 */
module Commands {
  import opened Platform
  import opened RxCorrelation
  import MoreMath
  import Rcv = Receiver
  import Tx = Transmitter

  const MAX_COMMAND_TOKENS: nat := 10

  // Response codes.
  const USB_CC_OK: nat := 0x00
  const USB_CC_BUSY: nat := 0x01
  const USB_CC_UNKNOWN: nat := 0x10
  const USB_CC_BAD_VALUE: nat := 0x20
  const USB_CC_BAD_PARAM: nat := 0x30
  const USB_CC_MISSING_PARAM: nat := 0x31

  /** What a command sends back to the host: a code and its payload. */
  datatype Response =
    | Ok                    // "0 OK"
    | Value(v: int)         // "0 <tokens> <value>", the answer to a get
    | Version(text: string) // "0 <version>"
    | Busy
    | Unknown(token: string)
    | BadValue
    | BadParam(token: string)
    | MissingParam

  function Code(r: Response): nat {
    match r
    case Ok | Value(_) | Version(_) => USB_CC_OK
    case Busy => USB_CC_BUSY
    case Unknown(_) => USB_CC_UNKNOWN
    case BadValue => USB_CC_BAD_VALUE
    case BadParam(_) => USB_CC_BAD_PARAM
    case MissingParam => USB_CC_MISSING_PARAM
  }

  // ---------------------------------------------------------------------
  // Tokenising (`tokenize`, strtok on " \r\n")

  predicate IsDelim(c: char) {
    c == ' ' || c == '\r' || c == '\n'
  }

  /** A token: non-empty and free of delimiters. */
  predicate IsToken(t: string) {
    |t| > 0 && forall k :: 0 <= k < |t| ==> !IsDelim(t[k])
  }

  /** The maximal delimiter-free runs of `s`, in order, after the partial token `cur`. */
  function TokensFrom(s: string, cur: string): seq<string>
    decreases |s|
  {
    if s == [] then (if cur == [] then [] else [cur])
    else if IsDelim(s[0]) then
      (if cur == [] then [] else [cur]) + TokensFrom(s[1..], [])
    else TokensFrom(s[1..], cur + [s[0]])
  }

  function Tokens(s: string): seq<string> {
    TokensFrom(s, [])
  }

  lemma {:induction false} TokensFromAreTokens(s: string, cur: string)
    requires forall k :: 0 <= k < |cur| ==> !IsDelim(cur[k])
    ensures forall i :: 0 <= i < |TokensFrom(s, cur)| ==> IsToken(TokensFrom(s, cur)[i])
    decreases |s|
  {
    if s != [] {
      if IsDelim(s[0]) {
        TokensFromAreTokens(s[1..], []);
      } else {
        TokensFromAreTokens(s[1..], cur + [s[0]]);
      }
    }
  }

  /** Every token is non-empty and free of ' ', '\r' and '\n'. */
  lemma TokensAreTokens(s: string)
    ensures forall i :: 0 <= i < |Tokens(s)| ==> IsToken(Tokens(s)[i])
  {
    TokensFromAreTokens(s, []);
  }

  /** The words separated by single spaces. */
  function Join(ws: seq<string>): string
    decreases |ws|
  {
    if |ws| == 0 then []
    else if |ws| == 1 then ws[0]
    else ws[0] + " " + Join(ws[1..])
  }

  /** A delimiter-free run joins the partial token. */
  lemma {:induction false} TokensFromRun(w: string, t: string, cur: string)
    requires forall k :: 0 <= k < |w| ==> !IsDelim(w[k])
    ensures TokensFrom(w + t, cur) == TokensFrom(t, cur + w)
    decreases |w|
  {
    if w != [] {
      assert (w + t)[0] == w[0];
      assert (w + t)[1..] == w[1..] + t;
      TokensFromRun(w[1..], t, cur + [w[0]]);
      assert cur + [w[0]] + w[1..] == cur + w;
    } else {
      assert w + t == t;
      assert cur + w == cur;
    }
  }

  /** Splitting undoes joining: the tokens of a space-separated line are its words, in order. */
  lemma {:induction false} TokensOfJoin(ws: seq<string>)
    requires forall i :: 0 <= i < |ws| ==> IsToken(ws[i])
    ensures Tokens(Join(ws)) == ws
    decreases |ws|
  {
    if |ws| == 1 {
      TokensFromRun(ws[0], [], []);
      assert ws[0] + [] == ws[0];
      assert [] + ws[0] == ws[0];
    } else if |ws| > 1 {
      var rest := " " + Join(ws[1..]);
      assert Join(ws) == ws[0] + rest;
      TokensFromRun(ws[0], rest, []);
      assert [] + ws[0] == ws[0];
      assert rest[0] == ' ' && rest[1..] == Join(ws[1..]);
      TokensOfJoin(ws[1..]);
      assert TokensFrom(rest, ws[0]) == [ws[0]] + ws[1..];
    }
  }

  /**
   * `tokenize`: the first `maxTokens` tokens of the line, in order; tokens
   * beyond that are dropped.
   */
  method Tokenize(input: string, maxTokens: nat) returns (argv: seq<string>)
    ensures argv == Tokens(input)[..if maxTokens < |Tokens(input)| then maxTokens else |Tokens(input)|]
    ensures |argv| <= maxTokens
    ensures forall i :: 0 <= i < |argv| ==> IsToken(argv[i])
  {
    TokensAreTokens(input);
    argv := [];
    var cur: string := [];
    var i := 0;
    while i < |input| && |argv| < maxTokens
      invariant 0 <= i <= |input| && |argv| <= maxTokens
      invariant argv + TokensFrom(input[i..], cur) == Tokens(input)
    {
      assert input[i..][0] == input[i] && input[i..][1..] == input[i + 1..];
      if IsDelim(input[i]) {
        if cur != [] {
          argv := argv + [cur];
          cur := [];
        }
      } else {
        cur := cur + [input[i]];
      }
      i := i + 1;
    }
    if cur != [] && |argv| < maxTokens {
      argv := argv + [cur];
    }
  }

  // ---------------------------------------------------------------------
  // The command tree and the dispatcher

  datatype Handler =
    | HandleLogicH | HandleSyncBitH | HandleStatusH | HandleVersionH
    | HandleRxModeH | HandleBitPeriodH | HandleRxMatchCountH | HandleRxTimeoutH
    | HandleRxMinLengthH | HandleRxMaxLengthH
    | HandleTxLongH | HandleTxShortH | HandleTxFrameDelayH | HandleTxBurstDelayH
    | HandleTxRepeatH | HandleTxWordH

  datatype CommandNode = CommandNode(token: string, handler: Option<Handler>, children: seq<CommandNode>)

  function Leaf(token: string, h: Handler): CommandNode {
    CommandNode(token, Some(h), [])
  }

  const RxWordCommands: seq<CommandNode> := [
    Leaf("matchcount", HandleRxMatchCountH), Leaf("timeout", HandleRxTimeoutH),
    Leaf("minlength", HandleRxMinLengthH), Leaf("maxlength", HandleRxMaxLengthH)]

  const RxCommands: seq<CommandNode> := [
    Leaf("mode", HandleRxModeH), Leaf("bitperiod", HandleBitPeriodH),
    CommandNode("word", None, RxWordCommands),
    Leaf("ignoresyncbit", HandleSyncBitH), Leaf("logic", HandleLogicH)]

  const TxTimeCommands: seq<CommandNode> := [Leaf("long", HandleTxLongH), Leaf("short", HandleTxShortH)]

  const TxDelayCommands: seq<CommandNode> := [Leaf("frame", HandleTxFrameDelayH), Leaf("burst", HandleTxBurstDelayH)]

  const TxCommands: seq<CommandNode> := [
    CommandNode("time", None, TxTimeCommands), CommandNode("delay", None, TxDelayCommands),
    Leaf("ignoresyncbit", HandleSyncBitH), Leaf("repeat", HandleTxRepeatH), Leaf("logic", HandleLogicH)]

  const UsbNodes: seq<CommandNode> := [
    CommandNode("rx", None, RxCommands), CommandNode("tx", Some(HandleTxWordH), TxCommands),
    Leaf("status", HandleStatusH), Leaf("version", HandleVersionH)]

  /** The first node at or after `from` whose token is `tok`. */
  function FindNode(nodes: seq<CommandNode>, tok: string, from: nat := 0): (r: Option<nat>)
    requires from <= |nodes|
    ensures r.Some? ==> from <= r.value < |nodes| && nodes[r.value].token == tok
    ensures r.Some? ==> forall j :: from <= j < r.value ==> nodes[j].token != tok
    ensures r.None? ==> forall j :: from <= j < |nodes| ==> nodes[j].token != tok
    decreases |nodes| - from
  {
    if from == |nodes| then None
    else if nodes[from].token == tok then Some(from)
    else FindNode(nodes, tok, from + 1)
  }

  /** What the dispatcher decides: run a handler at `argIdx` with the token after it, or answer directly. */
  datatype Outcome =
    | Run(handler: Handler, argIdx: nat, remaining: Option<string>)
    | Reply(resp: Response)

  /** `dispatch` returns true for every outcome but an unknown token. */
  predicate Handled(o: Outcome) {
    !(o.Reply? && o.resp.Unknown?)
  }

  /** The token after position `idx`, if any (`ctx->remaining`). */
  function RemainingAt(argv: seq<string>, idx: nat): Option<string> {
    if idx + 1 < |argv| then Some(argv[idx + 1]) else None
  }

  /**
   * `dispatch`: the first node whose token is `argv[index]` decides; an
   * unmatched token is UNKNOWN, and only that is reported as not handled.
   */
  function Dispatch(nodes: seq<CommandNode>, argv: seq<string>, index: nat): (o: Outcome)
    requires index < |argv|
    ensures Handled(o) <==> FindNode(nodes, argv[index]).Some?
    ensures !Handled(o) ==> o == Reply(Unknown(argv[index]))
    ensures FindNode(nodes, argv[index]).Some? ==> o == DispatchNode(nodes[FindNode(nodes, argv[index]).value], argv, index)
    ensures o.Run? ==> index <= o.argIdx < |argv| && o.remaining == RemainingAt(argv, o.argIdx)
    decreases |argv| - index, 1
  {
    match FindNode(nodes, argv[index])
    case None => Reply(Unknown(argv[index]))
    case Some(i) => DispatchNode(nodes[i], argv, index)
  }

  /**
   * A matched node: when a token follows and the node has children, a
   * child matching that token decides; otherwise the node's own handler
   * runs, and without one the answer is BAD_PARAM for the extra token or
   * MISSING_PARAM.
   */
  function DispatchNode(node: CommandNode, argv: seq<string>, index: nat): (o: Outcome)
    requires index < |argv|
    ensures Handled(o)
    ensures index + 1 < |argv| && FindNode(node.children, argv[index + 1]).Some? ==>
      o == Dispatch(node.children, argv, index + 1)
    ensures !(index + 1 < |argv| && FindNode(node.children, argv[index + 1]).Some?) ==>
      o == (if node.handler.Some? then Run(node.handler.value, index, RemainingAt(argv, index))
            else if index + 1 < |argv| then Reply(BadParam(argv[index + 1]))
            else Reply(MissingParam))
    ensures o.Run? ==> index <= o.argIdx < |argv| && o.remaining == RemainingAt(argv, o.argIdx)
    decreases |argv| - index, 0
  {
    var child := if index + 1 < |argv| && node.children != [] then Dispatch(node.children, argv, index + 1)
                 else Reply(Unknown([]));
    if Handled(child) then child
    else if node.handler.Some? then Run(node.handler.value, index, RemainingAt(argv, index))
    else if index + 1 < |argv| then Reply(BadParam(argv[index + 1]))
    else Reply(MissingParam)
  }

  /** The node reached by following `path` through the tree, first match at each level. */
  function Lookup(nodes: seq<CommandNode>, path: seq<string>): Option<CommandNode>
    requires |path| > 0
    decreases |path|
  {
    match FindNode(nodes, path[0])
    case None => None
    case Some(i) => if |path| == 1 then Some(nodes[i]) else Lookup(nodes[i].children, path[1..])
  }

  /**
   * A command naming a leaf with a handler, followed by at most one value,
   * runs that handler at the leaf's position with that value.
   */
  lemma {:induction false} DispatchReachesLeaf(nodes: seq<CommandNode>, argv: seq<string>, index: nat, k: nat, leaf: CommandNode)
    requires index <= k < |argv| && |argv| <= k + 2
    requires Lookup(nodes, argv[index..k + 1]) == Some(leaf)
    requires leaf.handler.Some? && leaf.children == []
    ensures Dispatch(nodes, argv, index) == Run(leaf.handler.value, k, RemainingAt(argv, k))
    decreases k - index
  {
    var path := argv[index..k + 1];
    assert path[0] == argv[index];
    var i := FindNode(nodes, argv[index]).value;
    if k > index {
      assert path[1..] == argv[index + 1..k + 1];
      var children := nodes[i].children;
      DispatchReachesLeaf(children, argv, index + 1, k, leaf);
      assert FindNode(children, argv[index + 1]).Some?;
    }
  }

  /** "tx <word>": a word that names no sub-command goes to the queueing handler. */
  lemma TxWordDispatch(w: string)
    requires FindNode(TxCommands, w).None?
    ensures Dispatch(UsbNodes, ["tx", w], 0) == Run(HandleTxWordH, 0, Some(w))
  {
    assert FindNode(UsbNodes, "tx") == Some(1);
  }

  /** "rx word <x>": an unknown sub-command of a node without handler is a bad parameter. */
  lemma RxWordBadParam(x: string)
    requires FindNode(RxWordCommands, x).None?
    ensures Dispatch(UsbNodes, ["rx", "word", x], 0) == Reply(BadParam(x))
  {
    assert FindNode(UsbNodes, "rx") == Some(0);
    assert RxCommands[0].token != "word" && RxCommands[1].token != "word";
    assert FindNode(RxCommands, "word", 2) == Some(2);
    assert FindNode(RxCommands, "word", 1) == Some(2);
  }

  /** `handleLogic`/`handleSyncBit` pick the receiver when the token before them starts with 'r'. */
  predicate TargetsRx(parent: string) {
    |parent| > 0 && parent[0] == 'r'
  }

  // ---------------------------------------------------------------------
  // Value conversions of the handlers

  /** `atoi(..)` stored in a `uint8_t`. */
  function U8(v: int): (b: nat)
    ensures b < 256 && (b - v) % 256 == 0
  {
    v % 256
  }

  /** `atoi(..)` stored in a `uint32_t`. */
  function U32(v: int): (b: nat)
    ensures IsU32(b) && (b - v) % TWO_POW_32 == 0
  {
    v % TWO_POW_32
  }

  function BoolValue(b: bool): int {
    if b then 1 else 0
  }

  // ---------------------------------------------------------------------
  // Snapshots of the settings the handlers touch

  datatype RxView = RxView(invertLogic: bool, ignoreSyncBit: bool, mode: nat, bitMaxPeriod: nat,
                           storIdx: nat, procIdx: nat, tgtIdx: nat, overflowCount: nat,
                           timeoutUs: nat, matchThresh: nat, minWordLen: nat, maxWordLen: nat,
                           index: nat, lastWordTimeMs: nat, lastMatch: Option<nat>)

  ghost function RxViewOf(rx: Rcv.Receiver): RxView
    reads rx, rx.correl
  {
    RxView(rx.invertLogic, rx.ignoreSyncBit, rx.mode, rx.bitMaxPeriod,
           rx.storIdx, rx.procIdx, rx.tgtIdx, rx.overflowCount,
           rx.correl.timeoutUs, rx.correl.matchThresh, rx.correl.minWordLen, rx.correl.maxWordLen,
           rx.correl.index, rx.correl.lastWordTimeMs, rx.correl.lastMatch)
  }

  datatype TxView = TxView(invertLogic: bool, ignoreSyncBit: bool, tShort: nat, tLong: nat,
                           frameDelayUs: nat, burstDelayUs: nat, frameRepeat: nat)

  ghost function TxViewOf(tx: Tx.Transmitter): TxView
    reads tx
  {
    TxView(tx.invertLogic, tx.ignoreSyncBit, tx.tShort, tx.tLong, tx.frameDelayUs, tx.burstDelayUs, tx.frameRepeat)
  }

  // ---------------------------------------------------------------------
  // Handlers shared by "rx" and "tx", and the top-level ones

  /** `handleLogic`: get, or set to 0/1, the logic of the receiver or the transmitter. */
  method HandleLogic(parent: string, rx: Rcv.Receiver, tx: Tx.Transmitter, arg: Option<int>) returns (r: Response)
    requires rx.Valid() && tx.Valid()
    modifies rx, tx
    ensures rx.Valid() && tx.Valid()
    ensures arg.None? ==> r == Value(BoolValue(if TargetsRx(parent) then old(rx.invertLogic) else old(tx.invertLogic)))
    ensures arg.Some? && U8(arg.value) > 1 ==> r == BadValue
    ensures arg.Some? && U8(arg.value) <= 1 ==> r == Ok
    ensures RxViewOf(rx) == if arg.Some? && U8(arg.value) <= 1 && TargetsRx(parent)
      then old(RxViewOf(rx)).(invertLogic := U8(arg.value) == 1) else old(RxViewOf(rx))
    ensures TxViewOf(tx) == if arg.Some? && U8(arg.value) <= 1 && !TargetsRx(parent)
      then old(TxViewOf(tx)).(invertLogic := U8(arg.value) == 1) else old(TxViewOf(tx))
  {
    var isRx := |parent| > 0 && parent[0] == 'r';
    if arg.Some? {
      var value := U8(arg.value);
      if value > 1 {
        return BadValue;
      }
      if isRx {
        rx.invertLogic := value == 1;
      } else {
        tx.invertLogic := value == 1;
      }
      return Ok;
    }
    r := Value(if isRx then BoolValue(rx.invertLogic) else BoolValue(tx.invertLogic));
  }

  /** `handleSyncBit`: get, or set to 0/1, whether the sync bit is skipped. */
  method HandleSyncBit(parent: string, rx: Rcv.Receiver, tx: Tx.Transmitter, arg: Option<int>) returns (r: Response)
    requires rx.Valid() && tx.Valid()
    modifies rx, tx
    ensures rx.Valid() && tx.Valid()
    ensures arg.None? ==> r == Value(BoolValue(if TargetsRx(parent) then old(rx.ignoreSyncBit) else old(tx.ignoreSyncBit)))
    ensures arg.Some? && U32(arg.value) > 1 ==> r == BadValue
    ensures arg.Some? && U32(arg.value) <= 1 ==> r == Ok
    ensures RxViewOf(rx) == if arg.Some? && U32(arg.value) <= 1 && TargetsRx(parent)
      then old(RxViewOf(rx)).(ignoreSyncBit := U32(arg.value) == 1) else old(RxViewOf(rx))
    ensures TxViewOf(tx) == if arg.Some? && U32(arg.value) <= 1 && !TargetsRx(parent)
      then old(TxViewOf(tx)).(ignoreSyncBit := U32(arg.value) == 1) else old(TxViewOf(tx))
  {
    var isRx := |parent| > 0 && parent[0] == 'r';
    if arg.Some? {
      var value := U32(arg.value);
      if value > 1 {
        return BadValue;
      }
      if isRx {
        rx.ignoreSyncBit := value == 1;
      } else {
        tx.ignoreSyncBit := value == 1;
      }
      return Ok;
    }
    r := Value(if isRx then BoolValue(rx.ignoreSyncBit) else BoolValue(tx.ignoreSyncBit));
  }

  /** `handleStatus`: the status word (as the `long` it is printed as); a parameter is refused. */
  method HandleStatus(st: StatusRegister, remaining: Option<string>) returns (r: Response)
    ensures remaining.Some? ==> r == BadParam(remaining.value)
    ensures remaining.None? ==> r.Value? && (r.v - st.bits as int) % TWO_POW_32 == 0 && -0x8000_0000 <= r.v < 0x8000_0000
  {
    if remaining.Some? {
      return BadParam(remaining.value);
    }
    r := Value(MoreMath.AsInt32(st.bits as int));
  }

  /** `handleVersion`: the version string; a parameter is refused. */
  method HandleVersion(version: string, remaining: Option<string>) returns (r: Response)
    ensures remaining.Some? ==> r == BadParam(remaining.value)
    ensures remaining.None? ==> r == Version(version) && Code(r) == USB_CC_OK
  {
    if remaining.Some? {
      return BadParam(remaining.value);
    }
    r := Version(version);
  }

  // ---------------------------------------------------------------------
  // Receiver handlers

  /** `handleRxMode`: modes 0..2 are accepted; 0 switches the radio off, 1 and 2 on. */
  method HandleRxMode(rx: Rcv.Receiver, board: Board, arg: Option<int>) returns (r: Response)
    requires rx.Valid()
    modifies rx, board
    ensures rx.Valid()
    ensures arg.None? ==> r == Value(old(rx.mode))
    ensures arg.Some? && U8(arg.value) > 2 ==> r == BadValue
    ensures arg.Some? && U8(arg.value) <= 2 ==> r == Ok
    ensures RxViewOf(rx) == if arg.Some? && U8(arg.value) <= 2
      then old(RxViewOf(rx)).(mode := U8(arg.value)) else old(RxViewOf(rx))
    ensures board.rxEnabled == if arg.Some? && U8(arg.value) <= 2 then U8(arg.value) != 0 else old(board.rxEnabled)
    ensures board.txActive == old(board.txActive) && board.dmaRunning == old(board.dmaRunning)
    ensures board.timerArr == old(board.timerArr) && board.dmaStarts == old(board.dmaStarts)
  {
    if arg.Some? {
      var value := U8(arg.value);
      if value > 2 {
        return BadValue;
      }
      rx.mode := value;
      if value == 0 {
        board.DisableRx();
      } else {
        board.EnableRx();
      }
      return Ok;
    }
    r := Value(rx.mode);
  }

  /** `handleRxTimeout`: accepted iff `bit_max_period <= v <= 5e6`. */
  method HandleRxTimeout(rx: Rcv.Receiver, arg: Option<int>) returns (r: Response)
    requires rx.Valid()
    modifies rx.correl
    ensures rx.Valid()
    ensures arg.None? ==> r == Value(old(rx.correl.timeoutUs))
    ensures arg.Some? ==> (r == Ok <==> rx.bitMaxPeriod <= U32(arg.value) <= 5_000_000)
    ensures arg.Some? && r != Ok ==> r == BadValue
    ensures RxViewOf(rx) == if r == Ok then old(RxViewOf(rx)).(timeoutUs := U32(arg.value)) else old(RxViewOf(rx))
  {
    if arg.Some? {
      var value := U32(arg.value);
      if value > 5_000_000 || value < rx.bitMaxPeriod {
        return BadValue;
      }
      rx.correl.timeoutUs := value;
      return Ok;
    }
    r := Value(rx.correl.timeoutUs);
  }

  /**
   * `handleBitPeriod`: any value is accepted. The get passes the uint32
   * through the 32-bit `long` of `bufferValueResponse`, so a value of 2^31
   * or more reads back negative (`AsInt32`). The other uint32 settings
   * read back raw because their setters keep them below 2^31, where the
   * conversion changes nothing.
   */
  method HandleBitPeriod(rx: Rcv.Receiver, arg: Option<int>) returns (r: Response)
    requires rx.Valid()
    modifies rx
    ensures rx.Valid()
    ensures arg.None? ==> r == Value(MoreMath.AsInt32(old(rx.bitMaxPeriod)))
    ensures arg.Some? ==> r == Ok
    ensures RxViewOf(rx) == if arg.Some? then old(RxViewOf(rx)).(bitMaxPeriod := U32(arg.value)) else old(RxViewOf(rx))
  {
    if arg.Some? {
      rx.bitMaxPeriod := U32(arg.value);
      return Ok;
    }
    r := Value(MoreMath.AsInt32(rx.bitMaxPeriod));
  }

  /** `handleRxMatchCount`: accepted iff at most RX_CORREL_WORDS. */
  method HandleRxMatchCount(rx: Rcv.Receiver, arg: Option<int>) returns (r: Response)
    requires rx.Valid()
    modifies rx.correl
    ensures rx.Valid()
    ensures arg.None? ==> r == Value(old(rx.correl.matchThresh))
    ensures arg.Some? ==> (r == Ok <==> U8(arg.value) <= RX_CORREL_WORDS)
    ensures arg.Some? && r != Ok ==> r == BadValue
    ensures RxViewOf(rx) == if r == Ok then old(RxViewOf(rx)).(matchThresh := U8(arg.value)) else old(RxViewOf(rx))
  {
    if arg.Some? {
      var value := U8(arg.value);
      if value > RX_CORREL_WORDS {
        return BadValue;
      }
      rx.correl.matchThresh := value;
      return Ok;
    }
    r := Value(rx.correl.matchThresh);
  }

  /** `handleRxMinLength`: accepted iff at most RX_MAX_BITS and at most the maximum length. */
  method HandleRxMinLength(rx: Rcv.Receiver, arg: Option<int>) returns (r: Response)
    requires rx.Valid()
    modifies rx.correl
    ensures rx.Valid() && rx.correl.minWordLen <= rx.correl.maxWordLen <= RX_MAX_BITS
    ensures arg.None? ==> r == Value(old(rx.correl.minWordLen))
    ensures arg.Some? ==> (r == Ok <==> U8(arg.value) <= RX_MAX_BITS && U8(arg.value) <= old(rx.correl.maxWordLen))
    ensures arg.Some? && r != Ok ==> r == BadValue
    ensures RxViewOf(rx) == if r == Ok then old(RxViewOf(rx)).(minWordLen := U8(arg.value)) else old(RxViewOf(rx))
  {
    if arg.Some? {
      var value := U8(arg.value);
      if value > RX_MAX_BITS || value > rx.correl.maxWordLen {
        return BadValue;
      }
      rx.correl.minWordLen := value;
      return Ok;
    }
    r := Value(rx.correl.minWordLen);
  }

  /** `handleRxMaxLength`: accepted iff at most RX_MAX_BITS and at least the minimum length. */
  method HandleRxMaxLength(rx: Rcv.Receiver, arg: Option<int>) returns (r: Response)
    requires rx.Valid()
    modifies rx.correl
    ensures rx.Valid() && rx.correl.minWordLen <= rx.correl.maxWordLen <= RX_MAX_BITS
    ensures arg.None? ==> r == Value(old(rx.correl.maxWordLen))
    ensures arg.Some? ==> (r == Ok <==> old(rx.correl.minWordLen) <= U8(arg.value) <= RX_MAX_BITS)
    ensures arg.Some? && r != Ok ==> r == BadValue
    ensures RxViewOf(rx) == if r == Ok then old(RxViewOf(rx)).(maxWordLen := U8(arg.value)) else old(RxViewOf(rx))
  {
    if arg.Some? {
      var value := U8(arg.value);
      if value > RX_MAX_BITS || value < rx.correl.minWordLen {
        return BadValue;
      }
      rx.correl.maxWordLen := value;
      return Ok;
    }
    r := Value(rx.correl.maxWordLen);
  }

  // ---------------------------------------------------------------------
  // Transmitter handlers

  /** `handleTxLong`: accepted iff `t_short <= v <= 16383`; the timer period follows. */
  method HandleTxLong(tx: Tx.Transmitter, board: Board, arg: Option<int>) returns (r: Response)
    requires tx.Valid()
    modifies tx, board
    ensures tx.Valid() && tx.tShort <= tx.tLong <= Tx.T_PULSE_MAX
    ensures arg.None? ==> r == Value(old(tx.tLong))
    ensures arg.Some? ==> (r == Ok <==> old(tx.tShort) <= U32(arg.value) <= Tx.T_PULSE_MAX)
    ensures arg.Some? && r != Ok ==> r == BadValue
    ensures TxViewOf(tx) == if r == Ok then old(TxViewOf(tx)).(tLong := U32(arg.value)) else old(TxViewOf(tx))
    ensures board.timerArr == if r == Ok then Tx.ArrValue(tx.tShort, tx.tLong) else old(board.timerArr)
    ensures board.rxEnabled == old(board.rxEnabled) && board.txActive == old(board.txActive)
    ensures board.dmaRunning == old(board.dmaRunning) && board.dmaStarts == old(board.dmaStarts)
  {
    if arg.Some? {
      var value := U32(arg.value);
      if value > Tx.T_PULSE_MAX || value < tx.tShort {
        return BadValue;
      }
      tx.tLong := value;
      board.timerArr := Tx.ArrValue(tx.tShort, tx.tLong);
      return Ok;
    }
    r := Value(tx.tLong);
  }

  /** `handleTxShort`: accepted iff `v <= 16383` and `v <= t_long`; the timer period follows. */
  method HandleTxShort(tx: Tx.Transmitter, board: Board, arg: Option<int>) returns (r: Response)
    requires tx.Valid()
    modifies tx, board
    ensures tx.Valid() && tx.tShort <= tx.tLong <= Tx.T_PULSE_MAX
    ensures arg.None? ==> r == Value(old(tx.tShort))
    ensures arg.Some? ==> (r == Ok <==> U32(arg.value) <= old(tx.tLong))
    ensures arg.Some? && r != Ok ==> r == BadValue
    ensures TxViewOf(tx) == if r == Ok then old(TxViewOf(tx)).(tShort := U32(arg.value)) else old(TxViewOf(tx))
    ensures board.timerArr == if r == Ok then Tx.ArrValue(tx.tShort, tx.tLong) else old(board.timerArr)
    ensures board.rxEnabled == old(board.rxEnabled) && board.txActive == old(board.txActive)
    ensures board.dmaRunning == old(board.dmaRunning) && board.dmaStarts == old(board.dmaStarts)
  {
    if arg.Some? {
      var value := U32(arg.value);
      if value > Tx.T_PULSE_MAX || value > tx.tLong {
        return BadValue;
      }
      tx.tShort := value;
      board.timerArr := Tx.ArrValue(tx.tShort, tx.tLong);
      return Ok;
    }
    r := Value(tx.tShort);
  }

  /** `handleTxFrameDelay`: accepted iff between one and fifty pulse periods. */
  method HandleTxFrameDelay(tx: Tx.Transmitter, arg: Option<int>) returns (r: Response)
    requires tx.Valid()
    modifies tx
    ensures tx.Valid()
    ensures arg.None? ==> r == Value(old(tx.frameDelayUs))
    ensures arg.Some? ==> (r == Ok <==> tx.tShort + tx.tLong <= U32(arg.value) <= 50 * (tx.tShort + tx.tLong))
    ensures arg.Some? && r != Ok ==> r == BadValue
    ensures TxViewOf(tx) == if r == Ok then old(TxViewOf(tx)).(frameDelayUs := U32(arg.value)) else old(TxViewOf(tx))
  {
    if arg.Some? {
      var value := U32(arg.value);
      if value > 50 * (tx.tShort + tx.tLong) || value < tx.tShort + tx.tLong {
        return BadValue;
      }
      tx.frameDelayUs := value;
      return Ok;
    }
    r := Value(tx.frameDelayUs);
  }

  /** `handleTxBurstDelay`: accepted iff at least one pulse period and at most 60 s. */
  method HandleTxBurstDelay(tx: Tx.Transmitter, arg: Option<int>) returns (r: Response)
    requires tx.Valid()
    modifies tx
    ensures tx.Valid()
    ensures arg.None? ==> r == Value(old(tx.burstDelayUs))
    ensures arg.Some? ==> (r == Ok <==> tx.tShort + tx.tLong <= U32(arg.value) <= 60_000_000)
    ensures arg.Some? && r != Ok ==> r == BadValue
    ensures TxViewOf(tx) == if r == Ok then old(TxViewOf(tx)).(burstDelayUs := U32(arg.value)) else old(TxViewOf(tx))
  {
    if arg.Some? {
      var value := U32(arg.value);
      if value > 60_000_000 || value < tx.tLong + tx.tShort {
        return BadValue;
      }
      tx.burstDelayUs := value;
      return Ok;
    }
    r := Value(tx.burstDelayUs);
  }

  /** `handleTxRepeat`: accepted iff at most 100. */
  method HandleTxRepeat(tx: Tx.Transmitter, arg: Option<int>) returns (r: Response)
    requires tx.Valid()
    modifies tx
    ensures tx.Valid()
    ensures arg.None? ==> r == Value(old(tx.frameRepeat))
    ensures arg.Some? ==> (r == Ok <==> U32(arg.value) <= 100)
    ensures arg.Some? && r != Ok ==> r == BadValue
    ensures TxViewOf(tx) == if r == Ok then old(TxViewOf(tx)).(frameRepeat := U32(arg.value)) else old(TxViewOf(tx))
  {
    if arg.Some? {
      var value := U32(arg.value);
      if value > 100 {
        return BadValue;
      }
      tx.frameRepeat := value;
      return Ok;
    }
    r := Value(tx.frameRepeat);
  }

  // ---------------------------------------------------------------------
  // Queueing a word ("tx <word>")

  /** The sync symbol put in front of a queued word: none when skipped, else '1' or '0' by the logic. */
  function SyncPrefix(ignoreSyncBit: bool, invertLogic: bool): (p: string)
    ensures |p| <= 1 && Tx.IsBinary(p)
    ensures p == [] <==> ignoreSyncBit
  {
    if ignoreSyncBit then [] else if invertLogic then "1" else "0"
  }

  /** The length check of `handleTxWord`: up to 64 symbols, one more when no sync bit is added. */
  predicate LengthAccepted(w: string, ignoreSyncBit: bool) {
    |w| <= Tx.TX_MAX_BITS + (if ignoreSyncBit then 1 else 0)
  }

  /** The index of the first empty row, or the number of rows when none is. */
  function FirstEmpty(rows: seq<string>, from: nat := 0): (i: nat)
    requires from <= |rows|
    ensures from <= i <= |rows|
    ensures forall j :: from <= j < i ==> rows[j] != []
    ensures i < |rows| ==> rows[i] == []
    decreases |rows| - from
  {
    if from == |rows| || rows[from] == [] then from else FirstEmpty(rows, from + 1)
  }

  /** The first empty row is the one with only occupied rows before it. */
  lemma FirstEmptyUnique(rows: seq<string>, i: nat)
    requires i <= |rows|
    requires forall j :: 0 <= j < i ==> rows[j] != []
    requires i < |rows| ==> rows[i] == []
    ensures FirstEmpty(rows) == i
  {
  }

  /** Occupied rows come first. */
  predicate OccupiedPrefix(rows: seq<string>) {
    forall i, j :: 0 <= i < j < |rows| && rows[i] == [] ==> rows[j] == []
  }

  /** With occupied rows first, the first empty row is the number of occupied rows. */
  lemma {:induction false} FirstEmptyCounts(rows: seq<string>)
    requires OccupiedPrefix(rows)
    ensures var i := FirstEmpty(rows);
      && (forall j :: 0 <= j < i ==> rows[j] != [])
      && (forall j :: i <= j < |rows| ==> rows[j] == [])
  {
    var i := FirstEmpty(rows);
    if i < |rows| {
      assert rows[i] == [];
      forall j | i <= j < |rows| ensures rows[j] == [] {
        if j > i {
          assert rows[i] == [];
        }
      }
    }
  }

  /** Writing a word into the first empty row keeps the occupied rows first. */
  lemma InsertKeepsPrefix(rows: seq<string>, row: string)
    requires OccupiedPrefix(rows) && FirstEmpty(rows) < |rows|
    ensures OccupiedPrefix(rows[FirstEmpty(rows) := row])
  {
    FirstEmptyCounts(rows);
  }

  /** The symbol check of `handleTxWord`. */
  method AllBinary(w: string) returns (ok: bool)
    ensures ok == Tx.IsBinary(w)
  {
    var i := 0;
    while i < |w|
      invariant 0 <= i <= |w|
      invariant forall k :: 0 <= k < i ==> w[k] == '0' || w[k] == '1'
    {
      if w[i] != '1' && w[i] != '0' {
        return false;
      }
      i := i + 1;
    }
    return true;
  }

  /**
   * `handleTxWord`: checks, in order, that a word is given, that its
   * length is accepted, that the last row is free (else BUSY) and that it
   * is binary; then writes the sync prefix and the word into the first
   * empty row and changes no other row.
   */
  method HandleTxWord(tx: Tx.Transmitter, arg: Option<string>) returns (r: Response)
    requires tx.Valid()
    requires arg.Some? && LengthAccepted(arg.value, tx.ignoreSyncBit) && tx.buffer[Tx.TX_BUFFER_LEN - 1] == []
             && Tx.IsBinary(arg.value) ==>
      |SyncPrefix(tx.ignoreSyncBit, tx.invertLogic)| + |arg.value| < Tx.TX_MAX_BITS
    modifies tx.buffer
    ensures tx.Valid()
    ensures arg.None? ==> r == MissingParam
    ensures arg.Some? && !LengthAccepted(arg.value, tx.ignoreSyncBit) ==> r == BadValue
    ensures arg.Some? && LengthAccepted(arg.value, tx.ignoreSyncBit) && old(tx.buffer[Tx.TX_BUFFER_LEN - 1]) != [] ==>
      r == Busy
    ensures arg.Some? && LengthAccepted(arg.value, tx.ignoreSyncBit) && old(tx.buffer[Tx.TX_BUFFER_LEN - 1]) == [] ==>
      (r == Ok <==> Tx.IsBinary(arg.value)) && (r != Ok ==> r == BadValue)
    ensures r != Ok ==> tx.buffer[..] == old(tx.buffer[..])
    ensures r == Ok ==> FirstEmpty(old(tx.buffer[..])) < Tx.TX_BUFFER_LEN
    ensures r == Ok ==>
      tx.buffer[..] == old(tx.buffer[..])[FirstEmpty(old(tx.buffer[..])) := SyncPrefix(tx.ignoreSyncBit, tx.invertLogic) + arg.value]
  {
    if arg.None? {
      return MissingParam;
    }
    var w := arg.value;
    if |w| > Tx.TX_MAX_BITS + (if tx.ignoreSyncBit then 1 else 0) {
      return BadValue;
    }
    if tx.buffer[Tx.TX_BUFFER_LEN - 1] != [] {
      return Busy;
    }
    var binary := AllBinary(w);
    if !binary {
      return BadValue;
    }
    var i := 0;
    while tx.buffer[i] != []
      invariant 0 <= i < Tx.TX_BUFFER_LEN
      invariant forall j :: 0 <= j < i ==> tx.buffer[j] != []
      decreases Tx.TX_BUFFER_LEN - i
    {
      i := i + 1;
    }
    ghost var rows := tx.buffer[..];
    assert OccupiedPrefix(rows);
    FirstEmptyCounts(rows);
    assert i == FirstEmpty(rows);
    var row := SyncPrefix(tx.ignoreSyncBit, tx.invertLogic) + w;
    InsertKeepsPrefix(rows, row);
    tx.buffer[i] := row;
    assert tx.buffer[..] == rows[i := row];
    r := Ok;
  }
}

=== FILE: core_main.dfy ===
/**
 * The feedback half of the main loop (core_main.cpp `USER_loop`): after a
 * transmission attempt the head of the word queue is reported and dropped,
 * and after a confirmed reception the matched word is reported with the
 * running means of the timings of its copies in the correlation buffer.
 */
module CoreMain {
  import opened Platform
  import opened RxCorrelation
  import MoreMath
  import Rcv = Receiver
  import Tx = Transmitter
  import Commands

  // ---------------------------------------------------------------------
  // Transmit feedback

  /** `status &= ~((TX_PREP_FAILED | TX_COMPLETE) << 8)`. */
  function ClearTxFlags(bits: bv32): (r: bv32)
    ensures (r >> 8) & (TX_PREP_FAILED | TX_COMPLETE) == 0
    ensures (r >> 8) & TX_BUFFER_EMPTY == (bits >> 8) & TX_BUFFER_EMPTY
    ensures r & 0xFF == bits & 0xFF && r >> 16 == bits >> 16
  {
    bits & !((TX_PREP_FAILED | TX_COMPLETE) << 8)
  }

  /** The queue after its head row is dropped: every row moves one up and the last becomes empty. */
  function Shifted(rows: seq<string>): (r: seq<string>)
    requires |rows| > 0
    ensures |r| == |rows| && r[|r| - 1] == []
    ensures forall k :: 0 <= k < |rows| - 1 ==> r[k] == rows[k + 1]
  {
    rows[1..] + [[]]
  }

  /** Dropping the head keeps the occupied rows first, and one fewer of them is occupied. */
  lemma ShiftKeepsPrefix(rows: seq<string>)
    requires |rows| > 0 && Commands.OccupiedPrefix(rows)
    ensures Commands.OccupiedPrefix(Shifted(rows))
    ensures rows[0] != [] ==> Commands.FirstEmpty(Shifted(rows)) + 1 == Commands.FirstEmpty(rows)
  {
    var r := Shifted(rows);
    forall i, j | 0 <= i < j < |r| && r[i] == []
      ensures r[j] == []
    {
      if j < |r| - 1 {
        assert rows[i + 1] == [];
      }
    }
    if rows[0] != [] {
      var e := Commands.FirstEmpty(rows);
      assert e > 0;
      assert forall j :: 0 <= j < e - 1 ==> r[j] == rows[j + 1];
      Commands.FirstEmptyUnique(r, e - 1);
    }
  }

  /** The `memmove`/`memset` pair that drops the head row. */
  method ShiftQueue(tx: Tx.Transmitter)
    requires tx.Valid()
    modifies tx.buffer
    ensures tx.Valid()
    ensures tx.buffer[..] == Shifted(old(tx.buffer[..]))
  {
    ghost var rows := tx.buffer[..];
    assert Commands.OccupiedPrefix(rows);
    var k := 0;
    while k < Tx.TX_BUFFER_LEN - 1
      invariant 0 <= k <= Tx.TX_BUFFER_LEN - 1
      invariant forall j :: 0 <= j < k ==> tx.buffer[j] == rows[j + 1]
      invariant forall j :: k <= j < Tx.TX_BUFFER_LEN ==> tx.buffer[j] == rows[j]
    {
      tx.buffer[k] := tx.buffer[k + 1];
      k := k + 1;
    }
    tx.buffer[Tx.TX_BUFFER_LEN - 1] := [];
    assert tx.buffer[..] == Shifted(rows);
    ShiftKeepsPrefix(rows);
  }

  /** The host report of a finished or failed transmission: the flag that caused it and the word. */
  datatype TxReport = TxReport(code: bv32, word: string)

  /**
   * The transmit-status step of `USER_loop`: when PREP_FAILED or COMPLETE
   * is set, the head word is reported with that flag (PREP_FAILED first),
   * dropped from the queue, and both flags are cleared. A transmitter byte
   * above TX_BUFFER_EMPTY is what makes the loop push a message at all.
   */
  method HandleTxStatus(tx: Tx.Transmitter, st: StatusRegister) returns (pushed: bool, report: Option<TxReport>)
    requires tx.Valid()
    modifies tx.buffer, st
    ensures tx.Valid()
    ensures pushed == (old(st.TxByte()) > TX_BUFFER_EMPTY)
    ensures report == if !pushed then None
      else if old(st.TxByte()) & TX_PREP_FAILED != 0 then Some(TxReport(old(st.bits) & (TX_PREP_FAILED << 8), old(tx.buffer[0])))
      else if old(st.TxByte()) & TX_COMPLETE != 0 then Some(TxReport(old(st.bits) & (TX_COMPLETE << 8), old(tx.buffer[0])))
      else None
    ensures report.Some? ==> tx.buffer[..] == Shifted(old(tx.buffer[..])) && st.bits == ClearTxFlags(old(st.bits))
    ensures report.None? ==> tx.buffer[..] == old(tx.buffer[..]) && st.bits == old(st.bits)
  {
    var txByte := (st.bits >> 8) & 0xFF;
    pushed := txByte > TX_BUFFER_EMPTY;
    report := None;
    if !pushed {
      return;
    }
    if txByte & TX_PREP_FAILED != 0 {
      report := Some(TxReport(st.bits & (TX_PREP_FAILED << 8), tx.buffer[0]));
    } else if txByte & TX_COMPLETE != 0 {
      report := Some(TxReport(st.bits & (TX_COMPLETE << 8), tx.buffer[0]));
    }
    if txByte & (TX_PREP_FAILED | TX_COMPLETE) != 0 {
      ShiftQueue(tx);
      st.bits := ClearTxFlags(st.bits);
    }
  }

  // ---------------------------------------------------------------------
  // Receive feedback: running means over the matching slots

  /** One step of the firmware's running mean in uint32 arithmetic: `(m * k + v) / (k + 1)`. */
  function MeanStep(m: nat, k: nat, v: nat): nat {
    ((m * k + v) % TWO_POW_32) / (k + 1)
  }

  /** The running mean of `vals`, folded from the first value on. */
  function RunningMean(vals: seq<nat>): nat {
    if vals == [] then 0
    else MeanStep(RunningMean(vals[..|vals| - 1]), |vals| - 1, vals[|vals| - 1])
  }

  lemma MulMono(a: nat, b: nat, k: nat)
    requires a <= b
    ensures a * k <= b * k
  {
  }

  /** A step without wrap-around: `m * k + v` fits in 32 bits when `m` and `v` are at most `hi`. */
  lemma StepNoWrap(m: nat, k: nat, v: nat, hi: nat)
    requires m <= hi && v <= hi && hi * (k + 1) < TWO_POW_32
    ensures m * k + v <= hi * (k + 1)
    ensures MeanStep(m, k, v) == (m * k + v) / (k + 1)
  {
    MulMono(m, hi, k);
  }

  /** One step of the running mean stays between the bounds of its inputs. */
  lemma StepBetween(m: nat, k: nat, v: nat, lo: nat, hi: nat)
    requires lo <= m <= hi && lo <= v <= hi && hi * (k + 1) < TWO_POW_32
    ensures lo <= MeanStep(m, k, v) <= hi
  {
    var n, s := k + 1, m * k + v;
    StepNoWrap(m, k, v, hi);
    MulMono(lo, m, k);
    assert n * lo <= s by { assert n * lo == lo * k + lo; }
    assert s <= n * hi by { assert n * hi == hi * n; }
    MoreMath.DivBetween(s, n, lo, hi);
  }

  /** One step of the running mean, times the new count, is at most the old total plus the new value. */
  lemma StepAtMostTotal(m: nat, k: nat, v: nat, hi: nat, total: nat)
    requires m <= hi && v <= hi && hi * (k + 1) < TWO_POW_32 && m * k <= total
    ensures MeanStep(m, k, v) * (k + 1) <= total + v
  {
    StepNoWrap(m, k, v, hi);
    var q := (m * k + v) / (k + 1);
    assert q * (k + 1) <= m * k + v;
  }

  /**
   * Without uint32 wrap-around the running mean of values in `lo..hi` stays
   * in `lo..hi`.
   */
  lemma {:induction false} RunningMeanBetween(vals: seq<nat>, lo: nat, hi: nat)
    requires |vals| > 0
    requires forall k :: 0 <= k < |vals| ==> lo <= vals[k] <= hi
    requires hi * |vals| < TWO_POW_32
    ensures lo <= RunningMean(vals) <= hi
  {
    var init := vals[..|vals| - 1];
    var k := |init|;
    if k == 0 {
      assert vals[0] <= hi < TWO_POW_32;
      assert MeanStep(0, 0, vals[0]) == vals[0];
    } else {
      assert forall j :: 0 <= j < k ==> init[j] == vals[j];
      MulMono(k, |vals|, hi);
      RunningMeanBetween(init, lo, hi);
      StepBetween(RunningMean(init), k, vals[k], lo, hi);
    }
  }

  /** The reported figure lies between the smallest and the largest matched value. */
  lemma RunningMeanBounds(vals: seq<nat>)
    requires |vals| > 0 && MoreMath.SeqMax(vals) * |vals| < TWO_POW_32
    ensures MoreMath.SeqMin(vals) <= RunningMean(vals) <= MoreMath.SeqMax(vals)
  {
    RunningMeanBetween(vals, MoreMath.SeqMin(vals), MoreMath.SeqMax(vals));
  }

  /** Copies that all carry the value `v` report `v`. */
  lemma RunningMeanConstant(vals: seq<nat>, v: nat)
    requires |vals| > 0 && forall k :: 0 <= k < |vals| ==> vals[k] == v
    requires v * |vals| < TWO_POW_32
    ensures RunningMean(vals) == v
  {
    RunningMeanBetween(vals, v, v);
  }

  /** Below a bound `hi` without wrap-around, the running mean times the count is at most the sum. */
  lemma {:induction false} RunningMeanTimesCount(vals: seq<nat>, hi: nat)
    requires |vals| > 0
    requires forall k :: 0 <= k < |vals| ==> vals[k] <= hi
    requires hi * |vals| < TWO_POW_32
    ensures RunningMean(vals) * |vals| <= MoreMath.Sum(vals)
  {
    var init := vals[..|vals| - 1];
    var k := |init|;
    if k == 0 {
      StepAtMostTotal(0, 0, vals[0], hi, 0);
    } else {
      assert forall j :: 0 <= j < k ==> init[j] == vals[j];
      MulMono(k, |vals|, hi);
      RunningMeanTimesCount(init, hi);
      RunningMeanBetween(init, 0, hi);
      StepAtMostTotal(RunningMean(init), k, vals[k], hi, MoreMath.Sum(init));
    }
  }

  /** Truncating at every step, the running mean never exceeds the true mean. */
  lemma RunningMeanAtMostMean(vals: seq<nat>)
    requires |vals| > 0 && MoreMath.SeqMax(vals) * |vals| < TWO_POW_32
    ensures RunningMean(vals) <= MoreMath.Sum(vals) / |vals|
  {
    var r := RunningMean(vals);
    RunningMeanTimesCount(vals, MoreMath.SeqMax(vals));
    AtMostQuotient(MoreMath.Sum(vals), |vals|, r);
  }

  lemma AtMostQuotient(s: nat, n: nat, r: nat)
    requires n > 0 && r * n <= s
    ensures r <= s / n
  {
    if r > s / n {
      MulMono(s / n + 1, r, n);
    }
  }

  /** ... and it can stay below it: copies timed 0, 3, 3, 3 report 1 against a true mean of 2. */
  lemma RunningMeanUndershoots()
    ensures RunningMean([0, 3, 3, 3]) == 1 && MoreMath.Sum([0, 3, 3, 3]) / 4 == 2
  {
    assert [0, 3, 3, 3][..3] == [0, 3, 3];
    assert [0, 3, 3][..2] == [0, 3];
    assert [0, 3][..1] == [0];
    assert [0][..0] == [];
  }

  /** The slots of `rec` whose word is `w`, in order. */
  function Matching(rec: seq<RxPacket>, w: string): (r: seq<RxPacket>)
    ensures |r| <= |rec|
    ensures forall k :: 0 <= k < |r| ==> r[k].word == w
  {
    if rec == [] then []
    else Matching(rec[..|rec| - 1], w) + (if rec[|rec| - 1].word == w then [rec[|rec| - 1]] else [])
  }

  function Longs(ps: seq<RxPacket>): seq<nat> {
    seq(|ps|, k requires 0 <= k < |ps| => ps[k].longUs)
  }

  function Shorts(ps: seq<RxPacket>): seq<nat> {
    seq(|ps|, k requires 0 <= k < |ps| => ps[k].shortUs)
  }

  function Periods(ps: seq<RxPacket>): seq<nat> {
    seq(|ps|, k requires 0 <= k < |ps| => ps[k].periodUs)
  }

  /** The mean loop of `USER_loop` over slots `0..count` for the word `w`. */
  method MatchMeans(rec: array<RxPacket>, count: nat, w: string) returns (longUs: nat, shortUs: nat, periodUs: nat)
    requires count <= rec.Length
    ensures longUs == RunningMean(Longs(Matching(rec[..count], w)))
    ensures shortUs == RunningMean(Shorts(Matching(rec[..count], w)))
    ensures periodUs == RunningMean(Periods(Matching(rec[..count], w)))
  {
    longUs, shortUs, periodUs := 0, 0, 0;
    var matches := 0;
    var i := 0;
    while i < count
      invariant 0 <= i <= count
      invariant matches == |Matching(rec[..i], w)|
      invariant longUs == RunningMean(Longs(Matching(rec[..i], w)))
      invariant shortUs == RunningMean(Shorts(Matching(rec[..i], w)))
      invariant periodUs == RunningMean(Periods(Matching(rec[..i], w)))
    {
      ghost var before := Matching(rec[..i], w);
      assert rec[..i + 1][..i] == rec[..i];
      if rec[i].word == w {
        ghost var after := before + [rec[i]];
        assert Matching(rec[..i + 1], w) == after;
        assert Longs(after)[..|before|] == Longs(before) && Longs(after)[|before|] == rec[i].longUs;
        assert Shorts(after)[..|before|] == Shorts(before) && Shorts(after)[|before|] == rec[i].shortUs;
        assert Periods(after)[..|before|] == Periods(before) && Periods(after)[|before|] == rec[i].periodUs;
        longUs := MeanStep(longUs, matches, rec[i].longUs);
        shortUs := MeanStep(shortUs, matches, rec[i].shortUs);
        periodUs := MeanStep(periodUs, matches, rec[i].periodUs);
        matches := matches + 1;
      } else {
        assert Matching(rec[..i + 1], w) == before;
      }
      i := i + 1;
    }
    assert rec[..count] == rec[..i];
  }

  /** `status &= ~(RX_WORD_AVAILABLE << 16)`. */
  function ClearRxWordFlag(bits: bv32): (r: bv32)
    ensures (r >> 16) & RX_WORD_AVAILABLE == 0
    ensures r & 0xFFFF == bits & 0xFFFF
    ensures (r >> 17) == (bits >> 17)
  {
    bits & !(RX_WORD_AVAILABLE << 16)
  }

  /** The host report of a confirmed word. */
  datatype RxReport = RxReport(code: bv32, word: string, len: nat, longUs: nat, shortUs: nat, periodUs: nat,
                               logic: bool, ignoreSync: bool)

  /**
   * The receive-status step of `USER_loop`: a non-zero receiver byte makes
   * the loop push a message; with RX_WORD_AVAILABLE set it reports the last
   * match with the running means of all slots `0..index` holding the same
   * word, and clears that flag.
   */
  method ReportMatch(rx: Rcv.Receiver, st: StatusRegister) returns (pushed: bool, report: Option<RxReport>)
    requires rx.Valid()
    requires st.RxByte() & RX_WORD_AVAILABLE != 0 ==> rx.correl.lastMatch.Some?
    modifies st
    ensures pushed == (old(st.RxByte()) != 0)
    ensures report.Some? <==> old(st.RxByte()) & RX_WORD_AVAILABLE != 0
    ensures report.Some? ==>
      var m := rx.correl.received[rx.correl.lastMatch.value];
      var copies := Matching(rx.correl.received[..rx.correl.index], m.word);
      && report.value == RxReport(old(st.bits) & (RX_WORD_AVAILABLE << 16), m.word, m.len,
                                  RunningMean(Longs(copies)), RunningMean(Shorts(copies)), RunningMean(Periods(copies)),
                                  m.logic, rx.ignoreSyncBit)
      && st.bits == ClearRxWordFlag(old(st.bits))
    ensures report.None? ==> st.bits == old(st.bits)
  {
    var rxByte := (st.bits >> 16) & 0xFF;
    pushed := rxByte != 0;
    report := None;
    if rxByte & RX_WORD_AVAILABLE != 0 {
      var m := rx.correl.received[rx.correl.lastMatch.value];
      var longUs, shortUs, periodUs := MatchMeans(rx.correl.received, rx.correl.index, m.word);
      report := Some(RxReport(st.bits & (RX_WORD_AVAILABLE << 16), m.word, m.len, longUs, shortUs, periodUs,
                              m.logic, rx.ignoreSyncBit));
      st.bits := ClearRxWordFlag(st.bits);
    }
  }
}

=== FILE: link.dfy ===
/**
 * The radio link end to end: a queued row encoded by the transmitter
 * (`makeTxPacket`) and captured by the receiver one pulse per symbol comes
 * back out of the receiver's word builder (`checkRxBuffers`) as the same
 * symbols, provided both ends use the same logic, the long pulse is longer
 * than the short one, and the receiver's mode period is one PWM period.
 */
module Link {
  import opened Platform
  import R = Receiver
  import T = Transmitter

  lemma MulMonoNat(a: nat, b: nat, k: nat)
    requires a <= b
    ensures a * k <= b * k
  {
  }

  /** `x / n < c` exactly when `x < c * n`. */
  lemma QuotientBelow(x: nat, n: nat, c: nat)
    requires n > 0
    ensures (x / n < c) <==> (x < c * n)
  {
    var q := x / n;
    assert x == q * n + x % n && x % n < n;
    if q < c {
      MulMonoNat(q + 1, c, n);
    } else {
      MulMonoNat(c, q, n);
    }
  }

  /** The duty percentage of a pulse `d` no longer than its period `n`: `d * 100 / n`, with no wrap-around. */
  lemma DutyPctExact(d: nat, n: nat)
    requires 0 < n <= 2 * T.T_PULSE_MAX && d <= n
    ensures R.DutyPct(d, n) == d * 100 / n
    ensures (R.DutyPct(d, n) < 50) <==> (d * 100 < 50 * n)
  {
    assert MulU32(d, 100) == d * 100;
    QuotientBelow(d * 100, n, 101);
    QuotientBelow(d * 100, n, 50);
  }

  /**
   * A pulse of the duty the transmitter gives symbol `c`, in a period of
   * `tShort + tLong`, is classified by the receiver as `c` again.
   */
  lemma ClassifyEncodedSymbol(c: char, tShort: nat, tLong: nat, invertLogic: bool)
    requires c == '0' || c == '1'
    requires tShort < tLong <= T.T_PULSE_MAX
    ensures R.Classify(T.Duty(c, tShort, tLong, invertLogic), tShort + tLong, invertLogic) == c
  {
    var d := T.Duty(c, tShort, tLong, invertLogic);
    DutyPctExact(d, tShort + tLong);
  }

  /**
   * What the receiver captures of one frame: one sample per duty value,
   * each lasting one PWM period `period`, except the last, whose period
   * runs on into the pause before the next frame (`gap`).
   */
  function FrameSamples(duties: seq<nat>, period: nat, gap: nat): (s: seq<R.Sample>)
    ensures |s| == |duties|
    ensures forall k :: 0 <= k < |duties| ==> s[k].width == duties[k]
  {
    seq(|duties|, k requires 0 <= k < |duties| => R.Sample(if k == |duties| - 1 then gap else period, duties[k]))
  }

  /** The number of leading symbols the receiver drops as the sync bit. */
  function Skip(cfg: R.RxConfig): nat {
    if cfg.ignoreSyncBit then 1 else 0
  }

  /** One symbol sample within a frame: its symbol is added, unless it is a skipped sync bit, and nothing is handed off. */
  lemma StepSymbol(b: R.WordBuild, smp: R.Sample, n: nat, cfg: R.RxConfig, c: char)
    requires n > 0 && R.Classify(smp.width, n, cfg.invertLogic) == c && !R.IsGap(smp, n)
    ensures var r := R.Step(b, smp, n, cfg);
      && r.1 == None
      && r.0.logic == b.logic && !r.0.atWordStart
      && r.0.word == (if cfg.ignoreSyncBit && b.atWordStart then b.word else b.word + [c])
  {
  }

  /** The last sample of a frame, followed by the pause: the word with its last symbol is handed off. */
  lemma StepGap(b: R.WordBuild, smp: R.Sample, n: nat, cfg: R.RxConfig, c: char)
    requires n > 0 && R.Classify(smp.width, n, cfg.invertLogic) == c && R.IsGap(smp, n)
    requires !(cfg.ignoreSyncBit && b.atWordStart)
    ensures var r := R.Step(b, smp, n, cfg);
      && r.0 == R.StartWord(false)
      && r.1.Some? && r.1.value.word == b.word + [c] && r.1.value.logic == b.logic
  {
  }

  /** The builder after the first `j` samples of a frame, `j` short of the last. */
  predicate PrefixState(r: (R.WordBuild, seq<R.WordBuild>), row: seq<char>, cfg: R.RxConfig, logic: bool, j: nat)
    requires j <= |row|
  {
    && r.1 == []
    && r.0.logic == logic
    && r.0.atWordStart == (j == 0)
    && r.0.word == (if j == 0 then [] else row[Skip(cfg)..j])
  }

  /**
   * `samples` carry `row`: one sample per symbol, each classified as its
   * symbol, and none but the last a gap.
   */
  predicate Carries(samples: seq<R.Sample>, row: seq<char>, n: nat, invertLogic: bool)
    requires n > 0
  {
    && |samples| == |row|
    && (forall k :: 0 <= k < |row| ==> R.Classify(samples[k].width, n, invertLogic) == row[k])
    && (forall k :: 0 <= k < |row| - 1 ==> !R.IsGap(samples[k], n))
  }

  /** The frame of a binary row, with a pause after it, carries the row. */
  lemma FrameCarries(row: seq<char>, tShort: nat, tLong: nat, invertLogic: bool, gap: nat)
    requires T.IsBinary(row) && tShort < tLong <= T.T_PULSE_MAX
    ensures Carries(FrameSamples(T.Encode(row, tShort, tLong, invertLogic).value[..|row|], tShort + tLong, gap),
                    row, tShort + tLong, invertLogic)
    ensures |row| > 0 ==>
      FrameSamples(T.Encode(row, tShort, tLong, invertLogic).value[..|row|], tShort + tLong, gap)[|row| - 1].period == gap
  {
    var d := T.Encode(row, tShort, tLong, invertLogic).value;
    var samples := FrameSamples(d[..|row|], tShort + tLong, gap);
    forall k | 0 <= k < |row|
      ensures R.Classify(samples[k].width, tShort + tLong, invertLogic) == row[k]
    {
      assert samples[k].width == d[k] == T.Duty(row[k], tShort, tLong, invertLogic);
      ClassifyEncodedSymbol(row[k], tShort, tLong, invertLogic);
    }
  }

  /** A symbol sample short of the last extends the builder's prefix state by one symbol. */
  lemma PrefixStep(r: (R.WordBuild, seq<R.WordBuild>), smp: R.Sample, row: seq<char>, n: nat, cfg: R.RxConfig, logic: bool, j: nat)
    requires n > 0 && 0 < j <= |row|
    requires PrefixState(r, row, cfg, logic, j - 1)
    requires R.Classify(smp.width, n, cfg.invertLogic) == row[j - 1] && !R.IsGap(smp, n)
    ensures var st := R.Step(r.0, smp, n, cfg);
      st.1 == None && PrefixState((st.0, r.1), row, cfg, logic, j)
  {
    StepSymbol(r.0, smp, n, cfg, row[j - 1]);
    if !(cfg.ignoreSyncBit && j == 1) {
      var w := if j - 1 == 0 then [] else row[Skip(cfg)..j - 1];
      assert row[Skip(cfg)..j] == w + [row[j - 1]];
    }
  }

  /** Before the last sample, the builder holds the symbols so far and hands nothing off. */
  lemma {:induction false} CarriedPrefix(samples: seq<R.Sample>, row: seq<char>, n: nat, cfg: R.RxConfig, logic: bool, j: nat)
    requires n > 0 && Carries(samples, row, n, cfg.invertLogic)
    requires j < |row|
    ensures PrefixState(R.Run(R.StartWord(logic), samples[..j], n, cfg), row, cfg, logic, j)
    decreases j
  {
    if j == 0 {
      assert samples[..0] == [];
    } else {
      CarriedPrefix(samples, row, n, cfg, logic, j - 1);
      var prev := R.Run(R.StartWord(logic), samples[..j - 1], n, cfg);
      R.RunExtend(R.StartWord(logic), samples, j - 1, n, cfg);
      PrefixStep(prev, samples[j - 1], row, n, cfg, logic, j);
      var st := R.Step(prev.0, samples[j - 1], n, cfg);
      assert R.Run(R.StartWord(logic), samples[..j], n, cfg) == (st.0, prev.1);
    }
  }

  /** A run that has handed nothing off and whose last step hands off `x` and restarts. */
  lemma RunLast(b: R.WordBuild, samples: seq<R.Sample>, n: nat, cfg: R.RxConfig, x: R.WordBuild)
    requires n > 0 && |samples| > 0
    requires R.Run(b, samples[..|samples| - 1], n, cfg).1 == []
    requires R.Step(R.Run(b, samples[..|samples| - 1], n, cfg).0, samples[|samples| - 1], n, cfg) == (R.StartWord(false), Some(x))
    ensures R.Run(b, samples, n, cfg) == (R.StartWord(false), [x])
  {
    var k := |samples| - 1;
    R.RunExtend(b, samples, k, n, cfg);
    assert samples[..k + 1] == samples;
    assert [] + [x] == [x];
  }

  /** The gap sample after all but the last symbol hands off the row after the skipped sync bit. */
  lemma GapStep(r: (R.WordBuild, seq<R.WordBuild>), smp: R.Sample, row: seq<char>, n: nat, cfg: R.RxConfig, logic: bool)
    requires n > 0 && Skip(cfg) < |row|
    requires PrefixState(r, row, cfg, logic, |row| - 1)
    requires R.Classify(smp.width, n, cfg.invertLogic) == row[|row| - 1] && R.IsGap(smp, n)
    ensures var st := R.Step(r.0, smp, n, cfg);
      && st.0 == R.StartWord(false)
      && st.1.Some? && st.1.value.word == row[Skip(cfg)..] && st.1.value.logic == logic
  {
    var j := |row| - 1;
    StepGap(r.0, smp, n, cfg, row[j]);
    var w := if j == 0 then [] else row[Skip(cfg)..j];
    assert row[Skip(cfg)..] == w + [row[j]];
  }

  /** Samples carrying `row` and ending in a gap hand off exactly one word: the row after the skipped sync bit. */
  lemma CarriedWord(samples: seq<R.Sample>, row: seq<char>, n: nat, cfg: R.RxConfig, logic: bool)
    requires n > 0 && Carries(samples, row, n, cfg.invertLogic)
    requires |row| > Skip(cfg) && R.IsGap(samples[|row| - 1], n)
    ensures var r := R.Run(R.StartWord(logic), samples, n, cfg);
      && r.0 == R.StartWord(false)
      && |r.1| == 1
      && r.1[0].word == row[Skip(cfg)..]
      && r.1[0].logic == logic
  {
    var j := |row| - 1;
    CarriedPrefix(samples, row, n, cfg, logic, j);
    var prev := R.Run(R.StartWord(logic), samples[..j], n, cfg);
    GapStep(prev, samples[j], row, n, cfg, logic);
    RunLast(R.StartWord(logic), samples, n, cfg, R.Step(prev.0, samples[j], n, cfg).1.value);
  }

  /**
   * A whole frame, followed by a pause longer than 1.3 periods, is handed
   * off as exactly one word: the transmitted row, without its first symbol
   * when the receiver skips the sync bit, with the builder's logic; the
   * builder starts afresh.
   */
  lemma FrameRoundTrip(row: seq<char>, tShort: nat, tLong: nat, cfg: R.RxConfig, logic: bool, gap: nat)
    requires T.IsBinary(row) && tShort < tLong <= T.T_PULSE_MAX
    requires |row| > Skip(cfg)
    requires 10 * gap > 13 * (tShort + tLong)
    ensures var samples := FrameSamples(T.Encode(row, tShort, tLong, cfg.invertLogic).value[..|row|], tShort + tLong, gap);
      var r := R.Run(R.StartWord(logic), samples, tShort + tLong, cfg);
      && r.0 == R.StartWord(false)
      && |r.1| == 1
      && r.1[0].word == row[Skip(cfg)..]
      && r.1[0].logic == logic
  {
    FrameCarries(row, tShort, tLong, cfg.invertLogic, gap);
    var samples := FrameSamples(T.Encode(row, tShort, tLong, cfg.invertLogic).value[..|row|], tShort + tLong, gap);
    CarriedWord(samples, row, tShort + tLong, cfg, logic);
  }

  /**
   * With the sync bit added by the transmitter and skipped by the
   * receiver (the receiver's default), the word handed off is exactly the
   * word the host queued with "tx <word>".
   */
  lemma QueuedWordRoundTrip(w: seq<char>, tShort: nat, tLong: nat, invertLogic: bool, timeoutUs: nat, logic: bool, gap: nat)
    requires T.IsBinary(w) && |w| > 0 && tShort < tLong <= T.T_PULSE_MAX
    requires 10 * gap > 13 * (tShort + tLong)
    ensures var row := (if invertLogic then "1" else "0") + w;
      var samples := FrameSamples(T.Encode(row, tShort, tLong, invertLogic).value[..|row|], tShort + tLong, gap);
      var out := R.Run(R.StartWord(logic), samples, tShort + tLong, R.RxConfig(invertLogic, true, timeoutUs)).1;
      |out| == 1 && out[0].word == w
  {
    var row := (if invertLogic then "1" else "0") + w;
    FrameRoundTrip(row, tShort, tLong, R.RxConfig(invertLogic, true, timeoutUs), logic, gap);
    assert row[1..] == w;
  }
}

=== FILE: more_math.dfy ===
/**
 * The numeric helpers of more_math.cpp: uint16 min/max, the statistical
 * mode of an array (sort in place, then count runs) and the 64-bit
 * accumulating average.
 */
module MoreMath {
  import opened Platform

  const TWO_POW_31: int := 0x8000_0000

  function Min16(a: nat, b: nat): (r: nat)
    requires a <= UINT16_MAX && b <= UINT16_MAX
    ensures r == a || r == b
    ensures r <= a && r <= b
  {
    if a <= b then a else b
  }

  function Max16(a: nat, b: nat): (r: nat)
    requires a <= UINT16_MAX && b <= UINT16_MAX
    ensures r == a || r == b
    ensures r >= a && r >= b
  {
    if a >= b then a else b
  }

  // ---------------------------------------------------------------------
  // The qsort comparator

  /** A uint32 bit pattern read as a two's-complement int32. */
  function AsInt32(x: nat): (r: int)
    requires IsU32(x)
    ensures -TWO_POW_31 <= r < TWO_POW_31
    ensures (r - x) % TWO_POW_32 == 0
  {
    if x < TWO_POW_31 then x else x - TWO_POW_32
  }

  /**
   * The comparator as written: both uint32 elements are read through
   * `int*` and subtracted, the difference wrapping to int32.
   */
  function CompareAsWritten(a: nat, b: nat): (r: int)
    requires IsU32(a) && IsU32(b)
    ensures -TWO_POW_31 <= r < TWO_POW_31
    ensures (r - (AsInt32(a) - AsInt32(b))) % TWO_POW_32 == 0
  {
    AsInt32(((AsInt32(a) - AsInt32(b)) % TWO_POW_32) as nat)
  }

  /** Below 2^31 the comparator as written orders elements by value. */
  lemma CompareAsWrittenBelowHalf(a: nat, b: nat)
    requires a < TWO_POW_31 && b < TWO_POW_31
    ensures CompareAsWritten(a, b) < 0 <==> a < b
    ensures CompareAsWritten(a, b) == 0 <==> a == b
  {
    var d := a - b;
    if d < 0 {
      assert (d % TWO_POW_32) == d + TWO_POW_32;
    } else {
      assert d % TWO_POW_32 == d;
    }
  }

  /** A uint32 value of 2^31 + 1 is placed before 1 by the comparator as written. */
  lemma CompareAsWrittenMisorders()
    ensures CompareAsWritten(0x8000_0001, 1) < 0
    ensures 0x8000_0001 > 1
  {
    assert AsInt32(0x8000_0001) == -0x7FFF_FFFF;
    assert ((-0x7FFF_FFFF - 1) % TWO_POW_32) == 0x8000_0000;
  }

  /** The comparator evidently intended: three-way comparison of the uint32 values. */
  function Compare(a: nat, b: nat): (r: int)
    ensures r < 0 <==> a < b
    ensures r == 0 <==> a == b
    ensures r > 0 <==> a > b
  {
    if a < b then -1 else if a > b then 1 else 0
  }

  // ---------------------------------------------------------------------
  // Sorting (qsort with the comparator above)

  ghost predicate SortedAsc(s: seq<nat>) {
    forall i, j :: 0 <= i < j < |s| ==> s[i] <= s[j]
  }

  /** Inserts `x` into the ascending sequence `s` before the first element it does not exceed. */
  function Insert(x: nat, s: seq<nat>): (r: seq<nat>)
    requires SortedAsc(s)
    ensures SortedAsc(r)
    ensures multiset(r) == multiset(s) + multiset{x}
    ensures |r| == |s| + 1
    ensures r[0] == x || (s != [] && r[0] == s[0])
  {
    if s == [] || Compare(x, s[0]) <= 0 then [x] + s
    else
      assert s == [s[0]] + s[1..];
      var rest := Insert(x, s[1..]);
      assert s[0] <= rest[0];
      [s[0]] + rest
  }

  /** The ascending rearrangement of `s`: what qsort leaves in the array. */
  function SortSeq(s: seq<nat>): (r: seq<nat>)
    ensures SortedAsc(r)
    ensures multiset(r) == multiset(s)
    ensures |r| == |s|
  {
    if s == [] then []
    else
      assert s == [s[0]] + s[1..];
      Insert(s[0], SortSeq(s[1..]))
  }

  // ---------------------------------------------------------------------
  // The mode

  function Count(s: seq<nat>, v: nat): nat {
    multiset(s)[v]
  }

  /**
   * `m` is the smallest of the most frequent values of `s`, and 0 when `s`
   * is empty.
   */
  ghost predicate IsSmallestMode(s: seq<nat>, m: nat) {
    if |s| == 0 then m == 0
    else
      && m in s
      && forall k :: 0 <= k < |s| ==>
           && Count(s, s[k]) <= Count(s, m)
           && (Count(s, s[k]) == Count(s, m) ==> m <= s[k])
  }

  /** The mode property determines the result: at most one value satisfies it. */
  lemma SmallestModeUnique(s: seq<nat>, m1: nat, m2: nat)
    requires IsSmallestMode(s, m1) && IsSmallestMode(s, m2)
    ensures m1 == m2
  {
    if |s| > 0 {
      var k1 :| 0 <= k1 < |s| && s[k1] == m1;
      var k2 :| 0 <= k2 < |s| && s[k2] == m2;
      assert Count(s, s[k1]) <= Count(s, m2) && Count(s, s[k2]) <= Count(s, m1);
    }
  }

  /**
   * The best of `s[..n]` by frequency in `s`, ties going to the smaller
   * value: a reference definition of the mode, independent of sorting.
   */
  function BestOf(s: seq<nat>, n: nat): (m: nat)
    requires 0 < n <= |s|
    ensures m in s[..n]
    ensures forall k :: 0 <= k < n ==> Count(s, s[k]) <= Count(s, m) && (Count(s, s[k]) == Count(s, m) ==> m <= s[k])
  {
    if n == 1 then s[0]
    else
      var b := BestOf(s, n - 1);
      var c := s[n - 1];
      assert b in s[..n] by { assert s[..n - 1] <= s[..n]; }
      if Count(s, c) > Count(s, b) || (Count(s, c) == Count(s, b) && c < b) then c else b
  }

  /** The smallest of the most frequent values of `s`, and 0 for an empty `s`. */
  function SmallestMode(s: seq<nat>): (m: nat)
    ensures IsSmallestMode(s, m)
  {
    if |s| == 0 then 0
    else
      var m := BestOf(s, |s|);
      assert s[..|s|] == s;
      m
  }

  /** A run of copies of `v` counts `v` once per copy. */
  lemma {:induction false} RunMultiset(s: seq<nat>, v: nat)
    requires forall k :: 0 <= k < |s| ==> s[k] == v
    ensures multiset(s)[v] == |s|
  {
    if s != [] {
      assert s == [s[0]] + s[1..];
      RunMultiset(s[1..], v);
    }
  }

  /**
   * In an ascending sequence, a maximal run `s[i..j]` of the value `v`
   * holds every occurrence of `v`.
   */
  lemma RunCount(s: seq<nat>, i: nat, j: nat, v: nat)
    requires SortedAsc(s)
    requires i < j <= |s|
    requires forall k :: i <= k < j ==> s[k] == v
    requires i == 0 || s[i - 1] < v
    requires j == |s| || s[j] > v
    ensures Count(s, v) == j - i
  {
    var before, run, after := s[..i], s[i..j], s[j..];
    assert s == before + run + after;
    RunMultiset(run, v);
    NoneBefore(s, i, v);
    NoneAfter(s, j, v);
    assert multiset(s) == multiset(before) + multiset(run) + multiset(after);
  }

  /** In an ascending sequence, `v` does not occur before a place holding less than `v`. */
  lemma NoneBefore(s: seq<nat>, i: nat, v: nat)
    requires SortedAsc(s) && i <= |s|
    requires i == 0 || s[i - 1] < v
    ensures multiset(s[..i])[v] == 0
  {
    forall k | 0 <= k < i ensures s[..i][k] != v {
      assert s[k] <= s[i - 1];
    }
    assert v !in s[..i];
  }

  /** In an ascending sequence, `v` does not occur from a place holding more than `v` on. */
  lemma NoneAfter(s: seq<nat>, j: nat, v: nat)
    requires SortedAsc(s) && j <= |s|
    requires j == |s| || s[j] > v
    ensures multiset(s[j..])[v] == 0
  {
    forall k | 0 <= k < |s| - j ensures s[j..][k] != v {
      assert s[j] <= s[j + k];
    }
    assert v !in s[j..];
  }

  /**
   * The counting pass of `mode` over the ascending prefix `arr[..size]`:
   * count each run of equal values and keep the first value whose count is
   * strictly larger than the best so far.
   */
  method ScanSortedMode(arr: array<nat>, size: nat) returns (maxValue: nat)
    requires size <= arr.Length
    requires SortedAsc(arr[..size])
    ensures IsSmallestMode(arr[..size], maxValue)
  {
    ghost var s := arr[..size];
    var maxCount: nat := 0;
    maxValue := 0;
    ghost var at: nat := 0;
    var i: nat := 0;
    while i < size
      invariant i <= size
      invariant 0 < i < size ==> s[i - 1] < s[i]
      invariant i == 0 ==> maxCount == 0 && maxValue == 0
      invariant i > 0 ==> at < i && s[at] == maxValue && maxCount == Count(s, maxValue)
      invariant forall k :: 0 <= k < i ==>
                  && Count(s, s[k]) <= maxCount
                  && (Count(s, s[k]) == maxCount ==> maxValue <= s[k])
    {
      var cnt: nat := 1;
      var j := i + 1;
      while j < size
        invariant i < j <= size
        invariant cnt == j - i
        invariant forall k :: i <= k < j ==> s[k] == s[i]
      {
        if arr[j] == arr[i] {
          cnt := cnt + 1;
        } else {
          break;
        }
        j := j + 1;
      }
      assert j < size ==> s[j] > s[i] by {
        if j < size { assert s[i] <= s[j]; }
      }
      RunCount(s, i, j, s[i]);
      if cnt > maxCount {
        maxCount := cnt;
        maxValue := arr[i];
        at := i;
      }
      forall k | i <= k < j ensures Count(s, s[k]) <= maxCount && (Count(s, s[k]) == maxCount ==> maxValue <= s[k]) {
        assert s[k] == s[i];
        if at < i { assert s[at] <= s[i - 1]; }
      }
      i := j;
    }
  }

  /**
   * `mode`: sorts `arr[..size]` in place into ascending order and returns
   * the smallest of its most frequent values (0 for an empty array).
   */
  method Mode(arr: array<nat>, size: nat) returns (r: nat)
    requires size <= arr.Length
    modifies arr
    ensures SortedAsc(arr[..size])
    ensures multiset(arr[..size]) == multiset(old(arr[..size]))
    ensures arr[size..] == old(arr[size..])
    ensures IsSmallestMode(old(arr[..size]), r) && r == SmallestMode(old(arr[..size]))
  {
    ghost var input := arr[..size];
    var sorted := SortSeq(arr[..size]);
    forall k | 0 <= k < size {
      arr[k] := sorted[k];
    }
    assert arr[..size] == sorted;
    assert arr[size..] == old(arr[size..]);
    r := ScanSortedMode(arr, size);
    ModeOfPermutation(input, sorted, r);
    SmallestModeUnique(input, r, SmallestMode(input));
  }

  /** The mode depends only on the multiset of values, not their order. */
  lemma ModeOfPermutation(s: seq<nat>, t: seq<nat>, m: nat)
    requires multiset(s) == multiset(t)
    requires IsSmallestMode(t, m)
    ensures IsSmallestMode(s, m)
  {
    assert |s| == |multiset(s)| == |t|;
    if |s| > 0 {
      assert m in multiset(t);
      forall k | 0 <= k < |s|
        ensures Count(s, s[k]) <= Count(s, m) && (Count(s, s[k]) == Count(s, m) ==> m <= s[k])
      {
        assert s[k] in multiset(t);
        var k' :| 0 <= k' < |t| && t[k'] == s[k];
      }
    }
  }

  // ---------------------------------------------------------------------
  // The average

  function Sum(s: seq<nat>): nat {
    if s == [] then 0 else Sum(s[..|s| - 1]) + s[|s| - 1]
  }

  function SeqMin(s: seq<nat>): (m: nat)
    requires |s| > 0
    ensures m in s && forall k :: 0 <= k < |s| ==> m <= s[k]
  {
    if |s| == 1 then s[0]
    else
      var m := SeqMin(s[..|s| - 1]);
      assert forall k :: 0 <= k < |s| - 1 ==> s[..|s| - 1][k] == s[k];
      if s[|s| - 1] < m then s[|s| - 1] else m
  }

  function SeqMax(s: seq<nat>): (m: nat)
    requires |s| > 0
    ensures m in s && forall k :: 0 <= k < |s| ==> s[k] <= m
  {
    if |s| == 1 then s[0]
    else
      var m := SeqMax(s[..|s| - 1]);
      assert forall k :: 0 <= k < |s| - 1 ==> s[..|s| - 1][k] == s[k];
      if s[|s| - 1] > m then s[|s| - 1] else m
  }

  /** Every element lies between `lo` and `hi`, so the sum lies between |s|*lo and |s|*hi. */
  lemma {:induction false} SumBounds(s: seq<nat>, lo: nat, hi: nat)
    requires forall k :: 0 <= k < |s| ==> lo <= s[k] <= hi
    ensures |s| * lo <= Sum(s) <= |s| * hi
  {
    if s != [] {
      var n := |s| - 1;
      SumBounds(s[..n], lo, hi);
      assert |s| * lo == n * lo + lo && |s| * hi == n * hi + hi;
    }
  }

  /**
   * `avg`: floor of the mean of `data[..count]`, accumulated in 64 bits
   * (which cannot wrap for fewer than 2^32 uint32 values). The source
   * divides by zero when `count` is 0.
   */
  method Avg(data: array<nat>, count: nat) returns (r: nat)
    requires 0 < count <= data.Length
    ensures r == Sum(data[..count]) / count
    ensures SeqMin(data[..count]) <= r <= SeqMax(data[..count])
  {
    var sum: nat := 0;
    var i := 0;
    while i < count
      invariant i <= count
      invariant sum == Sum(data[..i])
    {
      assert data[..i + 1][..i] == data[..i];
      sum := sum + data[i];
      i := i + 1;
    }
    assert data[..count] == data[..i];
    r := sum / count;
    SumBounds(data[..count], SeqMin(data[..count]), SeqMax(data[..count]));
    DivBetween(sum, count, SeqMin(data[..count]), SeqMax(data[..count]));
  }

  lemma DivBetween(sum: nat, n: nat, lo: nat, hi: nat)
    requires 0 < n
    requires n * lo <= sum <= n * hi
    ensures lo <= sum / n <= hi
  {
    var q, rem := sum / n, sum % n;
    assert sum == n * q + rem && rem < n;
    assert n * (lo - q - 1) < 0;
    assert n * (q - hi) <= 0;
    ProductSign(n, lo - q - 1);
    ProductSign(n, q - hi);
  }

  lemma ProductSign(n: nat, x: int)
    requires 0 < n
    ensures n * x < 0 ==> x < 0
    ensures n * x <= 0 ==> x <= 0
  {
  }
}

=== FILE: platform.dfy ===
/**
 * Platform: the pieces of the firmware's global environment that every
 * component touches -- the shared 32-bit `status` word with its flag bytes,
 * the board signals the pipeline drives (receive-radio enable pin, transmit
 * activity pin, the PWM/DMA engine) and the millisecond tick arithmetic.
 */
module Platform {

  const UINT16_MAX: nat := 0xFFFF
  const UINT32_MAX: nat := 0xFFFF_FFFF
  /** Number of values of a uint32; arithmetic "mod 2^32" is written with it. */
  const TWO_POW_32: nat := 0x1_0000_0000

  datatype Option<+T> = None | Some(value: T)

  predicate IsU32(x: int) { 0 <= x < TWO_POW_32 }

  // Flag bits of the transmitter byte (bits 8..15 of `status`).
  const TX_BUFFER_EMPTY: bv32 := 0x01
  const TX_PREP_FAILED: bv32 := 0x02
  const TX_COMPLETE: bv32 := 0x04
  // Flag bit of the receiver byte (bits 16..23 of `status`).
  const RX_WORD_AVAILABLE: bv32 := 0x01

  /** The global `status` word: byte 1 transmitter flags, byte 2 receiver flags. */
  class StatusRegister {
    var bits: bv32

    constructor ()
      ensures bits == 0
    {
      bits := 0;
    }

    /** The transmitter status byte, `(status >> 8) & 0xFF`. */
    function TxByte(): (b: bv32)
      reads this
      ensures b <= 0xFF && b << 8 == bits & 0xFF00
    {
      (bits >> 8) & 0xFF
    }

    /** The receiver status byte, `(status >> 16) & 0xFF`. */
    function RxByte(): (b: bv32)
      reads this
      ensures b <= 0xFF && b << 16 == bits & 0xFF_0000
    {
      (bits >> 16) & 0xFF
    }
  }

  /**
   * Board signals: the receive radio's enable pin, the transmit-activity
   * pin, and the PWM/DMA engine. The counters record how often each edge
   * was driven, so that contracts can say "exactly once".
   */
  class Board {
    var rxEnabled: bool
    var txActive: bool
    var dmaRunning: bool
    /** The transmit timer's auto-reload register (TIM1 ARR). */
    var timerArr: nat
    ghost var rxDisables: nat
    ghost var rxEnables: nat
    ghost var dmaStarts: nat

    constructor (radioOn: bool)
      ensures rxEnabled == radioOn && !txActive && !dmaRunning
      ensures rxDisables == 0 && rxEnables == 0 && dmaStarts == 0 && timerArr == 0
    {
      rxEnabled, txActive, dmaRunning := radioOn, false, false;
      timerArr := 0;
      rxDisables, rxEnables, dmaStarts := 0, 0, 0;
    }

    method EnableRx()
      modifies this
      ensures rxEnabled && txActive == old(txActive) && dmaRunning == old(dmaRunning)
      ensures rxEnables == old(rxEnables) + 1 && rxDisables == old(rxDisables)
      ensures dmaStarts == old(dmaStarts) && timerArr == old(timerArr)
    {
      rxEnabled := true;
      rxEnables := rxEnables + 1;
    }

    method DisableRx()
      modifies this
      ensures !rxEnabled && txActive == old(txActive) && dmaRunning == old(dmaRunning)
      ensures rxDisables == old(rxDisables) + 1 && rxEnables == old(rxEnables)
      ensures dmaStarts == old(dmaStarts) && timerArr == old(timerArr)
    {
      rxEnabled := false;
      rxDisables := rxDisables + 1;
    }

    /** `HAL_TIM_PWM_Start_DMA`: one more PWM/DMA transmission of a frame. */
    method StartDma()
      modifies this
      ensures dmaRunning && dmaStarts == old(dmaStarts) + 1
      ensures rxEnabled == old(rxEnabled) && txActive == old(txActive)
      ensures rxEnables == old(rxEnables) && rxDisables == old(rxDisables) && timerArr == old(timerArr)
    {
      dmaRunning := true;
      dmaStarts := dmaStarts + 1;
    }
  }

  /**
   * Milliseconds elapsed from `last` to `now` on the wrapping 32-bit tick
   * counter, computed as the firmware does: `now - last` when the counter
   * has not wrapped, else `now + (UINT32_MAX - last)`.
   */
  function Elapsed(now: nat, last: nat): (d: nat)
    requires IsU32(now) && IsU32(last)
    ensures IsU32(d)
    ensures now >= last ==> d == (now - last) % TWO_POW_32
    ensures now < last ==> d + 1 == (now - last) % TWO_POW_32
  {
    if now >= last then now - last else now + (UINT32_MAX - last)
  }

  /** `x * k` as computed in uint32 arithmetic. */
  function MulU32(x: nat, k: nat): (r: nat)
    ensures IsU32(r)
    ensures x * k < TWO_POW_32 ==> r == x * k
  {
    (x * k) % TWO_POW_32
  }
}

=== FILE: receiver.dfy ===
/**
 * The receive path of receiver.cpp: the input-capture callbacks that fill
 * the (period, width) sample ring, the overflow counter, the word-boundary
 * snapshot, and `checkRxBuffers`, which classifies the samples of the
 * snapshotted window into '0'/'1' symbols and hands each finished word to
 * the correlation buffer.
 */
module Receiver {
  import opened Platform
  import MoreMath
  import opened RxCorrelation

  const RX_BUFFER_SAMPLES: nat := 5 * RX_MAX_BITS

  // ---------------------------------------------------------------------
  // Classification of one pulse

  /** Integer duty cycle in percent, `width * 100` in uint32, truncated to uint16. */
  function DutyPct(width: nat, periodMode: nat): nat
    requires periodMode > 0
  {
    (MulU32(width, 100) / periodMode) % 0x1_0000
  }

  /** A short pulse (duty below 50%) is '1' and a long one '0'; `invertLogic` swaps them. */
  function Classify(width: nat, periodMode: nat, invertLogic: bool): (c: char)
    requires periodMode > 0
    ensures c == '0' || c == '1'
    ensures (c == '1') == ((DutyPct(width, periodMode) < 50) != invertLogic)
  {
    if DutyPct(width, periodMode) < 50 then (if invertLogic then '0' else '1')
    else (if invertLogic then '1' else '0')
  }

  // ---------------------------------------------------------------------
  // Word building, as functions over the window's samples

  datatype Sample = Sample(period: nat, width: nat)

  /** The receiver settings that word building reads. */
  datatype RxConfig = RxConfig(invertLogic: bool, ignoreSyncBit: bool, timeoutUs: nat)

  /**
   * The word being assembled: its symbols, the per-bit long/short/period
   * scratch values, its logic flag, and whether the next sample is the
   * first of the word.
   */
  datatype WordBuild = WordBuild(word: seq<char>, longs: seq<nat>, shorts: seq<nat>, periods: seq<nat>,
                                 logic: bool, atWordStart: bool)

  function StartWord(logic: bool): WordBuild {
    WordBuild([], [], [], [], logic, true)
  }

  /** One bit: a binary symbol, and short + long equal to the stored period in uint32. */
  predicate BitOk(c: char, long: nat, short: nat, period: nat) {
    && (c == '0' || c == '1')
    && IsU32(period) && IsU32(long) && IsU32(short)
    && (long + short) % TWO_POW_32 == period
  }

  /** Per-bit scratch values agree with the word, one of each per symbol. */
  predicate WellFormed(b: WordBuild) {
    && |b.longs| == |b.shorts| == |b.periods| == |b.word|
    && forall k :: 0 <= k < |b.word| ==> BitOk(b.word[k], b.longs[k], b.shorts[k], b.periods[k])
  }

  /** The period stored for a bit: the mode period when the raw period exceeds the timeout. */
  function StoredPeriod(smp: Sample, periodMode: nat, cfg: RxConfig): (p: nat)
    ensures p == periodMode || (p == smp.period && p <= cfg.timeoutUs)
    ensures smp.period <= cfg.timeoutUs ==> p == smp.period
  {
    if smp.period > cfg.timeoutUs then periodMode else smp.period
  }

  /** Appends the symbol of `smp` and its timings. */
  function AddSymbol(b: WordBuild, smp: Sample, periodMode: nat, cfg: RxConfig): (r: WordBuild)
    requires periodMode > 0
    ensures r.word == b.word + [Classify(smp.width, periodMode, cfg.invertLogic)]
    ensures r.periods == b.periods + [StoredPeriod(smp, periodMode, cfg)]
    ensures r.logic == b.logic && r.atWordStart == b.atWordStart
  {
    var per := StoredPeriod(smp, periodMode, cfg);
    if DutyPct(smp.width, periodMode) < 50 then
      b.(word := b.word + [if cfg.invertLogic then '0' else '1'],
         shorts := b.shorts + [smp.width],
         longs := b.longs + [(per - smp.width) % TWO_POW_32],
         periods := b.periods + [per])
    else
      b.(word := b.word + [if cfg.invertLogic then '1' else '0'],
         longs := b.longs + [smp.width],
         shorts := b.shorts + [(per - smp.width) % TWO_POW_32],
         periods := b.periods + [per])
  }

  /** A gap: the raw period exceeds 1.3 times the mode period (integer form). */
  predicate IsGap(smp: Sample, periodMode: nat): (g: bool)
    ensures g ==> smp.period > periodMode
    ensures 0 < periodMode && 2 * periodMode <= smp.period ==> g
  {
    10 * smp.period > 13 * periodMode
  }

  /**
   * One sample: emit its symbol unless it is the sync bit at the start of a
   * word; then, on a gap after a non-empty word, hand the word off and start
   * a new one (cleared, so with logic false).
   */
  function Step(b: WordBuild, smp: Sample, periodMode: nat, cfg: RxConfig): (WordBuild, Option<WordBuild>)
    requires periodMode > 0
  {
    var b1 := if !cfg.ignoreSyncBit || !b.atWordStart then AddSymbol(b, smp, periodMode, cfg) else b;
    if IsGap(smp, periodMode) && |b1.word| > 0 then (StartWord(false), Some(b1))
    else (b1.(atWordStart := false), None)
  }

  /**
   * What one sample does to the word being built: the word (handed off or
   * kept) gains the sample's symbol unless it is a skipped sync bit; a word
   * is handed off exactly on a gap after a non-empty word, and the builder
   * then restarts.
   */
  lemma StepOutcome(b: WordBuild, smp: Sample, periodMode: nat, cfg: RxConfig)
    requires periodMode > 0
    ensures var r := Step(b, smp, periodMode, cfg);
      var w := if r.1.Some? then r.1.value else r.0;
      && w.word == b.word + (if cfg.ignoreSyncBit && b.atWordStart then [] else [Classify(smp.width, periodMode, cfg.invertLogic)])
      && (r.1.Some? <==> IsGap(smp, periodMode) && (|b.word| > 0 || !(cfg.ignoreSyncBit && b.atWordStart)))
      && (r.1.Some? ==> r.0 == StartWord(false))
      && (r.1.None? ==> !r.0.atWordStart && r.0.logic == b.logic)
  {
  }

  /** The builder after `samples`, and the words handed off on the way, in order. */
  function Run(b: WordBuild, samples: seq<Sample>, periodMode: nat, cfg: RxConfig): (WordBuild, seq<WordBuild>)
    requires periodMode > 0
  {
    if samples == [] then (b, [])
    else
      var (b', ws) := Run(b, samples[..|samples| - 1], periodMode, cfg);
      var (b'', out) := Step(b', samples[|samples| - 1], periodMode, cfg);
      (b'', if out.Some? then ws + [out.value] else ws)
  }

  /** One more sample is one more `Step`. */
  lemma RunExtend(b: WordBuild, samples: seq<Sample>, k: nat, periodMode: nat, cfg: RxConfig)
    requires periodMode > 0 && k < |samples|
    ensures var r := Run(b, samples[..k], periodMode, cfg);
      var st := Step(r.0, samples[k], periodMode, cfg);
      Run(b, samples[..k + 1], periodMode, cfg) == (st.0, if st.1.Some? then r.1 + [st.1.value] else r.1)
  {
    assert samples[..k + 1][..k] == samples[..k];
  }

  /**
   * Every word handed off is non-empty and well formed: binary symbols, one
   * long/short/period value per symbol, short + long equal to the stored
   * period.
   */
  lemma {:induction false} RunWellFormed(b: WordBuild, samples: seq<Sample>, periodMode: nat, cfg: RxConfig)
    requires periodMode > 0 && IsU32(periodMode) && WellFormed(b)
    requires forall k :: 0 <= k < |samples| ==> IsU32(samples[k].period) && IsU32(samples[k].width)
    ensures WellFormed(Run(b, samples, periodMode, cfg).0)
    ensures forall k :: 0 <= k < |Run(b, samples, periodMode, cfg).1| ==>
      WellFormed(Run(b, samples, periodMode, cfg).1[k]) && |Run(b, samples, periodMode, cfg).1[k].word| > 0
  {
    if samples != [] {
      var init := samples[..|samples| - 1];
      RunWellFormed(b, init, periodMode, cfg);
      var b' := Run(b, init, periodMode, cfg).0;
      var smp := samples[|samples| - 1];
      if !cfg.ignoreSyncBit || !b'.atWordStart {
        AddSymbolWellFormed(b', smp, periodMode, cfg);
      }
    }
  }

  lemma BitOkComplement(c: char, per: nat, w: nat)
    requires c == '0' || c == '1'
    requires IsU32(per) && IsU32(w)
    ensures BitOk(c, (per - w) % TWO_POW_32, w, per)
    ensures BitOk(c, w, (per - w) % TWO_POW_32, per)
  {
    var d := (per - w) % TWO_POW_32;
    if per >= w {
      assert d == per - w;
    } else {
      assert d == per - w + TWO_POW_32;
    }
  }

  lemma AddSymbolWellFormed(b: WordBuild, smp: Sample, periodMode: nat, cfg: RxConfig)
    requires periodMode > 0 && IsU32(periodMode) && WellFormed(b)
    requires IsU32(smp.period) && IsU32(smp.width)
    ensures WellFormed(AddSymbol(b, smp, periodMode, cfg))
  {
    var r := AddSymbol(b, smp, periodMode, cfg);
    var n := |b.word|;
    BitOkComplement(r.word[n], StoredPeriod(smp, periodMode, cfg), smp.width);
    assert BitOk(r.word[n], r.longs[n], r.shorts[n], r.periods[n]);
    assert forall k :: 0 <= k < n ==>
      r.word[k] == b.word[k] && r.longs[k] == b.longs[k] && r.shorts[k] == b.shorts[k] && r.periods[k] == b.periods[k];
  }

  /**
   * Only the first word handed off carries the initial logic flag: the
   * firmware clears the packet after each hand-off, which resets its logic
   * flag to false.
   */
  lemma {:induction false} RunLogic(b: WordBuild, samples: seq<Sample>, periodMode: nat, cfg: RxConfig)
    requires periodMode > 0
    ensures var (b', ws) := Run(b, samples, periodMode, cfg);
      && (forall k :: 0 <= k < |ws| ==> ws[k].logic == (if k == 0 then b.logic else false))
      && b'.logic == (if |ws| == 0 then b.logic else false)
  {
    if samples != [] {
      RunLogic(b, samples[..|samples| - 1], periodMode, cfg);
    }
  }

  /**
   * With `ignoreSyncBit`, a word's first sample emits no symbol: a word
   * handed off after `n` samples holds `n - 1` symbols.
   */
  lemma SyncBitDropped(b: WordBuild, smp: Sample, periodMode: nat, cfg: RxConfig)
    requires periodMode > 0 && cfg.ignoreSyncBit && b.atWordStart
    ensures Step(b, smp, periodMode, cfg).0.word == (if IsGap(smp, periodMode) && |b.word| > 0 then [] else b.word)
    ensures var out := Step(b, smp, periodMode, cfg).1; out.Some? ==> out.value.word == b.word
  {
  }

  // ---------------------------------------------------------------------
  // Ring arithmetic

  /** Ring slot `k` places after `lo` (at most one lap). */
  function Slot(lo: nat, k: nat): (j: nat)
    requires lo < RX_BUFFER_SAMPLES && k <= RX_BUFFER_SAMPLES
    ensures j < RX_BUFFER_SAMPLES
    ensures j == (lo + k) % RX_BUFFER_SAMPLES
  {
    if lo + k < RX_BUFFER_SAMPLES then lo + k else lo + k - RX_BUFFER_SAMPLES
  }

  /** How many places slot `j` lies after `lo`. */
  function Offset(lo: nat, j: nat): (k: nat)
    requires lo < RX_BUFFER_SAMPLES && j < RX_BUFFER_SAMPLES
    ensures k < RX_BUFFER_SAMPLES
    ensures (lo + k) % RX_BUFFER_SAMPLES == j
  {
    if lo <= j then j - lo else j + RX_BUFFER_SAMPLES - lo
  }

  /** Number of samples from `lo` up to (excluding) `hi`, the `sample_ct` of the source. */
  function WindowLen(lo: nat, hi: nat): (n: nat)
    requires lo < RX_BUFFER_SAMPLES && hi < RX_BUFFER_SAMPLES
    ensures n < RX_BUFFER_SAMPLES
    ensures n == Offset(lo, hi)
    ensures Slot(lo, n) == hi
  {
    if hi < lo then (RX_BUFFER_SAMPLES - lo) + hi else hi - lo
  }

  lemma OffsetOfSlot(lo: nat, k: nat)
    requires lo < RX_BUFFER_SAMPLES && k < RX_BUFFER_SAMPLES
    ensures Offset(lo, Slot(lo, k)) == k
  {
  }

  lemma SlotOfOffset(lo: nat, j: nat)
    requires lo < RX_BUFFER_SAMPLES && j < RX_BUFFER_SAMPLES
    ensures Slot(lo, Offset(lo, j)) == j
  {
  }

  lemma SlotNext(lo: nat, k: nat)
    requires lo < RX_BUFFER_SAMPLES && k < RX_BUFFER_SAMPLES
    ensures (Slot(lo, k) + 1) % RX_BUFFER_SAMPLES == Slot(lo, k + 1)
  {
  }

  /** Moving the window's front by one adds exactly slot `Slot(lo, k)` to the consumed part. */
  lemma ConsumedGrows(lo: nat, k: nat)
    requires lo < RX_BUFFER_SAMPLES && k < RX_BUFFER_SAMPLES
    ensures forall j :: 0 <= j < RX_BUFFER_SAMPLES ==>
      (Offset(lo, j) < k + 1) == (Offset(lo, j) < k || j == Slot(lo, k))
  {
    forall j | 0 <= j < RX_BUFFER_SAMPLES
      ensures (Offset(lo, j) < k + 1) == (Offset(lo, j) < k || j == Slot(lo, k))
    {
      SlotOfOffset(lo, j);
      OffsetOfSlot(lo, k);
    }
  }

  /** The `n` samples of the ring starting at slot `lo`. */
  function WindowOf(periods: seq<nat>, widths: seq<nat>, lo: nat, n: nat): (w: seq<Sample>)
    requires |periods| == |widths| == RX_BUFFER_SAMPLES && lo < RX_BUFFER_SAMPLES && n <= RX_BUFFER_SAMPLES
    ensures |w| == n
  {
    seq(n, k requires 0 <= k < n => Sample(periods[Slot(lo, k)], widths[Slot(lo, k)]))
  }

  /** The `n` periods of the ring starting at slot `lo`. */
  function PeriodsOf(periods: seq<nat>, lo: nat, n: nat): (w: seq<nat>)
    requires |periods| == RX_BUFFER_SAMPLES && lo < RX_BUFFER_SAMPLES && n <= RX_BUFFER_SAMPLES
    ensures |w| == n
  {
    seq(n, k requires 0 <= k < n => periods[Slot(lo, k)])
  }

  /** `s` with the first `k` slots after `lo` cleared. */
  ghost function Consumed(s: seq<nat>, lo: nat, k: nat): (r: seq<nat>)
    requires |s| == RX_BUFFER_SAMPLES && lo < RX_BUFFER_SAMPLES
    ensures |r| == |s|
  {
    seq(|s|, j requires 0 <= j < |s| => if Offset(lo, j) < k then 0 else s[j])
  }

  lemma ConsumedStep(s: seq<nat>, lo: nat, k: nat)
    requires |s| == RX_BUFFER_SAMPLES && lo < RX_BUFFER_SAMPLES && k < RX_BUFFER_SAMPLES
    ensures Consumed(s, lo, k)[Slot(lo, k) := 0] == Consumed(s, lo, k + 1)
  {
    ConsumedGrows(lo, k);
  }

  lemma SlotInjective(lo: nat, a: nat, b: nat)
    requires lo < RX_BUFFER_SAMPLES && a < RX_BUFFER_SAMPLES && b < RX_BUFFER_SAMPLES
    requires Slot(lo, a) == Slot(lo, b)
    ensures a == b
  {
    OffsetOfSlot(lo, a);
    OffsetOfSlot(lo, b);
  }

  /**
   * The window loop after `k` of its `n` samples: `proc` is the slot being
   * read, `ks` the place where the current word began, the first `k` slots
   * are cleared, and the builder and the words handed off are `Run` over
   * the first `k` samples.
   */
  ghost predicate LoopState(oldP: seq<nat>, oldW: seq<nat>, lo: nat, n: nat, b0: WordBuild, pm: nat, cfg: RxConfig,
                            k: nat, ks: nat, proc: nat, wordStart: nat, packet: WordBuild, handed: seq<WordBuild>,
                            curP: seq<nat>, curW: seq<nat>)
  {
    && |oldP| == |oldW| == RX_BUFFER_SAMPLES && lo < RX_BUFFER_SAMPLES && n < RX_BUFFER_SAMPLES && pm > 0
    && ks <= k <= n
    && proc == Slot(lo, k) && wordStart == Slot(lo, ks)
    && packet.atWordStart == (ks == k)
    && (ks == k) == (proc == wordStart)
    && |packet.word| == |packet.longs| == |packet.shorts| == |packet.periods|
    && (packet, handed) == Run(b0, WindowOf(oldP, oldW, lo, n)[..k], pm, cfg)
    && curP == Consumed(oldP, lo, k) && curW == Consumed(oldW, lo, k)
  }

  lemma LoopStart(oldP: seq<nat>, oldW: seq<nat>, lo: nat, n: nat, logic: bool, pm: nat, cfg: RxConfig)
    requires |oldP| == |oldW| == RX_BUFFER_SAMPLES && lo < RX_BUFFER_SAMPLES && n < RX_BUFFER_SAMPLES && pm > 0
    ensures LoopState(oldP, oldW, lo, n, StartWord(logic), pm, cfg, 0, 0, lo, lo, StartWord(logic), [], oldP, oldW)
  {
    assert Consumed(oldP, lo, 0) == oldP;
    assert Consumed(oldW, lo, 0) == oldW;
  }

  /** One iteration, a `Step` on the sample at `proc`, keeps the loop state. */
  lemma LoopAdvance(oldP: seq<nat>, oldW: seq<nat>, lo: nat, n: nat, b0: WordBuild, pm: nat, cfg: RxConfig,
                    k: nat, ks: nat, proc: nat, wordStart: nat, packet: WordBuild, handed: seq<WordBuild>,
                    curP: seq<nat>, curW: seq<nat>, packet': WordBuild, handedWord: Option<WordBuild>, wordStart': nat,
                    ks': nat, proc': nat, handed': seq<WordBuild>, curP': seq<nat>, curW': seq<nat>)
    requires LoopState(oldP, oldW, lo, n, b0, pm, cfg, k, ks, proc, wordStart, packet, handed, curP, curW)
    requires k < n
    requires (packet', handedWord) == Step(packet, Sample(curP[proc], curW[proc]), pm, cfg)
    requires wordStart' == if handedWord.Some? then (proc + 1) % RX_BUFFER_SAMPLES else wordStart
    requires |packet'.word| == |packet'.longs| == |packet'.shorts| == |packet'.periods|
    requires ks' == (if handedWord.Some? then k + 1 else ks) && proc' == (proc + 1) % RX_BUFFER_SAMPLES
    requires handed' == if handedWord.Some? then handed + [handedWord.value] else handed
    requires curP' == curP[proc := 0] && curW' == curW[proc := 0]
    ensures LoopState(oldP, oldW, lo, n, b0, pm, cfg, k + 1, ks', proc', wordStart', packet', handed', curP', curW')
  {
    var samples := WindowOf(oldP, oldW, lo, n);
    OffsetOfSlot(lo, k);
    assert Sample(curP[proc], curW[proc]) == samples[k];
    RunExtend(b0, samples, k, pm, cfg);
    ConsumedStep(oldP, lo, k);
    ConsumedStep(oldW, lo, k);
    SlotNext(lo, k);
    if handedWord.None? && ks < k + 1 {
      OffsetOfSlot(lo, k + 1);
      OffsetOfSlot(lo, ks);
    }
  }

  /** The loop runs until `proc` reaches `Slot(lo, n)`, and then it has consumed the whole window. */
  lemma LoopDone(oldP: seq<nat>, oldW: seq<nat>, lo: nat, n: nat, b0: WordBuild, pm: nat, cfg: RxConfig,
                 k: nat, ks: nat, proc: nat, wordStart: nat, packet: WordBuild, handed: seq<WordBuild>,
                 curP: seq<nat>, curW: seq<nat>)
    requires LoopState(oldP, oldW, lo, n, b0, pm, cfg, k, ks, proc, wordStart, packet, handed, curP, curW)
    ensures (proc == Slot(lo, n)) == (k == n)
    ensures k == n ==> handed == Run(b0, WindowOf(oldP, oldW, lo, n), pm, cfg).1
  {
    if k < n {
      if proc == Slot(lo, n) {
        SlotInjective(lo, k, n);
      }
    } else {
      assert WindowOf(oldP, oldW, lo, n)[..k] == WindowOf(oldP, oldW, lo, n);
    }
  }

  // ---------------------------------------------------------------------
  // Hand-off to the correlation buffer

  /** The packet handed to `receivedWord` for a finished word: its length, symbols and logic flag. */
  function PacketOf(w: WordBuild): RxPacket {
    RxPacket(|w.word|, w.word, 0, 0, 0, w.logic)
  }

  /** `receivedWord` on a finished word, with its per-bit timings. */
  function Deliver(s: CorrelState, c: CorrelParams, w: WordBuild, ignoreSyncBit: bool, now: nat): (r: CorrelState)
    requires StateOk(s) && IsU32(now)
    ensures StateOk(r) && Raised(s.status, r.status)
  {
    WordArrives(s, c, PacketOf(w), w.longs, w.shorts, w.periods, ignoreSyncBit, now)
  }

  /** The correlation state after the words `ws` are handed to `receivedWord` in order. */
  function Delivered(s: CorrelState, c: CorrelParams, ws: seq<WordBuild>, ignoreSyncBit: bool, now: nat): (r: CorrelState)
    requires StateOk(s) && IsU32(now)
    ensures StateOk(r)
    ensures Raised(s.status, r.status)
    decreases |ws|
  {
    if ws == [] then s
    else
      var prev := Delivered(s, c, ws[..|ws| - 1], ignoreSyncBit, now);
      var r := Deliver(prev, c, ws[|ws| - 1], ignoreSyncBit, now);
      FlagStaysRaised(s.status, prev.status, r.status);
      r
  }

  /** Words that fail the length filter leave the correlation buffer and the status word as they were. */
  lemma {:induction false} DeliveredIgnoresRejected(s: CorrelState, c: CorrelParams, ws: seq<WordBuild>, ignoreSyncBit: bool, now: nat)
    requires StateOk(s) && IsU32(now)
    requires forall k :: 0 <= k < |ws| ==> !LengthOk(c, |ws[k].word|, ignoreSyncBit)
    ensures Delivered(s, c, ws, ignoreSyncBit, now) == s
    decreases |ws|
  {
    if ws != [] {
      DeliveredIgnoresRejected(s, c, ws[..|ws| - 1], ignoreSyncBit, now);
    }
  }

  /** Handing one more word is one more `receivedWord`. */
  lemma DeliveredSnoc(s: CorrelState, c: CorrelParams, ws: seq<WordBuild>, w: WordBuild, ignoreSyncBit: bool, now: nat)
    requires StateOk(s) && IsU32(now)
    ensures Delivered(s, c, ws + [w], ignoreSyncBit, now) == Deliver(Delivered(s, c, ws, ignoreSyncBit, now), c, w, ignoreSyncBit, now)
  {
    assert (ws + [w])[..|ws|] == ws;
  }

  /**
   * The `n` periods after slot `lo` copied into a zeroed scratch buffer
   * (the two `memcpy`s around the ring's end) and sorted by `mode`, which
   * returns their smallest most frequent value.
   */
  method CopyMode(periods: array<nat>, lo: nat, n: nat) returns (m: nat)
    requires periods.Length == RX_BUFFER_SAMPLES && lo < RX_BUFFER_SAMPLES && n <= RX_BUFFER_SAMPLES
    ensures m == MoreMath.SmallestMode(PeriodsOf(periods[..], lo, n))
  {
    var sorted := new nat[RX_BUFFER_SAMPLES](_ => 0);
    forall k | 0 <= k < n {
      sorted[k] := periods[Slot(lo, k)];
    }
    assert sorted[..n] == PeriodsOf(periods[..], lo, n);
    m := MoreMath.Mode(sorted, n);
  }

  // ---------------------------------------------------------------------
  // The receiver

  /** Everything consuming the window leaves alone: the other cursors and all settings. */
  datatype RxSettings = RxSettings(tgtIdx: nat, storIdx: nat, overflowCount: nat, bitMaxPeriod: nat, mode: nat,
                                   cfg: RxConfig, matchThresh: nat, minWordLen: nat, maxWordLen: nat)

  class Receiver {
    var invertLogic: bool
    var ignoreSyncBit: bool
    var mode: nat
    var storIdx: nat
    var procIdx: nat
    var tgtIdx: nat
    var bitMaxPeriod: nat
    const measuredPeriods: array<nat>
    const measuredWidths: array<nat>
    var overflowCount: nat
    const correl: RxCorrelBuffer

    ghost predicate Valid()
      reads this, correl, measuredPeriods, measuredWidths
    {
      && measuredPeriods.Length == RX_BUFFER_SAMPLES
      && measuredWidths.Length == RX_BUFFER_SAMPLES
      && measuredPeriods != measuredWidths
      && storIdx < RX_BUFFER_SAMPLES && procIdx < RX_BUFFER_SAMPLES && tgtIdx < RX_BUFFER_SAMPLES
      && overflowCount <= UINT16_MAX
      && IsU32(bitMaxPeriod)
      && mode <= 2
      && (forall j :: 0 <= j < RX_BUFFER_SAMPLES ==> IsU32(measuredPeriods[j]) && IsU32(measuredWidths[j]))
      && correl.Valid()
    }

    /** The receiver's defaults: empty ring, all cursors at 0. */
    constructor ()
      ensures Valid() && fresh(measuredPeriods) && fresh(measuredWidths) && fresh(correl) && fresh(correl.received)
      ensures !invertLogic && ignoreSyncBit && mode == 2
      ensures storIdx == 0 && procIdx == 0 && tgtIdx == 0 && overflowCount == 0
      ensures bitMaxPeriod == 5000
      ensures measuredPeriods[..] == seq(RX_BUFFER_SAMPLES, _ => 0)
      ensures measuredWidths[..] == seq(RX_BUFFER_SAMPLES, _ => 0)
      ensures WindowLen(procIdx, tgtIdx) == 0
    {
      invertLogic, ignoreSyncBit, mode := false, true, 2;
      storIdx, procIdx, tgtIdx := 0, 0, 0;
      bitMaxPeriod := 5000;
      measuredPeriods := new nat[RX_BUFFER_SAMPLES](_ => 0);
      measuredWidths := new nat[RX_BUFFER_SAMPLES](_ => 0);
      overflowCount := 0;
      correl := new RxCorrelBuffer();
    }

    function Config(): RxConfig
      reads this, correl
    {
      RxConfig(invertLogic, ignoreSyncBit, correl.timeoutUs)
    }

    ghost function Settings(): RxSettings
      reads this, correl
    {
      RxSettings(tgtIdx, storIdx, overflowCount, bitMaxPeriod, mode, Config(),
                 correl.matchThresh, correl.minWordLen, correl.maxWordLen)
    }

    // -------------------------------------------------------------------
    // Capture (interrupt side)

    /**
     * `HAL_TIM_IC_CaptureCallback`. Rising edge (channel 1): stores
     * `(captured + 1) as uint16 + (overflow_count << 16)` as the period of
     * the current slot, resets the overflow count, and moves to the next
     * slot only if the slot already has a width. Falling edge (channel 2):
     * stores the width the same way.
     */
    method CaptureCallback(channel: nat, captured: nat)
      requires Valid() && IsU32(captured)
      modifies this, measuredPeriods, measuredWidths
      ensures Valid()
      ensures procIdx == old(procIdx) && tgtIdx == old(tgtIdx) && bitMaxPeriod == old(bitMaxPeriod)
      ensures invertLogic == old(invertLogic) && ignoreSyncBit == old(ignoreSyncBit) && mode == old(mode)
      ensures channel == 1 ==>
        && measuredPeriods[..] == old(measuredPeriods[..])[old(storIdx) := (captured + 1) % 0x1_0000 + old(overflowCount) * 0x1_0000]
        && measuredWidths[..] == old(measuredWidths[..])
        && overflowCount == 0
        && storIdx == if old(measuredWidths[storIdx]) != 0 then (old(storIdx) + 1) % RX_BUFFER_SAMPLES else old(storIdx)
      ensures channel == 2 ==>
        && measuredWidths[..] == old(measuredWidths[..])[old(storIdx) := (captured + 1) % 0x1_0000 + old(overflowCount) * 0x1_0000]
        && measuredPeriods[..] == old(measuredPeriods[..])
        && overflowCount == 0 && storIdx == old(storIdx)
      ensures channel != 1 && channel != 2 ==>
        && measuredPeriods[..] == old(measuredPeriods[..]) && measuredWidths[..] == old(measuredWidths[..])
        && overflowCount == old(overflowCount) && storIdx == old(storIdx)
    {
      if channel == 1 {
        var delta := (captured + 1) % 0x1_0000;
        measuredPeriods[storIdx] := delta + overflowCount * 0x1_0000;
        overflowCount := 0;
        if measuredWidths[storIdx] != 0 {
          storIdx := (storIdx + 1) % RX_BUFFER_SAMPLES;
        }
      } else if channel == 2 {
        var delta := (captured + 1) % 0x1_0000;
        measuredWidths[storIdx] := delta + overflowCount * 0x1_0000;
        overflowCount := 0;
      }
    }

    /** `HAL_TIM_PeriodElapsedCallback`: counts a timer overflow, capped at `bit_max_period >> 16`. */
    method PeriodElapsedCallback()
      requires Valid()
      modifies this
      ensures Valid()
      ensures overflowCount == if old(overflowCount) < old(bitMaxPeriod) / 0x1_0000 then old(overflowCount) + 1 else old(overflowCount)
      ensures old(overflowCount) <= bitMaxPeriod / 0x1_0000 ==> overflowCount <= bitMaxPeriod / 0x1_0000
      ensures storIdx == old(storIdx) && procIdx == old(procIdx) && tgtIdx == old(tgtIdx)
      ensures bitMaxPeriod == old(bitMaxPeriod) && invertLogic == old(invertLogic)
      ensures ignoreSyncBit == old(ignoreSyncBit) && mode == old(mode)
    {
      if overflowCount < bitMaxPeriod / 0x1_0000 {
        overflowCount := overflowCount + 1;
      }
    }

    // -------------------------------------------------------------------
    // Word boundary (first half of checkRxBuffers)

    /** The extended timer count `(overflow_count << 16) + TIM2->CNT`. */
    function Extended(cnt: nat): nat
      reads this
    {
      overflowCount * 0x1_0000 + cnt
    }

    /** The boundary test: the line has been idle for `bit_max_period` and a window is pending. */
    predicate BoundaryFires(cnt: nat)
      reads this
    {
      Extended(cnt) >= bitMaxPeriod && tgtIdx != storIdx
    }

    /** The boundary step also closes the sample at `stor_idx`, which has a width. */
    predicate Finalises(cnt: nat)
      requires Valid()
      reads this, correl, measuredPeriods, measuredWidths
    {
      BoundaryFires(cnt) && measuredWidths[storIdx] != 0
    }

    /** `stor_idx` after the boundary step. */
    function StorAfter(cnt: nat): nat
      requires Valid()
      reads this, correl, measuredPeriods, measuredWidths
    {
      if Finalises(cnt) then (storIdx + 1) % RX_BUFFER_SAMPLES else storIdx
    }

    /** `tgt_idx` after the boundary step. */
    function TargetAfter(cnt: nat): nat
      requires Valid()
      reads this, correl, measuredPeriods, measuredWidths
    {
      if BoundaryFires(cnt) then StorAfter(cnt) else tgtIdx
    }

    ghost function PeriodsAfter(cnt: nat): (s: seq<nat>)
      requires Valid()
      reads this, correl, measuredPeriods, measuredWidths
      ensures |s| == RX_BUFFER_SAMPLES
      ensures forall j :: 0 <= j < RX_BUFFER_SAMPLES && j != storIdx ==> s[j] == measuredPeriods[j]
      ensures s[storIdx] == if Finalises(cnt) then Extended(cnt) else measuredPeriods[storIdx]
    {
      if Finalises(cnt) then measuredPeriods[..][storIdx := Extended(cnt)] else measuredPeriods[..]
    }

    /**
     * The word-boundary snapshot: when the extended count reaches
     * `bit_max_period` and `tgt_idx != stor_idx`, the pending period is
     * finalised (only if its width is non-zero) and `tgt_idx` becomes
     * `stor_idx`.
     */
    method MarkWordBoundary(cnt: nat)
      requires Valid() && cnt <= UINT16_MAX
      modifies this, measuredPeriods
      ensures Valid()
      ensures storIdx == old(StorAfter(cnt)) && tgtIdx == old(TargetAfter(cnt)) && procIdx == old(procIdx)
      ensures measuredPeriods[..] == old(PeriodsAfter(cnt))
      ensures overflowCount == if old(Finalises(cnt)) then 0 else old(overflowCount)
      ensures invertLogic == old(invertLogic) && ignoreSyncBit == old(ignoreSyncBit)
      ensures mode == old(mode) && bitMaxPeriod == old(bitMaxPeriod)
    {
      var ext := overflowCount * 0x1_0000 + cnt;
      if ext >= bitMaxPeriod && tgtIdx != storIdx {
        if measuredWidths[storIdx] != 0 {
          measuredPeriods[storIdx] := ext;
          overflowCount := 0;
          storIdx := (storIdx + 1) % RX_BUFFER_SAMPLES;
        }
        tgtIdx := storIdx;
      }
    }

    // -------------------------------------------------------------------
    // Window consumption (second half of checkRxBuffers)

    ghost function WindowSamples(): (s: seq<Sample>)
      requires Valid()
      reads this, correl, measuredPeriods, measuredWidths
      ensures |s| == WindowLen(procIdx, tgtIdx)
    {
      WindowOf(measuredPeriods[..], measuredWidths[..], procIdx, WindowLen(procIdx, tgtIdx))
    }

    ghost function WindowPeriods(): (s: seq<nat>)
      requires Valid()
      reads this, correl, measuredPeriods, measuredWidths
      ensures |s| == WindowLen(procIdx, tgtIdx)
    {
      PeriodsOf(measuredPeriods[..], procIdx, WindowLen(procIdx, tgtIdx))
    }

    /** The mode of the window's periods is non-zero: the firmware divides by it. */
    ghost predicate WindowPositive()
      requires Valid()
      reads this, correl, measuredPeriods, measuredWidths
    {
      MoreMath.SmallestMode(WindowPeriods()) > 0
    }

    /** Copies the window's periods to a scratch buffer and takes their mode. */
    method WindowMode() returns (periodMode: nat)
      requires Valid() && WindowPositive() && procIdx != tgtIdx
      ensures periodMode == MoreMath.SmallestMode(WindowPeriods())
      ensures 0 < periodMode && IsU32(periodMode)
    {
      ghost var window := WindowPeriods();
      WindowPeriodsBounded(window, MoreMath.SmallestMode(window));
      periodMode := CopyMode(measuredPeriods, procIdx, WindowLen(procIdx, tgtIdx));
    }

    lemma WindowPeriodsBounded(window: seq<nat>, m: nat)
      requires Valid() && window == WindowPeriods()
      requires m in window
      ensures IsU32(m)
    {
      var k :| 0 <= k < |window| && window[k] == m;
      assert m == measuredPeriods[Slot(procIdx, k)];
    }

    /** Hands a finished word to the correlation buffer (`rxCorrelBuffer.receivedWord`). */
    method HandOff(packet: WordBuild, now: nat, st: StatusRegister)
      requires Valid() && IsU32(now)
      requires |packet.word| == |packet.longs| == |packet.shorts| == |packet.periods|
      modifies correl, correl.received, st
      ensures Valid() && correl.Params() == old(correl.Params())
      ensures correl.State(st) == Deliver(old(correl.State(st)), correl.Params(), packet, ignoreSyncBit, now)
    {
      correl.ReceivedWord(RxPacket(|packet.word|, packet.word, 0, 0, 0, packet.logic),
                          packet.longs, packet.shorts, packet.periods, ignoreSyncBit, now, st);
    }

    /** Clears the consumed slot `j` of both sample arrays. */
    method ClearSlot(j: nat)
      requires Valid() && j < RX_BUFFER_SAMPLES
      modifies measuredPeriods, measuredWidths
      ensures Valid()
      ensures measuredPeriods[..] == old(measuredPeriods[..])[j := 0]
      ensures measuredWidths[..] == old(measuredWidths[..])[j := 0]
    {
      measuredPeriods[j] := 0;
      measuredWidths[j] := 0;
    }

    /**
     * The first half of a window-loop iteration: classifies the sample at
     * `proc_idx` into the word being built (unless it is the sync bit at a
     * word start and `ignoreSyncBit`), clears its slot and advances
     * `proc_idx`. Returns the sample's period for the gap test.
     */
    method TakeSample(periodMode: nat, packet: WordBuild, wordStart: nat) returns (packet': WordBuild, thisPeriod: nat)
      requires Valid() && periodMode > 0 && wordStart < RX_BUFFER_SAMPLES
      requires packet.atWordStart == (procIdx == wordStart)
      requires |packet.word| == |packet.longs| == |packet.shorts| == |packet.periods|
      modifies this, measuredPeriods, measuredWidths
      ensures Valid()
      ensures procIdx == (old(procIdx) + 1) % RX_BUFFER_SAMPLES
      ensures Settings() == old(Settings())
      ensures measuredPeriods[..] == old(measuredPeriods[..])[old(procIdx) := 0]
      ensures measuredWidths[..] == old(measuredWidths[..])[old(procIdx) := 0]
      ensures thisPeriod == old(measuredPeriods[procIdx])
      ensures packet' == if !ignoreSyncBit || !packet.atWordStart
                         then AddSymbol(packet, Sample(thisPeriod, old(measuredWidths[procIdx])), periodMode, Config())
                         else packet
      ensures |packet'.word| == |packet'.longs| == |packet'.shorts| == |packet'.periods|
    {
      thisPeriod := measuredPeriods[procIdx];
      var thisWidth := measuredWidths[procIdx];
      packet' := packet;
      if (ignoreSyncBit && procIdx != wordStart) || !ignoreSyncBit {
        packet' := AddSymbol(packet', Sample(thisPeriod, thisWidth), periodMode, Config());
      }
      ClearSlot(procIdx);
      procIdx := (procIdx + 1) % RX_BUFFER_SAMPLES;
    }

    /**
     * One iteration of the window loop: classifies the sample at `proc_idx`
     * (skipping the sync bit at a word start when `ignoreSyncBit`), clears
     * its slot, advances `proc_idx`, and on a gap hands the non-empty word
     * off and restarts at the next slot. This is `Step` on the sample.
     */
    method ConsumeSample(periodMode: nat, packet: WordBuild, wordStart: nat, now: nat, st: StatusRegister)
      returns (packet': WordBuild, wordStart': nat, ghost handedWord: Option<WordBuild>)
      requires Valid() && IsU32(now) && periodMode > 0 && wordStart < RX_BUFFER_SAMPLES
      requires packet.atWordStart == (procIdx == wordStart)
      requires |packet.word| == |packet.longs| == |packet.shorts| == |packet.periods|
      modifies this, measuredPeriods, measuredWidths, correl, correl.received, st
      ensures Valid()
      ensures procIdx == (old(procIdx) + 1) % RX_BUFFER_SAMPLES
      ensures Settings() == old(Settings())
      ensures measuredPeriods[..] == old(measuredPeriods[..])[old(procIdx) := 0]
      ensures measuredWidths[..] == old(measuredWidths[..])[old(procIdx) := 0]
      ensures (packet', handedWord) ==
        Step(packet, Sample(old(measuredPeriods[procIdx]), old(measuredWidths[procIdx])), periodMode, old(Config()))
      ensures wordStart' == if handedWord.Some? then procIdx else wordStart
      ensures |packet'.word| == |packet'.longs| == |packet'.shorts| == |packet'.periods|
      ensures correl.State(st) == if handedWord.Some? then Deliver(old(correl.State(st)), correl.Params(), handedWord.value, ignoreSyncBit, now)
                                  else old(correl.State(st))
    {
      var thisPeriod;
      packet', thisPeriod := TakeSample(periodMode, packet, wordStart);
      if 10 * thisPeriod > 13 * periodMode && |packet'.word| > 0 {
        HandOff(packet', now, st);
        handedWord := Some(packet');
        packet' := StartWord(false);
        wordStart' := procIdx;
      } else {
        handedWord := None;
        packet' := packet'.(atWordStart := false);
        wordStart' := wordStart;
      }
    }

    /** One iteration of the window loop, keeping the loop state and the hand-off account. */
    method ConsumeNext(pm: nat, now: nat, st: StatusRegister, packet: WordBuild, wordStart: nat,
                       ghost oldP: seq<nat>, ghost oldW: seq<nat>, ghost lo: nat, ghost n: nat, ghost b0: WordBuild,
                       ghost cfg: RxConfig, ghost s0: CorrelState, ghost c: CorrelParams,
                       ghost k: nat, ghost ks: nat, ghost handed: seq<WordBuild>)
      returns (packet': WordBuild, wordStart': nat, ghost ks': nat, ghost handed': seq<WordBuild>)
      requires Valid() && IsU32(now) && pm > 0 && k < n && wordStart < RX_BUFFER_SAMPLES
      requires cfg == Config() && correl.Params() == c && StateOk(s0)
      requires LoopState(oldP, oldW, lo, n, b0, pm, cfg, k, ks, procIdx, wordStart, packet, handed,
                         measuredPeriods[..], measuredWidths[..])
      requires correl.State(st) == Delivered(s0, c, handed, cfg.ignoreSyncBit, now)
      modifies this, measuredPeriods, measuredWidths, correl, correl.received, st
      ensures Valid() && Settings() == old(Settings())
      ensures LoopState(oldP, oldW, lo, n, b0, pm, cfg, k + 1, ks', procIdx, wordStart', packet', handed',
                        measuredPeriods[..], measuredWidths[..])
      ensures correl.State(st) == Delivered(s0, c, handed', cfg.ignoreSyncBit, now)
    {
      ghost var proc := procIdx;
      ghost var curP, curW := measuredPeriods[..], measuredWidths[..];
      ghost var handedWord;
      packet', wordStart', handedWord := ConsumeSample(pm, packet, wordStart, now, st);
      handed' := if handedWord.Some? then handed + [handedWord.value] else handed;
      ks' := if handedWord.Some? then k + 1 else ks;
      LoopAdvance(oldP, oldW, lo, n, b0, pm, cfg, k, ks, proc, wordStart, packet, handed, curP, curW,
                  packet', handedWord, wordStart', ks', procIdx, handed', measuredPeriods[..], measuredWidths[..]);
      if handedWord.Some? {
        DeliveredSnoc(s0, c, handed, handedWord.value, cfg.ignoreSyncBit, now);
      }
    }

    /** The loop of `checkRxBuffers` over the window, with the mode period already known. */
    method ConsumeWindow(pm: nat, now: nat, st: StatusRegister) returns (ghost handed: seq<WordBuild>)
      requires Valid() && IsU32(now) && pm > 0
      modifies this, measuredPeriods, measuredWidths, correl, correl.received, st
      ensures Valid()
      ensures procIdx == tgtIdx && Settings() == old(Settings())
      ensures measuredPeriods[..] == Consumed(old(measuredPeriods[..]), old(procIdx), old(WindowLen(procIdx, tgtIdx)))
      ensures measuredWidths[..] == Consumed(old(measuredWidths[..]), old(procIdx), old(WindowLen(procIdx, tgtIdx)))
      ensures handed == Run(StartWord(invertLogic), old(WindowSamples()), pm, Config()).1
      ensures correl.State(st) == Delivered(old(correl.State(st)), correl.Params(), handed, ignoreSyncBit, now)
    {
      ghost var s0 := correl.State(st);
      ghost var c := correl.Params();
      ghost var proc0 := procIdx;
      ghost var cfg := Config();
      ghost var settings := Settings();
      ghost var n := WindowLen(procIdx, tgtIdx);
      ghost var oldP := measuredPeriods[..];
      ghost var oldW := measuredWidths[..];
      ghost var b0 := StartWord(invertLogic);

      var packet := StartWord(invertLogic);
      var wordStart := procIdx;
      ghost var k: nat := 0;
      ghost var ks: nat := 0;
      handed := [];
      LoopStart(oldP, oldW, proc0, n, invertLogic, pm, cfg);

      while procIdx != tgtIdx
        invariant Valid() && Settings() == settings
        invariant LoopState(oldP, oldW, proc0, n, b0, pm, cfg, k, ks, procIdx, wordStart, packet, handed,
                            measuredPeriods[..], measuredWidths[..]) == true
        invariant correl.State(st) == Delivered(s0, c, handed, cfg.ignoreSyncBit, now)
        decreases n - k
      {
        LoopDone(oldP, oldW, proc0, n, b0, pm, cfg, k, ks, procIdx, wordStart, packet, handed,
                 measuredPeriods[..], measuredWidths[..]);
        packet, wordStart, ks, handed := ConsumeNext(pm, now, st, packet, wordStart, oldP, oldW, proc0, n, b0, cfg, s0, c, k, ks, handed);
        k := k + 1;
      }
      LoopDone(oldP, oldW, proc0, n, b0, pm, cfg, k, ks, procIdx, wordStart, packet, handed,
               measuredPeriods[..], measuredWidths[..]);
    }

    /**
     * Consumes the window `[proc_idx, tgt_idx)`: every sample is classified
     * against the mode period and cleared, words are handed to the
     * correlation buffer at each gap, and an unfinished trailing word is
     * dropped. Returns, as ghost values, the mode period and the words
     * handed off.
     */
    method ProcessWindow(now: nat, st: StatusRegister) returns (ghost periodMode: nat, ghost handed: seq<WordBuild>)
      requires Valid() && IsU32(now) && procIdx != tgtIdx && WindowPositive()
      modifies this, measuredPeriods, measuredWidths, correl, correl.received, st
      ensures Valid()
      ensures procIdx == tgtIdx && Settings() == old(Settings())
      ensures measuredPeriods[..] == Consumed(old(measuredPeriods[..]), old(procIdx), old(WindowLen(procIdx, tgtIdx)))
      ensures measuredWidths[..] == Consumed(old(measuredWidths[..]), old(procIdx), old(WindowLen(procIdx, tgtIdx)))
      ensures 0 < periodMode && periodMode == MoreMath.SmallestMode(old(WindowPeriods()))
      ensures handed == Run(StartWord(invertLogic), old(WindowSamples()), periodMode, Config()).1
      ensures correl.State(st) == Delivered(old(correl.State(st)), correl.Params(), handed, ignoreSyncBit, now)
    {
      var pm := WindowMode();
      periodMode := pm;
      handed := ConsumeWindow(pm, now, st);
    }

    /** The samples of the window `checkRxBuffers` will consume once the boundary step has run. */
    ghost function BoundarySamples(cnt: nat): (s: seq<Sample>)
      requires Valid()
      reads this, correl, measuredPeriods, measuredWidths
    {
      WindowOf(PeriodsAfter(cnt), measuredWidths[..], procIdx, WindowLen(procIdx, TargetAfter(cnt)))
    }

    /**
     * `checkRxBuffers`: the word-boundary snapshot, then consumption of the
     * window `[proc_idx, tgt_idx)` if it is not empty. Requires the smallest
     * mode of that window's periods to be non-zero (the firmware divides by it).
     */
    method CheckRxBuffers(cnt: nat, now: nat, st: StatusRegister) returns (ghost periodMode: nat, ghost handed: seq<WordBuild>)
      requires Valid() && cnt <= UINT16_MAX && IsU32(now)
      requires WindowLen(procIdx, TargetAfter(cnt)) > 0 ==>
        MoreMath.SmallestMode(PeriodsOf(PeriodsAfter(cnt), procIdx, WindowLen(procIdx, TargetAfter(cnt)))) > 0
      modifies this, measuredPeriods, measuredWidths, correl, correl.received, st
      ensures Valid()
      ensures tgtIdx == old(TargetAfter(cnt)) && storIdx == old(StorAfter(cnt)) && procIdx == tgtIdx
      ensures measuredPeriods[..] == Consumed(old(PeriodsAfter(cnt)), old(procIdx), old(WindowLen(procIdx, TargetAfter(cnt))))
      ensures measuredWidths[..] == Consumed(old(measuredWidths[..]), old(procIdx), old(WindowLen(procIdx, TargetAfter(cnt))))
      ensures correl.Params() == old(correl.Params())
      ensures correl.State(st) == Delivered(old(correl.State(st)), correl.Params(), handed, ignoreSyncBit, now)
      ensures old(WindowLen(procIdx, TargetAfter(cnt))) == 0 ==> handed == []
      ensures old(WindowLen(procIdx, TargetAfter(cnt))) > 0 ==>
        && 0 < periodMode
        && periodMode == MoreMath.SmallestMode(old(PeriodsOf(PeriodsAfter(cnt), procIdx, WindowLen(procIdx, TargetAfter(cnt)))))
        && handed == Run(StartWord(invertLogic), old(BoundarySamples(cnt)), periodMode, Config()).1
    {
      ghost var samples := BoundarySamples(cnt);
      MarkWordBoundary(cnt);
      assert WindowSamples() == samples;
      if procIdx == tgtIdx {
        periodMode, handed := 0, [];
        return;
      }
      periodMode, handed := ProcessWindow(now, st);
    }
  }
}

=== FILE: rx_correlation.dfy ===
/**
 * The receiver's correlation buffer (`RxCorrelBuffer`, `receivedWord`,
 * `clearRxPacket`): a ring of the last twelve decoded words, cleared after
 * a quiet period, in which a word is confirmed once enough identical copies
 * have been seen, and announced through RX_WORD_AVAILABLE unless it is the
 * match already announced.
 */
module RxCorrelation {
  import opened Platform
  import MoreMath

  const RX_MAX_BITS: nat := 64
  const RX_CORREL_WORDS: nat := 12

  /** A decoded word with its canonical timings; `word` is the text up to its terminator. */
  datatype RxPacket = RxPacket(len: nat, word: seq<char>, longUs: nat, shortUs: nat, periodUs: nat, logic: bool)

  /** The zero state `clearRxPacket` leaves behind. */
  const EmptyPacket := RxPacket(0, [], 0, 0, 0, false)

  /** `clearRxPacket` applied to slot `i` of `buf`. */
  method ClearRxPacket(buf: array<RxPacket>, i: nat)
    requires i < buf.Length
    modifies buf
    ensures buf[..] == old(buf[..])[i := EmptyPacket]
  {
    buf[i] := EmptyPacket;
  }

  /** `rec` with every slot `0..idx` (inclusive) cleared, as the timeout reset does. */
  function ClearedThrough(rec: seq<RxPacket>, idx: nat): (r: seq<RxPacket>)
    ensures |r| == |rec|
    ensures forall k :: 0 <= k < |rec| ==> r[k] == (if k <= idx then EmptyPacket else rec[k])
  {
    seq(|rec|, k requires 0 <= k < |rec| => if k <= idx then EmptyPacket else rec[k])
  }

  // ---------------------------------------------------------------------
  // The majority vote, as functions

  /** Number of slots in `lo..hi-1` whose word is `w`. */
  function CountSame(rec: seq<RxPacket>, w: seq<char>, lo: nat, hi: nat): (n: nat)
    requires lo <= hi <= |rec|
    ensures n <= hi - lo
    ensures (forall k :: lo <= k < hi ==> rec[k].word != w) ==> n == 0
    decreases hi - lo
  {
    if lo == hi then 0
    else CountSame(rec, w, lo, hi - 1) + (if rec[hi - 1].word == w then 1 else 0)
  }

  /** The word of the last announced match, if there is one. */
  function LastWord(rec: seq<RxPacket>, last: Option<nat>): Option<seq<char>> {
    if last.Some? && last.value < |rec| then Some(rec[last.value].word) else None
  }

  /**
   * Slot `i` can confirm: its word is not the last announced word, and it
   * together with the identical words after it, up to `idx`, reaches the
   * threshold.
   */
  predicate IsCandidate(rec: seq<RxPacket>, lastWord: Option<seq<char>>, thresh: nat, idx: nat, i: nat)
    requires i < idx <= |rec|
  {
    && !(lastWord.Some? && lastWord.value == rec[i].word)
    && 1 + CountSame(rec, rec[i].word, i + 1, idx) >= thresh
  }

  /** The first candidate slot `i >= from` with `i < idx - thresh`. */
  function FirstCandidate(rec: seq<RxPacket>, lastWord: Option<seq<char>>, thresh: nat, idx: nat, from: nat): (r: Option<nat>)
    requires idx <= |rec|
    ensures r.Some? ==> from <= r.value && r.value + thresh < idx && IsCandidate(rec, lastWord, thresh, idx, r.value)
    decreases idx - from
  {
    if from + thresh >= idx then None
    else if IsCandidate(rec, lastWord, thresh, idx, from) then Some(from)
    else FirstCandidate(rec, lastWord, thresh, idx, from + 1)
  }

  /** FirstCandidate finds the least scanned slot that can confirm, and None when no scanned slot can. */
  lemma {:induction false} FirstCandidateIsFirst(rec: seq<RxPacket>, lastWord: Option<seq<char>>, thresh: nat, idx: nat, from: nat)
    requires idx <= |rec|
    ensures var r := FirstCandidate(rec, lastWord, thresh, idx, from);
      && (r.Some? ==>
            && from <= r.value && r.value + thresh < idx
            && IsCandidate(rec, lastWord, thresh, idx, r.value)
            && forall k :: from <= k < r.value ==> !IsCandidate(rec, lastWord, thresh, idx, k))
      && (r.None? ==> forall k :: from <= k && k + thresh < idx ==> !IsCandidate(rec, lastWord, thresh, idx, k))
    decreases idx - from
  {
    if from + thresh < idx && !IsCandidate(rec, lastWord, thresh, idx, from) {
      FirstCandidateIsFirst(rec, lastWord, thresh, idx, from + 1);
    }
  }

  /** When the slots `lo..hi-1` all hold `w`, all of them are counted. */
  lemma {:induction false} CountSameAll(rec: seq<RxPacket>, w: seq<char>, lo: nat, hi: nat)
    requires lo <= hi <= |rec|
    requires forall k :: lo <= k < hi ==> rec[k].word == w
    ensures CountSame(rec, w, lo, hi) == hi - lo
    decreases hi - lo
  {
    if lo < hi {
      CountSameAll(rec, w, lo, hi - 1);
    }
  }

  /**
   * `n` copies of a word not yet announced, inserted after a reset, confirm
   * slot 0 as soon as `n` exceeds the threshold; with `n <= thresh` nothing
   * is confirmed. (With the default threshold 3 and nothing but copies
   * arriving, it is the fourth copy that confirms.)
   */
  lemma RepeatsConfirmSlotZero(rec: seq<RxPacket>, lastWord: Option<seq<char>>, thresh: nat, n: nat)
    requires n <= |rec|
    requires 0 < n
    requires forall k :: 0 <= k < n ==> rec[k].word == rec[0].word
    requires lastWord != Some(rec[0].word)
    ensures FirstCandidate(rec, lastWord, thresh, n, 0) == (if thresh < n then Some(0) else None)
  {
    if thresh < n {
      CountSameAll(rec, rec[0].word, 1, n);
    }
  }

  /** Counting from the low end: slot `lo` contributes first, then the rest of the range. */
  lemma {:induction false} CountSameFirst(rec: seq<RxPacket>, w: seq<char>, lo: nat, hi: nat)
    requires lo < hi <= |rec|
    ensures CountSame(rec, w, lo, hi) == (if rec[lo].word == w then 1 else 0) + CountSame(rec, w, lo + 1, hi)
    decreases hi - lo
  {
    if lo + 1 < hi {
      CountSameFirst(rec, w, lo, hi - 1);
    }
  }

  /**
   * Once more than `thresh` words are stored, slot 0 (a word not yet
   * announced) confirms exactly when at least `thresh` of the stored words,
   * slot 0 included, are copies of it. The copies need not be adjacent, and
   * the other words may be anything: three copies and one other word
   * already confirm under the default threshold.
   */
  lemma CopiesConfirmSlotZero(rec: seq<RxPacket>, lastWord: Option<seq<char>>, thresh: nat, idx: nat)
    requires thresh < idx <= |rec|
    requires lastWord != Some(rec[0].word)
    ensures FirstCandidate(rec, lastWord, thresh, idx, 0) == Some(0)
        <==> CountSame(rec, rec[0].word, 0, idx) >= thresh
  {
    CountSameFirst(rec, rec[0].word, 0, idx);
  }

  /** Once a word is announced, further copies of it confirm nothing. */
  lemma AnnouncedWordNotReconfirmed(rec: seq<RxPacket>, thresh: nat, n: nat)
    requires 0 < n <= |rec|
    requires forall k :: 0 <= k < n ==> rec[k].word == rec[0].word
    ensures FirstCandidate(rec, Some(rec[0].word), thresh, n, 0) == None
  {
    FirstCandidateIsFirst(rec, Some(rec[0].word), thresh, n, 0);
  }

  /** `mode` applied to a copy of the scratch values `s`. */
  method ModeOf(s: seq<nat>) returns (m: nat)
    ensures MoreMath.IsSmallestMode(s, m)
  {
    var buf := new nat[|s|](k requires 0 <= k < |s| => s[k]);
    assert buf[..|s|] == s;
    m := MoreMath.Mode(buf, |s|);
  }

  /**
   * The canonical timings of a word: the modes of its per-bit long, short
   * and period values (`receivedWord` calls `mode` on each scratch array).
   */
  method WordTimings(longs: seq<nat>, shorts: seq<nat>, periods: seq<nat>) returns (longUs: nat, shortUs: nat, periodUs: nat)
    ensures MoreMath.IsSmallestMode(longs, longUs)
    ensures MoreMath.IsSmallestMode(shorts, shortUs)
    ensures MoreMath.IsSmallestMode(periods, periodUs)
  {
    longUs := ModeOf(longs);
    shortUs := ModeOf(shorts);
    periodUs := ModeOf(periods);
  }

  // ---------------------------------------------------------------------
  // `receivedWord` as a function of the buffer state

  /** The correlation settings `receivedWord` reads and never changes. */
  datatype CorrelParams = CorrelParams(timeoutUs: nat, matchThresh: nat, minWordLen: nat, maxWordLen: nat)

  /** The status word `after` is `before`, with at most RX_WORD_AVAILABLE raised. */
  predicate Raised(before: bv32, after: bv32) {
    after == before || after == before | (RX_WORD_AVAILABLE << 16)
  }

  /** Raising RX_WORD_AVAILABLE twice is raising it once. */
  lemma FlagStaysRaised(a: bv32, b: bv32, c: bv32)
    requires Raised(a, b) && Raised(b, c)
    ensures Raised(a, c)
  {
  }

  /** The state `receivedWord` changes: the buffer, its cursor, its last match and time, and the status word. */
  datatype CorrelState = CorrelState(received: seq<RxPacket>, index: nat, lastMatch: Option<nat>,
                                     lastWordTimeMs: nat, status: bv32)

  /** The shape the buffer keeps: twelve slots, a cursor and a last match inside them, a uint32 time. */
  predicate StateOk(s: CorrelState) {
    && |s.received| == RX_CORREL_WORDS
    && s.index < RX_CORREL_WORDS
    && (s.lastMatch.Some? ==> s.lastMatch.value < RX_CORREL_WORDS)
    && IsU32(s.lastWordTimeMs)
  }

  /** A word of length `len` passes the length filter; one more symbol is allowed when the sync bit is kept. */
  predicate LengthOk(c: CorrelParams, len: nat, ignoreSyncBit: bool) {
    !(len < c.minWordLen || len > c.maxWordLen + (if ignoreSyncBit then 0 else 1))
  }

  /** The buffer has timed out at tick `now`: `delta * 1000 >= timeout_us` in uint32 arithmetic. */
  predicate Expired(c: CorrelParams, lastWordTimeMs: nat, now: nat)
    requires IsU32(now) && IsU32(lastWordTimeMs)
  {
    MulU32(Elapsed(now, lastWordTimeMs), 1000) >= c.timeoutUs
  }

  /** The timeout check: a timed-out buffer is cleared through `index`, forgets its last match and restarts at 0. */
  function AfterTimeout(s: CorrelState, c: CorrelParams, now: nat): (r: CorrelState)
    requires StateOk(s) && IsU32(now)
    ensures StateOk(r) && r.status == s.status && r.lastWordTimeMs == s.lastWordTimeMs
    ensures Expired(c, s.lastWordTimeMs, now) ==> r.index == 0 && r.lastMatch == None && r.received[0] == EmptyPacket
    ensures !Expired(c, s.lastWordTimeMs, now) ==> r == s
  {
    if Expired(c, s.lastWordTimeMs, now) then s.(received := ClearedThrough(s.received, s.index), index := 0, lastMatch := None)
    else s
  }

  /**
   * Storing `p` at the cursor and voting: the cursor advances mod 12, the
   * time is taken, and the first confirmed slot, if it is not the last
   * match, becomes the last match and raises RX_WORD_AVAILABLE.
   */
  function StoreAndVoteOn(s: CorrelState, c: CorrelParams, p: RxPacket, now: nat): (r: CorrelState)
    requires StateOk(s) && IsU32(now)
    ensures StateOk(r)
    ensures r.received == s.received[s.index := p] && r.index == (s.index + 1) % RX_CORREL_WORDS
    ensures r.lastWordTimeMs == now
    ensures Raised(s.status, r.status)
    ensures r.lastMatch != s.lastMatch ==> r.lastMatch.Some? && r.status == s.status | (RX_WORD_AVAILABLE << 16)
  {
    var rec := s.received[s.index := p];
    var idx := (s.index + 1) % RX_CORREL_WORDS;
    var conf := FirstCandidate(rec, LastWord(rec, s.lastMatch), c.matchThresh, idx, 0);
    FirstCandidateIsFirst(rec, LastWord(rec, s.lastMatch), c.matchThresh, idx, 0);
    if conf.Some? && conf != s.lastMatch then CorrelState(rec, idx, conf, now, s.status | (RX_WORD_AVAILABLE << 16))
    else CorrelState(rec, idx, s.lastMatch, now, s.status)
  }

  /**
   * `receivedWord` on the state `s`: a word outside the length bounds
   * changes nothing; otherwise the timeout check runs, and the word is
   * stored with the modes of its per-bit timings and voted on.
   */
  function WordArrives(s: CorrelState, c: CorrelParams, data: RxPacket, longs: seq<nat>, shorts: seq<nat>,
                       periods: seq<nat>, ignoreSyncBit: bool, now: nat): (r: CorrelState)
    requires StateOk(s) && IsU32(now)
    ensures StateOk(r)
    ensures Raised(s.status, r.status)
    ensures !LengthOk(c, data.len, ignoreSyncBit) ==> r == s
    ensures LengthOk(c, data.len, ignoreSyncBit) ==>
      && r.lastWordTimeMs == now
      && r.received[(r.index + RX_CORREL_WORDS - 1) % RX_CORREL_WORDS] ==
           RxPacket(data.len, data.word, MoreMath.SmallestMode(longs), MoreMath.SmallestMode(shorts),
                    MoreMath.SmallestMode(periods), data.logic)
  {
    if !LengthOk(c, data.len, ignoreSyncBit) then s
    else
      var stored := RxPacket(data.len, data.word, MoreMath.SmallestMode(longs), MoreMath.SmallestMode(shorts),
                             MoreMath.SmallestMode(periods), data.logic);
      var t := AfterTimeout(s, c, now);
      var r := StoreAndVoteOn(t, c, stored, now);
      PrevOfNext(t.index);
      r
  }

  /** Stepping the circular index forward and then back returns to it. */
  lemma PrevOfNext(i: nat)
    requires i < RX_CORREL_WORDS
    ensures ((i + 1) % RX_CORREL_WORDS + RX_CORREL_WORDS - 1) % RX_CORREL_WORDS == i
  {
    if i + 1 < RX_CORREL_WORDS {
      assert (i + 1) % RX_CORREL_WORDS == i + 1;
    }
  }

  // ---------------------------------------------------------------------
  // The buffer

  class RxCorrelBuffer {
    var index: nat
    var lastWordTimeMs: nat
    const received: array<RxPacket>
    /** The slot of the last announced match (a pointer into `received` in the firmware). */
    var lastMatch: Option<nat>
    var timeoutUs: nat
    var matchThresh: nat
    var minWordLen: nat
    var maxWordLen: nat

    ghost predicate Valid()
      reads this
    {
      && received.Length == RX_CORREL_WORDS
      && index < RX_CORREL_WORDS
      && (lastMatch.Some? ==> lastMatch.value < RX_CORREL_WORDS)
      && IsU32(lastWordTimeMs) && IsU32(timeoutUs)
      && matchThresh <= RX_CORREL_WORDS
      && minWordLen <= maxWordLen <= RX_MAX_BITS
    }

    /** The default correlation settings of the receiver. */
    constructor ()
      ensures Valid() && fresh(received)
      ensures index == 0 && lastWordTimeMs == 0 && lastMatch == None
      ensures received[..] == seq(RX_CORREL_WORDS, _ => EmptyPacket)
      ensures timeoutUs == 100000 && matchThresh == 3
      ensures minWordLen == 8 && maxWordLen == RX_MAX_BITS
    {
      index, lastWordTimeMs, lastMatch := 0, 0, None;
      received := new RxPacket[RX_CORREL_WORDS](_ => EmptyPacket);
      timeoutUs, matchThresh := 100000, 3;
      minWordLen, maxWordLen := 8, RX_MAX_BITS;
    }

    function Params(): CorrelParams
      reads this
    {
      CorrelParams(timeoutUs, matchThresh, minWordLen, maxWordLen)
    }

    /** The state `receivedWord` changes, with the status word `st`. */
    ghost function State(st: StatusRegister): (s: CorrelState)
      requires Valid()
      reads this, received, st
      ensures StateOk(s)
    {
      CorrelState(received[..], index, lastMatch, lastWordTimeMs, st.bits)
    }

    /**
     * The correlation scan of `receivedWord`: the first slot `i` with
     * `i < index - match_thresh` whose word differs from the last match's
     * and has at least `match_thresh` identical words among slots
     * `i..index-1`.
     */
    method Correlate() returns (m: Option<nat>)
      requires Valid()
      ensures m == FirstCandidate(received[..], LastWord(received[..], lastMatch), matchThresh, index, 0)
      ensures m.Some? ==> m.value + matchThresh < index
    {
      ghost var rec := received[..];
      ghost var lastWord := LastWord(rec, lastMatch);
      m := None;
      var i := 0;
      while i + matchThresh < index
        invariant i <= index
        invariant FirstCandidate(rec, lastWord, matchThresh, index, 0) == FirstCandidate(rec, lastWord, matchThresh, index, i)
      {
        if lastMatch.Some? && received[lastMatch.value].word == received[i].word {
          i := i + 1;
          continue;
        }
        var matches := 1;
        var j := i + 1;
        while j < index
          invariant i < j <= index
          invariant matches == 1 + CountSame(rec, rec[i].word, i + 1, j)
        {
          if |received[i].word| != |received[j].word| {
            j := j + 1;
            continue;
          }
          if received[i].word == received[j].word {
            matches := matches + 1;
          }
          j := j + 1;
        }
        if matches >= matchThresh {
          m := Some(i);
          break;
        }
        i := i + 1;
      }
      FirstCandidateIsFirst(rec, lastWord, matchThresh, index, 0);
    }

    /** `receivedWord`: the buffer and the status word move to `WordArrives` of their old state. */
    method ReceivedWord(data: RxPacket, longs: seq<nat>, shorts: seq<nat>, periods: seq<nat>,
                        ignoreSyncBit: bool, now: nat, st: StatusRegister)
      requires Valid() && IsU32(now)
      requires |data.word| == data.len == |longs| == |shorts| == |periods|
      modifies this, received, st
      ensures Valid() && Params() == old(Params())
      ensures State(st) == WordArrives(old(State(st)), Params(), data, longs, shorts, periods, ignoreSyncBit, now)
    {
      if data.len < minWordLen || data.len > maxWordLen + (if ignoreSyncBit then 0 else 1) {
        return;
      }
      var longUs, shortUs, periodUs := WordTimings(longs, shorts, periods);
      MoreMath.SmallestModeUnique(longs, longUs, MoreMath.SmallestMode(longs));
      MoreMath.SmallestModeUnique(shorts, shortUs, MoreMath.SmallestMode(shorts));
      MoreMath.SmallestModeUnique(periods, periodUs, MoreMath.SmallestMode(periods));
      ResetIfTimedOut(now, st);
      StoreAndVote(RxPacket(data.len, data.word, longUs, shortUs, periodUs, data.logic), now, st);
    }

    /** The timeout check of `receivedWord`: clears slots 0..index, the last match and the index. */
    method ResetIfTimedOut(now: nat, ghost st: StatusRegister)
      requires Valid() && IsU32(now)
      modifies this, received
      ensures Valid() && Params() == old(Params())
      ensures State(st) == AfterTimeout(old(State(st)), Params(), now)
    {
      var delta := Elapsed(now, lastWordTimeMs);
      if MulU32(delta, 1000) >= timeoutUs {
        var i := 0;
        while i <= index
          invariant i <= index + 1
          modifies received
          invariant forall k :: 0 <= k < RX_CORREL_WORDS ==>
                      received[k] == if k < i then EmptyPacket else old(received[k])
        {
          ClearRxPacket(received, i);
          i := i + 1;
        }
        assert received[..] == ClearedThrough(old(received[..]), old(index));
        lastMatch := None;
        index := 0;
      }
    }

    /** Stores `packet` at `index`, advances the index and runs the vote. */
    method StoreAndVote(packet: RxPacket, now: nat, st: StatusRegister)
      requires Valid() && IsU32(now)
      modifies this, received, st
      ensures Valid() && Params() == old(Params())
      ensures State(st) == StoreAndVoteOn(old(State(st)), Params(), packet, now)
    {
      ghost var s0 := State(st);
      received[index] := packet;
      index := (index + 1) % RX_CORREL_WORDS;
      lastWordTimeMs := now;
      assert received[..] == s0.received[s0.index := packet];

      var thisMatch := Correlate();
      if thisMatch.Some? && lastMatch != thisMatch {
        st.bits := st.bits | (RX_WORD_AVAILABLE << 16);
        lastMatch := thisMatch;
      }
    }
  }
}

=== FILE: transmitter.dfy ===
/**
 * The transmit path of transmitter.cpp: the five-row word queue and the
 * timing settings (`Transmitter`), the DMA packet of duty values
 * (`TxPacket`), the encoder `makeTxPacket`, the burst/frame pacing of
 * `processTx`, the PWM completion callback and the ARR arithmetic.
 */
module Transmitter {
  import opened Platform

  const TX_BUFFER_LEN: nat := 5
  const TX_MAX_BITS: nat := 64
  /** Length of the DMA buffer: up to TX_MAX_BITS duty values and the 0 stop marker. */
  const DMA_LEN: nat := TX_MAX_BITS + 1
  /** Largest accepted pulse time, `UINT16_MAX >> 2`. */
  const T_PULSE_MAX: nat := 16383

  // ---------------------------------------------------------------------
  // Encoding, as functions

  predicate IsBinary(w: seq<char>) {
    forall i :: 0 <= i < |w| ==> w[i] == '0' || w[i] == '1'
  }

  /** The duty value of one symbol: '1' is the short pulse, '0' the long one, swapped by `invertLogic`. */
  function Duty(c: char, tShort: nat, tLong: nat, invertLogic: bool): (d: nat)
    requires c == '0' || c == '1'
    ensures d == tShort || d == tLong
    ensures (c == '1') != invertLogic ==> d == tShort
    ensures (c == '1') == invertLogic ==> d == tLong
  {
    if (c == '1') != invertLogic then tShort else tLong
  }

  /**
   * What `makeTxPacket` puts in the DMA buffer for a queued word: one duty
   * value per symbol followed by the 0 stop marker, or nothing if the word
   * holds a symbol other than '0' and '1'.
   */
  function Encode(w: seq<char>, tShort: nat, tLong: nat, invertLogic: bool): (r: Option<seq<nat>>)
    ensures r.Some? <==> IsBinary(w)
    ensures r.Some? ==> |r.value| == |w| + 1 && r.value[|w|] == 0
    ensures r.Some? ==> forall i :: 0 <= i < |w| ==> r.value[i] == Duty(w[i], tShort, tLong, invertLogic)
  {
    if IsBinary(w) then Some(seq(|w|, i requires 0 <= i < |w| => Duty(w[i], tShort, tLong, invertLogic)) + [0])
    else None
  }

  /** Reads a DMA buffer back into symbols: `tShort` is '1' and anything else '0', swapped by `invertLogic`. */
  function Decode(d: seq<nat>, tShort: nat, invertLogic: bool): (w: seq<char>)
    ensures |w| == |d|
  {
    seq(|d|, i requires 0 <= i < |d| => if (d[i] == tShort) != invertLogic then '1' else '0')
  }

  /** With distinct pulse times, decoding the encoded symbols gives the word back. */
  lemma DecodeEncode(w: seq<char>, tShort: nat, tLong: nat, invertLogic: bool)
    requires IsBinary(w) && tShort != tLong
    ensures var d := Encode(w, tShort, tLong, invertLogic).value;
      Decode(d[..|w|], tShort, invertLogic) == w
  {
    var d := Encode(w, tShort, tLong, invertLogic).value;
    var back := Decode(d[..|w|], tShort, invertLogic);
    forall i | 0 <= i < |w|
      ensures back[i] == w[i]
    {
      assert d[i] == Duty(w[i], tShort, tLong, invertLogic);
    }
  }

  /**
   * `updateARR`: the timer auto-reload value `(uint32)(t_long + t_short) - 1`,
   * so that a PWM period lasts `t_short + t_long` timer ticks.
   */
  function ArrValue(tShort: nat, tLong: nat): (arr: nat)
    requires tShort <= UINT16_MAX && tLong <= UINT16_MAX
    ensures IsU32(arr)
    ensures tShort + tLong > 0 ==> arr + 1 == tShort + tLong
    ensures tShort + tLong == 0 ==> arr == UINT32_MAX
  {
    (tShort + tLong + UINT32_MAX) % TWO_POW_32
  }

  // ---------------------------------------------------------------------
  // Frame pacing within a burst, as functions

  /** The pacing flags of a packet. */
  datatype FrameState = FrameState(frameComplete: bool, burstComplete: bool, framesSent: nat)

  /**
   * The frame part of `processTx`: once the previous frame completed, the
   * burst ends when more than `frameRepeat` frames were sent; otherwise a
   * new frame starts (the uint8 `frames_sent` counts it) when the frame
   * delay has elapsed.
   */
  function FrameAdvance(s: FrameState, frameRepeat: nat, delayElapsed: bool): (r: FrameState)
    ensures r.framesSent != s.framesSent ==> s.frameComplete && !r.frameComplete
  {
    if !s.frameComplete then s
    else if s.framesSent > frameRepeat then s.(burstComplete := true)
    else if delayElapsed then FrameState(false, s.burstComplete, (s.framesSent + 1) % 256)
    else s
  }

  /** One loop pass that starts a frame whenever it may, followed by the frame's completion callback. */
  function Round(s: FrameState, frameRepeat: nat): FrameState {
    FrameAdvance(s, frameRepeat, true).(frameComplete := true)
  }

  function Rounds(s: FrameState, frameRepeat: nat, n: nat): FrameState {
    if n == 0 then s else Round(Rounds(s, frameRepeat, n - 1), frameRepeat)
  }

  /** The first `frameRepeat + 1` rounds of a fresh burst each start one frame. */
  lemma {:induction false} RoundsStartFrames(frameRepeat: nat, n: nat)
    requires frameRepeat < 255 && n <= frameRepeat + 1
    ensures Rounds(FrameState(true, false, 0), frameRepeat, n) == FrameState(true, false, n)
  {
    if n > 0 {
      RoundsStartFrames(frameRepeat, n - 1);
    }
  }

  /**
   * A burst sends "once and repeats `frameRepeat` times": after
   * `frameRepeat + 1` frames the next pass completes the burst instead of
   * starting a frame.
   */
  lemma BurstSendsRepeatPlusOne(frameRepeat: nat)
    requires frameRepeat < 255
    ensures Rounds(FrameState(true, false, 0), frameRepeat, frameRepeat + 1).framesSent == frameRepeat + 1
    ensures FrameAdvance(Rounds(FrameState(true, false, 0), frameRepeat, frameRepeat + 1), frameRepeat, true)
            == FrameState(true, true, frameRepeat + 1)
    ensures forall n :: 0 <= n <= frameRepeat ==>
      !FrameAdvance(Rounds(FrameState(true, false, 0), frameRepeat, n), frameRepeat, true).burstComplete
  {
    RoundsStartFrames(frameRepeat, frameRepeat + 1);
    forall n | 0 <= n <= frameRepeat
      ensures !FrameAdvance(Rounds(FrameState(true, false, 0), frameRepeat, n), frameRepeat, true).burstComplete
    {
      RoundsStartFrames(frameRepeat, n);
    }
  }

  /** `processTx`'s inter-burst test: the tick wrapped, or `(now - last) * 1000` in uint32 exceeds the delay. */
  predicate BurstDue(now: nat, last: nat, burstDelayUs: nat): (due: bool)
    ensures now < last ==> due
    ensures last <= now && (now - last) * 1000 < TWO_POW_32 ==> (due <==> (now - last) * 1000 > burstDelayUs)
  {
    now < last || MulU32(now - last, 1000) > burstDelayUs
  }

  /** `processTx`'s rewrite of `last_frame_time_ms` when the tick counter is below it. */
  function AdjustedLast(now: nat, last: nat): (r: nat)
    requires IsU32(last)
    ensures IsU32(r)
    ensures now < last ==> r + last == UINT32_MAX
    ensures last <= now ==> r == last
  {
    if now < last then UINT32_MAX - last else last
  }

  /**
   * The inter-frame test: the tick is below the (adjusted) last time, or
   * at least `frame_delay_us / 1000` ms have passed (a float comparison in
   * the source, exact here).
   */
  predicate FrameDue(now: nat, last: nat, frameDelayUs: nat): (due: bool)
    ensures now < last ==> due
    ensures last <= now ==> (due <==> now - last >= (frameDelayUs + 999) / 1000)
  {
    now < last || (now - last) * 1000 >= frameDelayUs
  }

  /** The status word `makeTxPacket` leaves: EMPTY set, EMPTY cleared, or EMPTY cleared and PREP_FAILED set. */
  function StatusAfterMake(bits: bv32, empty: bool, binary: bool): bv32 {
    if empty then RaiseTx(bits, TX_BUFFER_EMPTY)
    else if binary then LowerTx(bits, TX_BUFFER_EMPTY)
    else RaiseTx(LowerTx(bits, TX_BUFFER_EMPTY), TX_PREP_FAILED)
  }

  /** `status |= (flag << 8)`: raises a transmitter flag. */
  function RaiseTx(bits: bv32, flag: bv32): bv32 {
    bits | (flag << 8)
  }

  /** `status &= ~(flag << 8)`: lowers a transmitter flag. */
  function LowerTx(bits: bv32, flag: bv32): bv32 {
    bits & !(flag << 8)
  }

  /**
   * `processTx`'s test of the EMPTY and PREP_FAILED flags after
   * `makeTxPacket` passes exactly when the head row was encoded and no
   * earlier PREP_FAILED is pending; TX_COMPLETE is left as it was.
   */
  lemma PrepFlagsAfterMake(bits: bv32, empty: bool, binary: bool)
    ensures var after := StatusAfterMake(bits, empty, binary);
      && ((after >> 8) & (TX_BUFFER_EMPTY | TX_PREP_FAILED) == 0) == (!empty && binary && bits & (TX_PREP_FAILED << 8) == 0)
      && after & (TX_COMPLETE << 8) == bits & (TX_COMPLETE << 8)
  {
  }

  /**
   * The mask `status &= (TX_COMPLETE << 8)` of a burst start keeps only
   * the TX_COMPLETE flag: the receiver byte is emptied, and with it any
   * RX_WORD_AVAILABLE flag not yet reported.
   */
  lemma BurstMaskClearsRx(st: StatusRegister, before: bv32)
    requires st.bits == before & (TX_COMPLETE << 8)
    ensures st.RxByte() == 0
    ensures st.TxByte() == (before >> 8) & TX_COMPLETE
  {
  }

  // ---------------------------------------------------------------------
  // The DMA packet

  class TxPacket {
    var frameComplete: bool
    var burstComplete: bool
    var framesSent: nat
    var lastFrameTimeMs: nat
    const dmaBuffer: array<nat>
    var dmaLen: nat

    ghost predicate Valid()
      reads this
    {
      dmaBuffer.Length == DMA_LEN && dmaLen <= DMA_LEN && framesSent < 256 && IsU32(lastFrameTimeMs)
    }

    function State(): FrameState
      reads this
    {
      FrameState(frameComplete, burstComplete, framesSent)
    }

    /**
     * The DMA buffer holds what `makeTxPacket` leaves for a non-empty row:
     * the encoding of a binary row followed by zeros, with `dma_len` its
     * length, or nothing at all (zeros and `dma_len` 0) when the row does
     * not encode.
     */
    ghost predicate Loaded(row: seq<char>, tShort: nat, tLong: nat, invertLogic: bool)
      reads this, dmaBuffer
    {
      && dmaBuffer.Length == DMA_LEN
      && (IsBinary(row) ==> var d := Encode(row, tShort, tLong, invertLogic).value;
            && dmaLen == |d|
            && forall k :: 0 <= k < DMA_LEN ==> dmaBuffer[k] == if k < |d| then d[k] else 0)
      && (!IsBinary(row) ==> dmaLen == 0 && forall k :: 0 <= k < DMA_LEN ==> dmaBuffer[k] == 0)
    }

    /** The packet starts idle: both completion flags set, nothing sent, nothing queued for DMA. */
    constructor ()
      ensures Valid() && fresh(dmaBuffer)
      ensures frameComplete && burstComplete && framesSent == 0 && lastFrameTimeMs == 0 && dmaLen == 0
    {
      frameComplete, burstComplete, framesSent, lastFrameTimeMs := true, true, 0, 0;
      dmaBuffer := new nat[DMA_LEN](_ => 0);
      dmaLen := 0;
    }

    /** Zeroes the DMA buffer and `dma_len`, leaving the pacing fields alone. */
    method Clear()
      requires Valid()
      modifies this, dmaBuffer
      ensures Valid() && dmaLen == 0
      ensures forall k :: 0 <= k < DMA_LEN ==> dmaBuffer[k] == 0
      ensures State() == old(State()) && lastFrameTimeMs == old(lastFrameTimeMs)
    {
      dmaLen := 0;
      forall k | 0 <= k < dmaBuffer.Length {
        dmaBuffer[k] := 0;
      }
    }

    /**
     * The encoding loop of `makeTxPacket`: the buffer is cleared, then
     * each symbol of `row` appends its duty value and the 0 stop marker
     * ends the packet; a symbol other than '0'/'1' clears the buffer again
     * and fails.
     */
    method Load(row: seq<char>, tShort: nat, tLong: nat, invertLogic: bool) returns (ok: bool)
      requires Valid() && |row| < TX_MAX_BITS
      modifies this, dmaBuffer
      ensures Valid() && ok == IsBinary(row)
      ensures State() == old(State()) && lastFrameTimeMs == old(lastFrameTimeMs)
      ensures Loaded(row, tShort, tLong, invertLogic)
    {
      Clear();
      var i := 0;
      while i < |row|
        invariant 0 <= i <= |row| && Valid()
        invariant IsBinary(row[..i]) && dmaLen == i
        invariant State() == old(State()) && lastFrameTimeMs == old(lastFrameTimeMs)
        invariant forall k :: 0 <= k < i ==> row[k] in "01" && dmaBuffer[k] == Duty(row[k], tShort, tLong, invertLogic)
        invariant forall k :: i <= k < DMA_LEN ==> dmaBuffer[k] == 0
      {
        if row[i] == '1' {
          dmaBuffer[dmaLen] := if invertLogic then tLong else tShort;
          dmaLen := dmaLen + 1;
        } else if row[i] == '0' {
          dmaBuffer[dmaLen] := if invertLogic then tShort else tLong;
          dmaLen := dmaLen + 1;
        } else {
          Clear();
          return false;
        }
        assert row[..i + 1] == row[..i] + [row[i]];
        i := i + 1;
      }
      assert row[..i] == row;

      // the stop marker
      dmaBuffer[dmaLen] := 0;
      dmaLen := dmaLen + 1;
      ok := true;
    }

    /**
     * `HAL_TIM_PWM_PulseFinishedCallback`: on the transmit channel, stops
     * the DMA, marks the frame complete and records the tick.
     */
    method PulseFinished(isTxChannel: bool, now: nat, board: Board)
      requires Valid() && IsU32(now)
      modifies this, board
      ensures Valid()
      ensures isTxChannel ==> frameComplete && lastFrameTimeMs == now && !board.dmaRunning
      ensures !isTxChannel ==> frameComplete == old(frameComplete) && lastFrameTimeMs == old(lastFrameTimeMs)
                               && board.dmaRunning == old(board.dmaRunning)
      ensures burstComplete == old(burstComplete) && framesSent == old(framesSent) && dmaLen == old(dmaLen)
      ensures board.rxEnabled == old(board.rxEnabled) && board.txActive == old(board.txActive)
      ensures board.dmaStarts == old(board.dmaStarts)
      ensures board.rxEnables == old(board.rxEnables) && board.rxDisables == old(board.rxDisables)
    {
      if isTxChannel {
        board.dmaRunning := false;
        frameComplete := true;
        lastFrameTimeMs := now;
      }
    }
  }

  // ---------------------------------------------------------------------
  // The transmitter settings and queue

  class Transmitter {
    var invertLogic: bool
    var ignoreSyncBit: bool
    var tShort: nat
    var tLong: nat
    var frameDelayUs: nat
    var burstDelayUs: nat
    var frameRepeat: nat
    /** The queue; a row is the queued word without its NUL terminator, `[]` when the row is empty. */
    const buffer: array<seq<char>>

    /** The occupied rows of the queue come first. */
    ghost predicate QueuePrefix()
      reads this, buffer
      requires buffer.Length == TX_BUFFER_LEN
    {
      forall i, j :: 0 <= i < j < TX_BUFFER_LEN && buffer[i] == [] ==> buffer[j] == []
    }

    ghost predicate Valid()
      reads this, buffer
    {
      && buffer.Length == TX_BUFFER_LEN
      && (forall r :: 0 <= r < TX_BUFFER_LEN ==> |buffer[r]| < TX_MAX_BITS && '\0' !in buffer[r])
      && QueuePrefix()
      && tShort <= tLong <= T_PULSE_MAX
      && IsU32(frameDelayUs) && IsU32(burstDelayUs) && frameRepeat < 256
    }

    /** The transmitter defaults: 300/700 us pulses, 6.6 ms between frames, 100 ms between bursts, 7 repeats. */
    constructor ()
      ensures Valid() && fresh(buffer)
      ensures !invertLogic && !ignoreSyncBit
      ensures tShort == 300 && tLong == 700 && frameDelayUs == 6600 && burstDelayUs == 100000 && frameRepeat == 7
      ensures forall r :: 0 <= r < TX_BUFFER_LEN ==> buffer[r] == []
    {
      invertLogic, ignoreSyncBit := false, false;
      tShort, tLong := 300, 700;
      frameDelayUs, burstDelayUs := 6600, 100000;
      frameRepeat := 7;
      buffer := new seq<char>[TX_BUFFER_LEN](_ => []);
    }

    /**
     * `makeTxPacket`: an empty head row sets TX_BUFFER_EMPTY and leaves the
     * packet alone. Otherwise TX_BUFFER_EMPTY is cleared, `frames_sent` is
     * reset, and the DMA buffer receives the encoding of the head row; a
     * symbol other than '0'/'1' instead leaves the buffer zeroed with
     * `dma_len` 0 and sets TX_PREP_FAILED.
     */
    method MakeTxPacket(packet: TxPacket, st: StatusRegister)
      requires Valid() && packet.Valid()
      modifies packet, packet.dmaBuffer, st
      ensures packet.Valid()
      ensures packet.frameComplete == old(packet.frameComplete) && packet.burstComplete == old(packet.burstComplete)
      ensures packet.lastFrameTimeMs == old(packet.lastFrameTimeMs)
      ensures st.bits == StatusAfterMake(old(st.bits), buffer[0] == [], IsBinary(buffer[0]))
      ensures buffer[0] == [] ==>
        && packet.dmaLen == old(packet.dmaLen) && packet.framesSent == old(packet.framesSent)
        && packet.dmaBuffer[..] == old(packet.dmaBuffer[..])
      ensures buffer[0] != [] ==> packet.framesSent == 0 && packet.Loaded(buffer[0], tShort, tLong, invertLogic)
    {
      if buffer[0] == [] {
        st.bits := RaiseTx(st.bits, TX_BUFFER_EMPTY);
        return;
      }
      st.bits := LowerTx(st.bits, TX_BUFFER_EMPTY);
      packet.framesSent := 0;
      var ok := packet.Load(buffer[0], tShort, tLong, invertLogic);
      if !ok {
        st.bits := RaiseTx(st.bits, TX_PREP_FAILED);
      }
    }

    /** `makeTxPacket` followed by `processTx`'s test of the EMPTY and PREP_FAILED flags. */
    method PrepareBurst(packet: TxPacket, st: StatusRegister) returns (ok: bool)
      requires Valid() && packet.Valid()
      modifies packet, packet.dmaBuffer, st
      ensures packet.Valid()
      ensures ok == (buffer[0] != [] && IsBinary(buffer[0]) && old(st.bits) & (TX_PREP_FAILED << 8) == 0)
      ensures packet.frameComplete == old(packet.frameComplete) && packet.burstComplete == old(packet.burstComplete)
      ensures packet.lastFrameTimeMs == old(packet.lastFrameTimeMs)
      ensures st.bits == StatusAfterMake(old(st.bits), buffer[0] == [], IsBinary(buffer[0]))
      ensures buffer[0] == [] ==>
        && packet.dmaLen == old(packet.dmaLen) && packet.framesSent == old(packet.framesSent)
        && packet.dmaBuffer[..] == old(packet.dmaBuffer[..])
      ensures buffer[0] != [] ==> packet.framesSent == 0 && packet.Loaded(buffer[0], tShort, tLong, invertLogic)
      ensures ok ==> packet.dmaLen == |buffer[0]| + 1 && st.bits & (TX_COMPLETE << 8) == old(st.bits) & (TX_COMPLETE << 8)
    {
      ghost var bits0 := st.bits;
      MakeTxPacket(packet, st);
      PrepFlagsAfterMake(bits0, buffer[0] == [], IsBinary(buffer[0]));
      ok := (st.bits >> 8) & (TX_BUFFER_EMPTY | TX_PREP_FAILED) == 0;
    }

    /**
     * The burst part of `processTx`. When the previous burst is complete and
     * the inter-burst delay has elapsed, prepares the head row; if that
     * succeeded, starts the burst: `burst_complete` is cleared, the status
     * word is masked with `TX_COMPLETE << 8`, the activity pin goes high, and
     * in receive mode 2 an enabled radio is switched off. A TX_PREP_FAILED
     * flag still set from an earlier failure also stops the burst. Returns
     * whether `processTx` carries on to the frame part.
     */
    method BurstPart(now: nat, rxMode: nat, packet: TxPacket, st: StatusRegister, board: Board)
      returns (proceed: bool, ghost started: bool)
      requires Valid() && packet.Valid() && IsU32(now)
      modifies packet, packet.dmaBuffer, st, board
      ensures packet.Valid()
      ensures started == (old(packet.burstComplete) && BurstDue(now, old(packet.lastFrameTimeMs), burstDelayUs)
                          && buffer[0] != [] && IsBinary(buffer[0]) && old(st.bits) & (TX_PREP_FAILED << 8) == 0)
      ensures proceed == (!old(packet.burstComplete) || started)
      ensures packet.frameComplete == old(packet.frameComplete) && packet.lastFrameTimeMs == old(packet.lastFrameTimeMs)
      ensures board.dmaStarts == old(board.dmaStarts) && board.dmaRunning == old(board.dmaRunning)
      ensures board.rxEnables == old(board.rxEnables)
      ensures !started ==> packet.burstComplete == old(packet.burstComplete)
      ensures !started ==> board.rxEnabled == old(board.rxEnabled) && board.txActive == old(board.txActive)
                           && board.rxDisables == old(board.rxDisables)
      ensures !old(packet.burstComplete) || !BurstDue(now, old(packet.lastFrameTimeMs), burstDelayUs) ==>
        && st.bits == old(st.bits) && packet.State() == old(packet.State())
        && packet.dmaLen == old(packet.dmaLen) && packet.dmaBuffer[..] == old(packet.dmaBuffer[..])
      ensures started ==>
        && !packet.burstComplete && packet.framesSent == 0
        && st.bits == old(st.bits) & (TX_COMPLETE << 8)
        && board.txActive
        && board.rxEnabled == (old(board.rxEnabled) && rxMode != 2)
        && board.rxDisables == old(board.rxDisables) + (if rxMode == 2 && old(board.rxEnabled) then 1 else 0)
        && packet.dmaLen == |buffer[0]| + 1
      ensures old(packet.burstComplete) && BurstDue(now, old(packet.lastFrameTimeMs), burstDelayUs) ==>
        && (buffer[0] == [] ==>
              && packet.dmaLen == old(packet.dmaLen) && packet.framesSent == old(packet.framesSent)
              && packet.dmaBuffer[..] == old(packet.dmaBuffer[..]))
        && (buffer[0] != [] ==> packet.framesSent == 0 && packet.Loaded(buffer[0], tShort, tLong, invertLogic))
        && (!started ==> st.bits == StatusAfterMake(old(st.bits), buffer[0] == [], IsBinary(buffer[0])))
    {
      started := false;
      if !packet.burstComplete {
        return true, false;
      }
      if !BurstDue(now, packet.lastFrameTimeMs, burstDelayUs) {
        return false, false;
      }
      var ok := PrepareBurst(packet, st);
      if !ok {
        return false, false;
      }
      packet.burstComplete := false;
      st.bits := st.bits & (TX_COMPLETE << 8);
      board.txActive := true;
      if rxMode == 2 && board.rxEnabled {
        board.DisableRx();
      }
      return true, true;
    }

    /**
     * The frame part of `processTx`. After a completed frame: a tick below
     * `last_frame_time_ms` rewrites it to `UINT32_MAX - last`; then either
     * the burst completes (more than `frame_repeat` frames sent: sets
     * TX_COMPLETE, drops the activity pin and, in receive mode 2, turns a
     * disabled radio back on) or, once the frame delay has elapsed, the next
     * frame's DMA transmission starts.
     */
    method FramePart(now: nat, rxMode: nat, packet: TxPacket, st: StatusRegister, board: Board)
      requires Valid() && packet.Valid() && IsU32(now)
      modifies packet, st, board
      ensures packet.Valid()
      ensures packet.dmaLen == old(packet.dmaLen)
      ensures !old(packet.frameComplete) ==>
        && packet.State() == old(packet.State()) && packet.lastFrameTimeMs == old(packet.lastFrameTimeMs)
        && st.bits == old(st.bits)
        && board.rxEnabled == old(board.rxEnabled) && board.txActive == old(board.txActive)
        && board.dmaStarts == old(board.dmaStarts) && board.rxEnables == old(board.rxEnables)
      ensures old(packet.frameComplete) ==>
        var last := AdjustedLast(now, old(packet.lastFrameTimeMs));
        var due := FrameDue(now, last, frameDelayUs);
        && packet.lastFrameTimeMs == last
        && packet.State() == FrameAdvance(old(packet.State()), frameRepeat, due)
        && (old(packet.framesSent) > frameRepeat ==>
              && st.bits == old(st.bits) | (TX_COMPLETE << 8)
              && !board.txActive
              && board.rxEnabled == (old(board.rxEnabled) || rxMode == 2)
              && board.rxEnables == old(board.rxEnables) + (if rxMode == 2 && !old(board.rxEnabled) then 1 else 0)
              && board.dmaStarts == old(board.dmaStarts))
        && (old(packet.framesSent) <= frameRepeat ==>
              && st.bits == old(st.bits)
              && board.rxEnabled == old(board.rxEnabled) && board.txActive == old(board.txActive)
              && board.rxEnables == old(board.rxEnables)
              && board.dmaStarts == old(board.dmaStarts) + (if due then 1 else 0))
      ensures board.rxDisables == old(board.rxDisables)
    {
      if !packet.frameComplete {
        return;
      }
      if now < packet.lastFrameTimeMs {
        packet.lastFrameTimeMs := UINT32_MAX - packet.lastFrameTimeMs;
      }
      if packet.framesSent > frameRepeat {
        packet.burstComplete := true;
        st.bits := st.bits | (TX_COMPLETE << 8);
        board.txActive := false;
        if rxMode == 2 && !board.rxEnabled {
          board.EnableRx();
        }
      } else if now < packet.lastFrameTimeMs || (now - packet.lastFrameTimeMs) * 1000 >= frameDelayUs {
        packet.frameComplete := false;
        packet.framesSent := (packet.framesSent + 1) % 256;
        board.StartDma();
      }
    }

    /**
     * `processTx`: the burst part, then, unless it returned early, the frame
     * part. A call either starts at most one burst or at most one frame;
     * the frame that follows a burst start in the same call is its first.
     */
    method ProcessTx(now: nat, rxMode: nat, packet: TxPacket, st: StatusRegister, board: Board)
      returns (ghost burstStarted: bool)
      requires Valid() && packet.Valid() && IsU32(now)
      modifies packet, packet.dmaBuffer, st, board
      ensures packet.Valid()
      ensures burstStarted == (old(packet.burstComplete) && BurstDue(now, old(packet.lastFrameTimeMs), burstDelayUs)
                               && buffer[0] != [] && IsBinary(buffer[0]) && old(st.bits) & (TX_PREP_FAILED << 8) == 0)
      // waiting out the inter-burst delay: nothing changes
      ensures old(packet.burstComplete) && !BurstDue(now, old(packet.lastFrameTimeMs), burstDelayUs) ==>
        && st.bits == old(st.bits) && packet.State() == old(packet.State())
        && packet.lastFrameTimeMs == old(packet.lastFrameTimeMs)
        && packet.dmaLen == old(packet.dmaLen) && packet.dmaBuffer[..] == old(packet.dmaBuffer[..])
        && board.rxEnabled == old(board.rxEnabled) && board.txActive == old(board.txActive)
        && board.dmaStarts == old(board.dmaStarts)
        && board.rxEnables == old(board.rxEnables) && board.rxDisables == old(board.rxDisables)
      // a due burst always runs `makeTxPacket` on the head row
      ensures old(packet.burstComplete) && BurstDue(now, old(packet.lastFrameTimeMs), burstDelayUs) ==>
        && (buffer[0] == [] ==> packet.dmaLen == old(packet.dmaLen) && packet.dmaBuffer[..] == old(packet.dmaBuffer[..]))
        && (buffer[0] != [] ==> packet.Loaded(buffer[0], tShort, tLong, invertLogic))
      // a due burst whose preparation failed: only the flags of `makeTxPacket` and the packet change
      ensures old(packet.burstComplete) && BurstDue(now, old(packet.lastFrameTimeMs), burstDelayUs) && !burstStarted ==>
        && st.bits == StatusAfterMake(old(st.bits), buffer[0] == [], IsBinary(buffer[0]))
        && packet.burstComplete && packet.frameComplete == old(packet.frameComplete)
        && packet.framesSent == (if buffer[0] == [] then old(packet.framesSent) else 0)
        && packet.lastFrameTimeMs == old(packet.lastFrameTimeMs)
        && board.rxEnabled == old(board.rxEnabled) && board.txActive == old(board.txActive)
        && board.dmaStarts == old(board.dmaStarts)
        && board.rxEnables == old(board.rxEnables) && board.rxDisables == old(board.rxDisables)
      // a burst starts, and its first frame goes out if the frame delay allows
      ensures burstStarted ==>
        && st.bits == old(st.bits) & (TX_COMPLETE << 8)
        && !packet.burstComplete && board.txActive
        && board.rxEnabled == (old(board.rxEnabled) && rxMode != 2)
        && board.rxDisables == old(board.rxDisables) + (if rxMode == 2 && old(board.rxEnabled) then 1 else 0)
        && board.rxEnables == old(board.rxEnables)
        && packet.dmaLen == |buffer[0]| + 1
      ensures burstStarted && old(packet.frameComplete) ==>
        var last := AdjustedLast(now, old(packet.lastFrameTimeMs));
        var due := FrameDue(now, last, frameDelayUs);
        && packet.lastFrameTimeMs == last
        && packet.frameComplete == !due && packet.framesSent == (if due then 1 else 0)
        && board.dmaStarts == old(board.dmaStarts) + (if due then 1 else 0)
      ensures burstStarted && !old(packet.frameComplete) ==>
        && !packet.frameComplete && packet.framesSent == 0
        && packet.lastFrameTimeMs == old(packet.lastFrameTimeMs) && board.dmaStarts == old(board.dmaStarts)
      // within a burst: the frame part alone
      ensures !old(packet.burstComplete) ==>
        && packet.dmaLen == old(packet.dmaLen) && packet.dmaBuffer[..] == old(packet.dmaBuffer[..])
        && board.rxDisables == old(board.rxDisables)
      ensures !old(packet.burstComplete) && !old(packet.frameComplete) ==>
        && packet.State() == old(packet.State()) && packet.lastFrameTimeMs == old(packet.lastFrameTimeMs)
        && st.bits == old(st.bits)
        && board.rxEnabled == old(board.rxEnabled) && board.txActive == old(board.txActive)
        && board.dmaStarts == old(board.dmaStarts) && board.rxEnables == old(board.rxEnables)
      ensures !old(packet.burstComplete) && old(packet.frameComplete) ==>
        var last := AdjustedLast(now, old(packet.lastFrameTimeMs));
        var due := FrameDue(now, last, frameDelayUs);
        && packet.lastFrameTimeMs == last
        && packet.State() == FrameAdvance(old(packet.State()), frameRepeat, due)
        && (old(packet.framesSent) > frameRepeat ==>
              && st.bits == old(st.bits) | (TX_COMPLETE << 8)
              && !board.txActive
              && board.rxEnabled == (old(board.rxEnabled) || rxMode == 2)
              && board.rxEnables == old(board.rxEnables) + (if rxMode == 2 && !old(board.rxEnabled) then 1 else 0)
              && board.dmaStarts == old(board.dmaStarts))
        && (old(packet.framesSent) <= frameRepeat ==>
              && st.bits == old(st.bits)
              && board.rxEnabled == old(board.rxEnabled) && board.txActive == old(board.txActive)
              && board.rxEnables == old(board.rxEnables)
              && board.dmaStarts == old(board.dmaStarts) + (if due then 1 else 0))
    {
      var proceed;
      proceed, burstStarted := BurstPart(now, rxMode, packet, st, board);
      if !proceed {
        return;
      }
      FramePart(now, rxMode, packet, st, board);
    }
  }
}
